=== FILE: README.md ===
# Cashflow of a boarding house: a verified model

The application keeps the books of a boarding house ("kos"). It stores five collections:
residents, transactions, WiFi bills, WiFi usage declarations and manually entered WiFi debts.
Transactions are kas (the monthly communal due), wifi payments and expenses ("pengeluaran",
stored with negative amounts). On top of these collections it computes:

- the kas tariff, which switches to new rates in July 2025;
- the split of a month's WiFi bill between full users (weight 1) and half users (weight 0.75);
- each resident's arrears ("tunggakan"), plus the WiFi debts of people who have left;
- the ledger with its running balance, grouped for display;
- the yearly recap grid and the summary returned by `/api/summary`;
- what the admin, payment and WiFi pages do with the data they load.

This project models that logic in Dafny:

- `Month` is a year and a month from 1 to 12. It is ordered by `Index = 12 * year + month - 1`, which is the order of the canonical `YYYY-MM` strings the code compares.
- The collections are sequences of datatypes.
- Each API route is a function from the stored list to the list it writes back.
- Each page handler is a function from the loaded data and the form to its outcome.

The modules are:

- `Calculations`: the kas tariff and the WiFi split. Rounding is exact integer round-half-up.
- `Months`: the month range generator.
- `WifiAllocation`: the per-member share as the three pages compute it inline.
- `Ledger`: the running balance, plus the two timeline groupings on the dashboard.
- `Rekap`: the yearly recap grid.
- `Arrears`: unpaid kas months and WiFi debts per resident or former resident.
- `Summary`: `/api/summary`.
- The API routes: `TransactionsRoute`, `MembersRoute`, `BillsRoute`, `UsageRoute`, `DebtsRoute`, with `Collections` for delete-by-id.
- The pages: `Admin`, `Payment`, `WifiPage`.

Generic sequence, sorting and grouping machinery lives in `Seqs`, `Sorting` and `Grouping`. `Grouping` is the JavaScript idiom of looking up an existing group with `find` and appending a new group otherwise.

Behaviour worth knowing before reading the contracts:

- **Unknown residency status.** Any status other than "full" and "none" is charged at the half rate; no error is raised (`Calculations.KasUnknownStatusIsHalf`).
- **Timeline grouping.** A transaction is merged into ANY earlier group with the same (member, day, type), found with `groups.find`, not only into an adjacent one (`Ledger.DayGroupsSound`, `Ledger.DayGroupsCover`). The admin history does the same.
- **Rounding.** `Math.round` rounds halves up (towards +∞). The model does the same; this only matters for negative bills.
- **Ledger column names.** The code calls a non-expense amount `debit` and an expense's magnitude `kredit`. The model keeps the code's names.

## Model

| member | source | states |
|---|---|---|
| Calculations.CalculateKas | lib/calculations.js:6-18 | the due is the rate of the month's regime (July 2025 and later: new rates) for the status's tier; "none" and "full" are recognised and every other status takes the half tier |
| Calculations.KasValues | app/admin/page.js:12-18 | the admin page's copy of the tariff only ever yields 10000, 12500, 15000, 25000 or 30000, and yields 10000 exactly for "none" |
| Calculations.KasHalfIsHalfOfFull | lib/calculations.js:13-17 | in every month the half rate is exactly half the full rate |
| Calculations.KasUnknownStatusIsHalf | app/payment/page.js:12-18 | an unrecognised status is priced like "half", never rejected |
| Calculations.KasCutover | app/page.js:153-158 | June 2025 costs 25000 and July 2025 costs 30000 at "full"; for a fixed status the due never decreases from one month to a later one |
| Calculations.RoundDiv | lib/calculations.js:31-32 | the result is the integer nearest to p/q with halves rounded up, which is what `Math.round(p / q)` gives |
| Calculations.RoundsToUnique | lib/calculations.js:31-32 | that rounding has exactly one answer |
| Calculations.CalculateWifi | lib/calculations.js:24-34 | both shares are 0 when the bill is 0 or nobody uses WiFi; otherwise the full share is 4B/(4f+3h) and the half share 3B/(4f+3h), each rounded on its own |
| Calculations.WifiExamples | lib/calculations.js:24-34 | a bill of 100000 for 4 full users gives 25000/18750; a bill of 305250 for 1 full and 2 half users gives 122100/91575 |
| Calculations.HalfShareAtMostFullShare | lib/calculations.js:28-33 | for a non-negative bill the half share lies between 0 and the full share |
| Calculations.WifiDrift | lib/calculations.js:28-33 | what the f full and h half users pay together differs from the bill by at most (f+h)/2 |
| Months.Next | app/page.js:141 | the month after December is January of the next year; in general the next month is one index later |
| Months.MonthsBetween | app/page.js:134-145 | the range has end-start+1 months, each one later than the one before; it is empty when start is after end |
| Months.MonthsBetweenMember | app/page.js:139-142 | a month is in the range iff it lies between start and end inclusive |
| Months.MonthsBetweenIncreasing | app/page.js:139-142 | the months of the range are strictly increasing |
| Months.GenMonths | app/page.js:134-145 | the loop's output is exactly the inclusive month range |
| Months.YearRolloverExample | app/page.js:134-145 | November 2025 to February 2026 gives four months across the year boundary |
| Records.OrElse | app/api/transactions/route.js:20-22 | `value \|\| fallback`: a present non-empty string is kept; an absent or empty one becomes the fallback |
| Records.FirstPayment | app/api/summary/route.js:31-36 | a payment is found iff some transaction matches member, type and month, and it is the first match in stored order |
| WifiAllocation.BillFor | app/admin/page.js:77 | a bill is found iff one exists for the month, and it is the first such bill |
| WifiAllocation.HeadcountOf | app/admin/page.js:78-80 | the full and half counts together never exceed the month's declarations |
| WifiAllocation.LevelShare | app/admin/page.js:82-86 | the inline formula equals the `calculateWifi` share of the level: the half share for "half", the full share for any other level |
| WifiAllocation.FirstDeclaration | app/admin/page.js:77-84 | a declaration is found iff the member declared for the month; it is the first such declaration in stored order |
| WifiAllocation.MemberWifiShare | app/admin/page.js:76-87 | a non-zero share needs a bill, some full or half users and a declaration by the member; with a bill and a declaration, it is the `calculateWifi` share of the declared level |
| WifiAllocation.PreviewAmount | app/wifi/page.js:78-88 | 0 without a bill; with one, the `calculateWifi` share of the level selected in the form |
| WifiAllocation.PreviewMatchesCharge | app/wifi/page.js:78-88 | previewing the level the member actually declared gives exactly what the admin and payment pages charge |
| Ledger.Abs | app/api/summary/route.js:17 | `Math.abs`: non-negative and equal to x or -x |
| Ledger.Timeline | app/page.js:96-104 | the timeline holds every transaction exactly once, in non-decreasing date order; each row carries its transaction's debit and kredit, and its saldo is the sum of debit minus kredit over the rows up to and including it |
| Ledger.RunningBalance | app/page.js:97-104 | every entry carries its transaction's debit and kredit, and a saldo equal to the sum of debit minus kredit up to and including it |
| Ledger.FinalSaldo | app/page.js:97-104 | the last saldo is the total debit minus the total kredit of all transactions |
| Ledger.FinalSaldoOrderIndependent | app/page.js:96-104 | the final saldo does not depend on the order the transactions were stored in |
| Ledger.TimelineByMonth | app/page.js:107-112 | the timeline grouped by month paid for: every group non-empty, no month twice |
| Ledger.TimelineByMonthGroups | app/page.js:107-112 | every entry lands in exactly one month group, the group of its month; group keys are distinct; each group holds its month's entries in timeline order |
| Ledger.DayTotalsOfItems | app/page.js:356-372 | a group's header shows its first entry's name (or "—") and date, its debit and kredit totals, and its last entry's saldo |
| Ledger.DayGroups | app/page.js:348-374 | the year's timeline grouped by (member, day, type): every group non-empty, no two groups with the same key |
| Ledger.DayGroupsSound | app/page.js:348-374 | each (member, day, type) group of the year is non-empty, holds exactly the year's entries with its key, carries its items' totals, and no other group has its key |
| Ledger.DayGroupsCover | app/page.js:348-374 | every entry of the year is in a group, and only in the group of its own key |
| Ledger.DayGroupsDebitTotal | app/page.js:348-374 | grouping neither loses nor duplicates money: the groups' debit totals add up to the year's debit |
| Ledger.DayGroupsKreditTotal | app/page.js:348-374 | the groups' kredit totals add up to the year's kredit |
| Rekap.MonthOfYear | app/page.js:78 | the k-th month key of the year is month k+1 of that year |
| Rekap.RekapData | app/page.js:80-89 | one row per member in member order, each with twelve cells |
| Rekap.RekapCell | app/page.js:82-85 | a cell is filled iff the member has a transaction of that type for that month, and it then shows the first such transaction's amount |
| Arrears.Earliest | app/page.js:169 | the first month is one of the member's kas months and no kas month comes before it |
| Arrears.EarliestMeaning | app/page.js:169 | a month is at or after the first kas month iff some kas payment of the member is at or before it |
| Arrears.PaidMonthsMeaning | app/page.js:171 | a month is in the paid set iff the member has a kas transaction for it; duplicates still count as paid |
| Arrears.KasMonthsOwed | app/page.js:165-174 | a member without kas transactions owes no kas month |
| Arrears.KasMonthsOwedMember | app/page.js:168-173 | a month is owed iff it is not after the current month, not before the member's first kas month, and has no kas payment |
| Arrears.UnpaidKas | app/page.js:165-175 | a member without kas transactions owes no kas |
| Arrears.NoKasNoneSelected | app/page.js:165-168 | without kas transactions the member's kas selection is empty |
| Arrears.UnpaidKasMembers | app/page.js:168-174 | (month, amount) is listed iff the month is owed and the amount is the tariff of that month at the member's CURRENT status |
| Arrears.PricedMember | app/page.js:174 | pricing a list of months keeps exactly those months, each at its tariff |
| Arrears.UnpaidKasAscending | app/page.js:170-174 | the owed months are listed in strictly increasing order |
| Arrears.ResidentDebts | app/page.js:178-179 | the member has WiFi debts iff some debt carries their id, and the listed debts add up to the total of those debts |
| Arrears.DueTotal | app/page.js:187 | listing debts as (month, amount) keeps their total |
| Arrears.ResidentArrears | app/page.js:164-189 | a record exists iff the member owes some kas month or has a WiFi debt; it then lists exactly the member's owed kas months with their sum, the member's debts copied in stored order, and the WiFi total of those debts |
| Arrears.ResidentRecords | app/page.js:164-190 | exactly one record per owing member, in member order: the k-th record is the arrears of the k-th member who owes a kas month or has a WiFi debt |
| Arrears.ResidentRecordsComplete | app/page.js:164-190 | every member who owes something has a record |
| Arrears.FormerGroups | app/page.js:193-198 | the orphan debts grouped by name: every group non-empty, no name twice |
| Arrears.FormerRecords | app/page.js:193-207 | one record per name group, carrying that name and exactly the group's debts as (month, amount) in stored order; every orphan debt (member id 0 or no such member) is listed in the record under its own name |
| Arrears.FormerDebtCovered | app/page.js:193-198 | an orphan debt lies in the group of its name and in no other group |
| Arrears.FormerRecordsSound | app/page.js:193-207 | a former resident's record has no kas and a non-empty WiFi list totalling its debts; that list is exactly the debts with member id 0 or an unknown id carrying that name, as (month, amount) in stored order; names are distinct |
| Arrears.ComputeArrears | app/page.js:161-212 | the result is a reordering of the resident records followed by the former-resident records, sorted by total owed, highest first |
| Arrears.ArrearsNonEmpty | app/page.js:181 | no record is listed with nothing owed |
| Arrears.ExampleRange | app/page.js:134-145 | January to April 2025 gives four consecutive months |
| Arrears.ExampleUnpaidFilter | app/page.js:170-173 | of January to April 2025, the months not paid when only January is paid are February to April |
| Arrears.ExampleKasHistory | app/page.js:165-171 | a single kas payment for January 2025 is the whole kas history, its earliest month and its only paid month |
| Arrears.ExampleOwedMonths | app/page.js:168-174 | with one kas payment in January 2025 and April 2025 as the current month, February to April are owed |
| Arrears.ArrearsExample | app/page.js:164-187 | a "full" member with only a January 2025 payment owes 25000 for each of February, March and April 2025, 75000 in total |
| Summary.TotalPemasukan | app/api/summary/route.js:10-12 | income is the sum, over all transactions, of the amount of kas transactions and 0 for the rest |
| Summary.TotalPengeluaran | app/api/summary/route.js:15-17 | spending is non-negative: the sum of the magnitudes of the expenses |
| Summary.BalanceVersusLedger | app/api/summary/route.js:20 | the dashboard ledger's final saldo is the summary's kas balance plus every non-kas, non-expense amount (WiFi payments are left out of the kas balance) |
| Summary.RecordingMovesTotals | app/api/summary/route.js:10-20 | recording a transaction adds its amount to income only if it is kas, and its magnitude to spending only if it is an expense; a WiFi payment leaves the balance unchanged |
| Summary.CurrentWifiBill | app/api/summary/route.js:27 | 0 without a bill for the current month; otherwise the first such bill's amount |
| Summary.StatusOf | app/api/summary/route.js:30-38 | paid flags hold iff a matching transaction exists; amounts are the first match's amount, or 0 when unpaid |
| Summary.MemberStatuses | app/api/summary/route.js:30-38 | one status per member, in member order |
| Summary.MonthlyGroups | app/api/summary/route.js:41-49 | one bucket group per month, every group non-empty, no month twice |
| Summary.MonthlyBucket | app/api/summary/route.js:41-49 | each month bucket is named by its month and holds the sums of that month's kas, WiFi and expense magnitudes |
| Summary.ChartData | app/api/summary/route.js:51-53 | the chart lists the month buckets sorted by month |
| Summary.ChartAscending | app/api/summary/route.js:51-53 | chart months are strictly increasing, so no month appears twice |
| Summary.ChartMonths | app/api/summary/route.js:41-53 | a month has a bucket iff some transaction is for that month |
| Summary.ChartTotals | app/api/summary/route.js:41-53 | the buckets' kas, WiFi and expense columns add up to the global totals |
| Summary.SummaryOf | app/api/summary/route.js:55-65 | balance = income - spending, spending non-negative, the current month's bill, one status per member in order, the chart sorted by month, counts of members and transactions |
| Collections.DeleteById | app/api/transactions/route.js:35 | what remains comes from the input and never carries the id, and every item with another id remains |
| Collections.DeleteByIdPieces | app/api/members/route.js:41 | deletion works item by item: it distributes over concatenation and keeps the order of what remains |
| Collections.DeleteByIdCount | app/api/wifi-debts/route.js:20 | every item without the id keeps its multiplicity; items with the id are gone |
| Collections.DeleteByIdIdempotent | app/api/wifi-usage/route.js:42 | deleting the same id twice equals deleting it once |
| Collections.DeleteAbsentId | app/api/transactions/route.js:35 | deleting an id nobody carries changes nothing |
| Collections.DeleteUndoesAppend | app/api/transactions/route.js:35 | deleting, by its fresh id, an item just appended restores the collection |
| TransactionsRoute.NewTransaction | app/api/transactions/route.js:13-23 | the stored transaction copies the body and has the fresh id and the posting time; an absent status or notes becomes "" |
| TransactionsRoute.PostTransaction | app/api/transactions/route.js:13-25 | exactly the new transaction is appended; earlier ones are unchanged |
| TransactionsRoute.DeleteTransaction | app/api/transactions/route.js:35 | the transactions with that id go and the rest stay |
| TransactionsRoute.DeleteUndoesPost | app/api/transactions/route.js:13-35 | with a fresh id, posting and then deleting by that id restores the list |
| TransactionsRoute.DeleteTransactionIdempotent | app/api/transactions/route.js:35 | deleting twice is deleting once |
| MembersRoute.PostMember | app/api/members/route.js:13-19 | exactly one member is appended, with the fresh id and the name; the status defaults to "full" when it is absent or empty |
| MembersRoute.PutMember | app/api/members/route.js:28-30 | ids and order are kept; members with another id are unchanged; the matching member takes the fields the body carries and keeps the others |
| MembersRoute.PutMemberIdempotent | app/api/members/route.js:28-30 | applying the same update twice equals applying it once |
| MembersRoute.DeleteMember | app/api/members/route.js:41 | the members with that id go and the rest stay |
| MembersRoute.DeleteMemberIdempotent | app/api/members/route.js:41 | deleting twice is deleting once |
| DebtsRoute.PostDebt | app/api/wifi-debts/route.js:11-12 | one debt is appended; an id in the body overrides the fresh id; the other fields are copied |
| DebtsRoute.DeleteDebt | app/api/wifi-debts/route.js:20 | the debts with that id go and the rest stay |
| DebtsRoute.DeleteDebtIdempotent | app/api/wifi-debts/route.js:20 | deleting twice is deleting once |
| DebtsRoute.ReusedIdDeletesBoth | app/api/wifi-debts/route.js:11-20 | a body that brings an existing id creates a second debt with that id, and deleting by it removes both |
| UsageRoute.PostUsage | app/api/wifi-usage/route.js:17-31 | the first declaration for the same member and month is replaced in place and keeps its id, and all others stay; without one, a declaration with the fresh id is appended; afterwards the first declaration for the slot has the posted level and name |
| UsageRoute.PostUsageOnePerSlot | app/api/wifi-usage/route.js:17-31 | with at most one declaration per (member, month) before, the same holds after |
| UsageRoute.PostedLevelIsCharged | app/api/wifi-usage/route.js:17-31 | after posting, the share computation finds the posted level for that member and month |
| UsageRoute.DeleteUsage | app/api/wifi-usage/route.js:40-42 | the declarations with that id go and the rest stay |
| UsageRoute.DeleteUsageIdempotent | app/api/wifi-usage/route.js:40-42 | deleting twice is deleting once |
| BillsRoute.PutBills | app/api/wifi-bills/route.js:26-29 | the stored list is the body as sent, whatever was stored before |
| BillsRoute.Upsert | app/api/wifi-bills/route.js:13-18 | the first bill of the month gets the new amount; without one, a bill is appended |
| BillsRoute.PostBill | app/api/wifi-bills/route.js:13-21 | the stored bills are the upserted bills, reordered by month |
| BillsRoute.PostBillContents | app/api/wifi-bills/route.js:13-21 | the posted bill is stored; bills of other months survive; nothing else appears |
| BillsRoute.PostBillUnique | app/api/wifi-bills/route.js:13-21 | with one bill per month before, months stay strictly increasing; the month's bill is the posted one; other months' bills are unchanged |
| BillsRoute.UpsertDistinct | app/api/wifi-bills/route.js:13-18 | upserting keeps one bill per month |
| BillsRoute.OnlyBillOfMonth | app/api/wifi-bills/route.js:21 | in a list with strictly increasing months, the lookup for a bill's month finds that bill |
| Admin.Unmark | app/admin/page.js:90-96 | only transactions already stored remain; the first matching transaction is gone; without a match nothing changes |
| Admin.TogglePaymentStatus | app/admin/page.js:89-111 | a paid entry only loses transactions; unpaid kas leaves the list as it is; unpaid WiFi appends one transaction after which the member is paid |
| Admin.UnmarkEffect | app/admin/page.js:90-96 | un-marking removes every transaction with the first match's id; the entry stays paid iff another match with a different id exists |
| Admin.MarkWifiPaid | app/admin/page.js:100-107 | marking WiFi appends one "wifi" transaction of the member's computed share, with status "admin-set" and the admin note |
| Admin.ConfirmKasPayment | app/admin/page.js:113-119 | confirming kas appends one "kas" transaction priced by the tariff at the chosen status, which is also recorded |
| Admin.ToggleUnpaid | app/admin/page.js:89-123 | toggling unpaid WiFi makes it paid; toggling unpaid kas changes nothing until a status is confirmed, and confirming makes it paid |
| Admin.AppendedPaymentCounts | app/admin/page.js:270-273 | the status view shows an entry as paid as soon as a matching transaction is appended |
| Admin.DeleteWifiBill | app/admin/page.js:164-174 | a bill is kept iff it was stored and is for another month |
| Admin.DeleteWifiBillEffect | app/admin/page.js:164-174 | after deletion no bill of that month is found; every other month finds the same bill as before; deletion keeps order |
| Admin.UsageByMonth | app/admin/page.js:420-425 | the month groups of the declarations, reordered |
| Admin.UsageMonthsDescending | app/admin/page.js:425 | months are listed newest first, each once |
| Admin.UsageMonthItems | app/admin/page.js:420-424 | each month lists its declarations in stored order, and none is empty |
| Admin.UsageMonthListed | app/admin/page.js:420-425 | a month is listed iff some declaration is for it |
| Admin.NewestFirst | app/admin/page.js:459 | the history holds every transaction once, dates non-increasing |
| Admin.History | app/admin/page.js:458-477 | the history grouped by (member, day, type): every group non-empty, no key twice |
| Admin.HistoryHeaderOfItems | app/admin/page.js:467-475 | a group's header carries its first item's name and date |
| Admin.HistoryGroup | app/admin/page.js:458-477 | each (member, day, type) group is non-empty, holds exactly the transactions with its key, totals their amounts and shows its first item's name and date; keys are distinct |
| Admin.HistoryCovers | app/admin/page.js:458-477 | every transaction is in a group, and only in the group of its key |
| Payment.GetKasAmount | app/payment/page.js:74-77 | non-negative; positive exactly when month and status are set, and then the kas tariff |
| Payment.GetWifiAmount | app/payment/page.js:80-97 | 0 without member or month; otherwise the admin page's share of the member for that month |
| Payment.GetWifiStatus | app/payment/page.js:99-103 | found iff member and month are set and the member declared for the month; the result is such a declaration |
| Payment.WifiStatusIsFirstDeclaration | app/payment/page.js:91-102 | the status line's search over all declarations finds the same declaration the share is priced by |
| Payment.TotalKas | app/payment/page.js:105 | the kas total is non-negative |
| Payment.TotalWifi | app/payment/page.js:106 | nothing is charged for WiFi before a member is chosen |
| Payment.TotalPayment | app/payment/page.js:105-107 | the grand total is at least the WiFi total, since the kas total is never negative |
| Payment.TotalKasOfActive | app/payment/page.js:105-147 | the kas total equals the total of the rows listed in the message |
| Payment.TotalWifiOfActive | app/payment/page.js:106-148 | with non-negative bills, the WiFi total equals the total of the rows listed in the message |
| Payment.WifiShareNonNegative | app/payment/page.js:80-97 | with non-negative bills, no WiFi row is priced below 0 |
| Payment.AddEntry | app/payment/page.js:110 | adding a row appends one blank row and leaves the others unchanged |
| Payment.RemoveEntry | app/payment/page.js:111 | removing row i drops exactly that index and keeps the order of the rest; an index outside the list changes nothing |
| Payment.RemoveEntryCount | app/payment/page.js:119 | removal takes away exactly one occurrence of the removed row |
| Payment.RemoveUndoesAdd | app/payment/page.js:110-111 | removing the row just added restores the list |
| Payment.UpdateEntry | app/payment/page.js:112-116 | updating row i changes only row i |
| Payment.UpdateKasField | app/payment/page.js:112-116 | setting a kas row's status keeps its month, and setting its month keeps its status |
| Payment.CheckPaid | app/payment/page.js:126-129 | true iff a member is selected and some transaction matches that member, type and month |
| Payment.CheckPaidIsFirstPayment | app/payment/page.js:126-129 | the check agrees with the lookup of the admin status view and the recap grid |
| Payment.Chosen | app/payment/page.js:173 | the listed months are exactly the months that are set |
| Payment.ChosenAll | app/payment/page.js:173 | when every row has a month, every row is listed, in order |
| Payment.KasMonthsFollowRows | app/payment/page.js:147-173 | the message lists one month per active kas row, in row order |
| Payment.KasMonthIn | app/payment/page.js:147 | a month is listed for kas iff an active kas row is for it |
| Payment.WifiMonthIn | app/payment/page.js:148 | a month is listed for WiFi iff an active WiFi row is for it |
| Payment.TaggedIn | app/payment/page.js:156-157 | an issue of a kind is reported for a month iff the month is among those checked for that kind |
| Payment.MemberName | app/payment/page.js:131-134 | the first member with the id gives the name; without one the name is "" |
| Payment.HandleWhatsApp | app/payment/page.js:143-184 | checks run in order: no member, no method, nothing active, already paid (listing exactly the paid entries), missing declaration; a message is composed only when all pass and carries the first matching member's name, the chosen method's label, the active kas and WiFi months, their totals and the sum of both |
| Payment.Issues | app/payment/page.js:155-157 | every listed entry is kas or WiFi and already paid by the member; kas entries come before WiFi entries |
| Payment.IssuesListEveryPaidEntry | app/payment/page.js:154-160 | every active month of either kind that is already paid is reported, and nothing else |
| Payment.ActiveWifiIsDeclared | app/payment/page.js:92-102 | a WiFi row with a positive share always has a declaration behind it |
| Payment.WifiNotDeclaredUnreachable | app/payment/page.js:162-167 | the "fill in your WiFi usage first" check never fires |
| Payment.SendOnlyUnpaid | app/payment/page.js:147-167 | when a message is composed, none of its months is already paid, and every WiFi month has a declaration |
| WifiPage.Submit | app/wifi/page.js:37-60 | no member, then no month, then an unknown member, are reported in that order; otherwise the body carries the member's id, first matching name, the month and the level; it is announced as a change iff a declaration for that member and month exists |
| WifiPage.SubmittedLevelIsCharged | app/wifi/page.js:44-60 | once stored, the member is charged at the submitted level, and the preview of that level on the stored data equals the charge |
| WifiPage.ResubmitKeepsCount | app/wifi/page.js:44-51 | resubmitting for a month already declared replaces rather than adds |

## Left out

- **Persistence.** Reading and writing the JSON files (lib/db.js) is left out. Each route is modelled as a function from the stored list to the list written back. Concurrent requests racing on the same file are not modelled.
- **Clock, ids and display.** `Date.now()` ids, ISO timestamps and the current month are parameters: `freshId`, `now`, `current`. Display-only fields are left out.
- **Locale-dependent day and year.** These are functions passed in (`dayOf`, `yearOf`). The rendering of a date with `toLocaleDateString` is not modelled, so two timestamps fall on the same "day" exactly when `dayOf` maps them to the same value.
- **Formatting and UI.** Currency and month formatting, the WhatsApp message text and link, toasts, pop-up texts, `confirm` dialogs, localStorage and sessionStorage, the password gate, charts and the sidebar are left out.
- **Floating point.** WiFi shares are computed with exact rational arithmetic and round-half-up. JavaScript's double-precision division can differ by one unit in rare cases where the exact quotient is within a rounding error of a half.
- **Month strings.** A month is a (year, month) pair. Malformed month strings, and comparisons of non-canonical strings, are not modelled.
- **Object key order.** JavaScript objects iterate integer-like keys first. The model iterates groups in order of first appearance, so former residents whose name is a numeric string may be listed in a different order before the arrears sort.
- Arrears.FormerGroups: the code groups orphan debts in a plain `{}` keyed by name. For a name that is an inherited object property (`constructor`, `toString`, `__proto__`), `grouped[name]` is already set, so the group is never created and `.push` throws, and the dashboard's arrears computation fails. The model groups such names like any other.
- Arrears.ComputeArrears: states that the result is sorted by total owed and is a reordering of the records. It does not state that ties keep their input order, which the stable `Array.prototype.sort` guarantees.
- Summary.ChartData: the chart is sorted by month index. The code uses `localeCompare` on the month strings, which agrees with it for canonical `YYYY-MM` strings only.
- BillsRoute.PutBills: `PUT /api/wifi-bills` stores the body verbatim, so its contract is only that the stored list is the body. Nothing about sorting or one bill per month is promised after a `PUT`, because the route checks neither.
- **Other PUT fields.** The members `PUT` merges only `name` and `status`. Any other field a body might carry is not modelled.
- Payment.UpdateEntry: requires an index inside the list. The page only calls it for a displayed row; JavaScript would otherwise write past the end.
- Calculations.WifiDrift: requires at least one user. With none, the split is 0 for everyone and the whole bill stays uncollected.
- Payment.TotalWifiOfActive: requires non-negative bills. A negative bill would give negative shares; those are counted in the total but not listed in the message.
- **Importer script.** scripts/import-excel.js is not part of this model. It is a one-off data import.
- **Type coercion.** `parseInt` of ids and other string-to-number coercion are left out: ids are integers throughout. A DELETE whose `id` parameter is missing or malformed (NaN) is not modelled.

=== FILE: admin.dfy ===
/** The admin page: marking and un-marking payments in the status view, deleting a month's
    WiFi bill, the WiFi declarations grouped by month, and the transaction history grouped
    by (member, day, type). Requests to the API are modelled by their effect on the stored
    lists; fresh ids, the posting time and the locale's day of a timestamp are parameters. */
module Admin {
  import opened Options
  import opened Seqs
  import opened Sorting
  import opened Grouping
  import opened Months
  import opened Records
  import opened Calculations
  import opened WifiAllocation
  import opened Ledger
  import opened TransactionsRoute
  import opened BillsRoute

  /** The status view's lookup: a member has paid when some transaction matches. */
  predicate Paid(txs: seq<Transaction>, memberId: int, kind: string, month: Month) {
    FirstPayment(txs, memberId, kind, month).Some?
  }

  /** Un-marking a paid entry deletes the transactions carrying the id of the FIRST
      matching transaction; without a match nothing is sent. */
  function Unmark(txs: seq<Transaction>, memberId: int, kind: string, month: Month): (r: seq<Transaction>)
    ensures forall i :: 0 <= i < |r| ==> r[i] in txs
    ensures !Paid(txs, memberId, kind, month) ==> r == txs
    ensures Paid(txs, memberId, kind, month) ==> FirstPayment(txs, memberId, kind, month).value !in r
  {
    match FirstPayment(txs, memberId, kind, month)
    case Some(t) => DeleteTransaction(txs, t.id)
    case None => txs
  }

  /** After un-marking, the first match's id is gone, and the member still shows as paid
      exactly when another matching transaction with a different id remains. */
  lemma UnmarkEffect(txs: seq<Transaction>, memberId: int, kind: string, month: Month)
    requires Paid(txs, memberId, kind, month)
    ensures var first := FirstPayment(txs, memberId, kind, month).value;
      var r := Unmark(txs, memberId, kind, month);
      && (forall i :: 0 <= i < |r| ==> r[i].id != first.id)
      && (Paid(r, memberId, kind, month) <==>
            exists i :: 0 <= i < |txs| && PaidFor(memberId, kind, month)(txs[i]) && txs[i].id != first.id)
  {
    var first := FirstPayment(txs, memberId, kind, month).value;
    var r := Unmark(txs, memberId, kind, month);
    var p := PaidFor(memberId, kind, month);
    if Paid(r, memberId, kind, month) {
      var k :| 0 <= k < |r| && p(r[k]);
      var i :| 0 <= i < |txs| && txs[i] == r[k];
    }
    if exists i :: 0 <= i < |txs| && p(txs[i]) && txs[i].id != first.id {
      var i :| 0 <= i < |txs| && p(txs[i]) && txs[i].id != first.id;
      var k :| 0 <= k < |r| && r[k] == txs[i];
    }
  }

  /** Marking WiFi as paid: a "wifi" transaction of the member's computed share, with
      status "admin-set" and the admin note. */
  function MarkWifiPaid(txs: seq<Transaction>, bills: seq<WifiBill>, usage: seq<WifiUsage>,
                        memberId: int, memberName: string, month: Month, freshId: int, now: int)
    : (r: seq<Transaction>)
    ensures |r| == |txs| + 1 && r[..|txs|] == txs
    ensures r[|txs|].memberId == memberId && r[|txs|].kind == WIFI && r[|txs|].month == month
    ensures r[|txs|].amount == MemberWifiShare(bills, usage, memberId, month)
    ensures r[|txs|].status == "admin-set" && r[|txs|].notes == "Diset oleh admin"
  {
    PostTransaction(txs, TxBody(memberId, memberName, WIFI, month, MemberWifiShare(bills, usage, memberId, month),
                                Some("admin-set"), Some("Diset oleh admin")), freshId, now)
  }

  /** Confirming kas in the picker: a "kas" transaction priced by the kas tariff at the
      chosen status, which is also recorded as the transaction's status. */
  function ConfirmKasPayment(txs: seq<Transaction>, memberId: int, memberName: string, month: Month,
                             status: string, freshId: int, now: int)
    : (r: seq<Transaction>)
    ensures |r| == |txs| + 1 && r[..|txs|] == txs
    ensures r[|txs|].memberId == memberId && r[|txs|].kind == KAS && r[|txs|].month == month
    ensures r[|txs|].amount == Tariff(RegimeOf(month), TierOf(status))
    ensures r[|txs|].status == status && r[|txs|].notes == "Diset oleh admin"
  {
    PostTransaction(txs, TxBody(memberId, memberName, KAS, month, CalculateKas(month, status),
                                Some(status), Some("Diset oleh admin")), freshId, now)
  }

  /** Appending a matching transaction makes the member paid. */
  lemma AppendedPaymentCounts(txs: seq<Transaction>, r: seq<Transaction>, memberId: int, kind: string, month: Month)
    requires |r| == |txs| + 1
    requires r[|txs|].memberId == memberId && r[|txs|].kind == kind && r[|txs|].month == month
    ensures Paid(r, memberId, kind, month)
  {
    assert PaidFor(memberId, kind, month)(r[|txs|]);
  }

  /** The kas or WiFi button: un-mark when the entry is paid; for unpaid kas only the
      status picker opens and the transactions stay as they are; for unpaid WiFi the
      share is recorded at once. */
  function TogglePaymentStatus(txs: seq<Transaction>, bills: seq<WifiBill>, usage: seq<WifiUsage>,
                               memberId: int, memberName: string, kind: string, month: Month,
                               currentlyPaid: bool, freshId: int, now: int)
    : (r: seq<Transaction>)
    ensures currentlyPaid ==> forall i :: 0 <= i < |r| ==> r[i] in txs
    ensures !currentlyPaid && kind == KAS ==> r == txs
    ensures !currentlyPaid && kind != KAS ==> |r| == |txs| + 1 && r[..|txs|] == txs && Paid(r, memberId, WIFI, month)
  {
    if currentlyPaid then Unmark(txs, memberId, kind, month)
    else if kind == KAS then txs
    else MarkWifiPaid(txs, bills, usage, memberId, memberName, month, freshId, now)
  }

  /** Toggling an unpaid WiFi entry makes it paid; toggling an unpaid kas entry changes
      nothing until a status is confirmed, and confirming makes it paid. */
  lemma ToggleUnpaid(txs: seq<Transaction>, bills: seq<WifiBill>, usage: seq<WifiUsage>,
                     memberId: int, memberName: string, month: Month, status: string, freshId: int, now: int)
    ensures Paid(TogglePaymentStatus(txs, bills, usage, memberId, memberName, WIFI, month, false, freshId, now),
                 memberId, WIFI, month)
    ensures TogglePaymentStatus(txs, bills, usage, memberId, memberName, KAS, month, false, freshId, now) == txs
    ensures Paid(ConfirmKasPayment(txs, memberId, memberName, month, status, freshId, now), memberId, KAS, month)
  {
    AppendedPaymentCounts(txs, MarkWifiPaid(txs, bills, usage, memberId, memberName, month, freshId, now),
                          memberId, WIFI, month);
    AppendedPaymentCounts(txs, ConfirmKasPayment(txs, memberId, memberName, month, status, freshId, now),
                          memberId, KAS, month);
  }

  function NotForMonth(month: Month): WifiBill -> bool {
    (b: WifiBill) => b.month != month
  }

  /** Deleting a month's bill: the page sends, by `PUT`, the list without every bill of
      that month. */
  function DeleteWifiBill(bills: seq<WifiBill>, month: Month): (r: seq<WifiBill>)
    ensures forall b :: b in r <==> b in bills && b.month != month
  {
    forall b
      ensures b in Filter(bills, NotForMonth(month)) <==> b in bills && b.month != month
    {
      FilterMember(bills, NotForMonth(month), b);
    }
    PutBills(bills, Filter(bills, NotForMonth(month)))
  }

  /** No bill of the deleted month remains, every other month's bill is found as before,
      and the remaining bills keep their order. */
  lemma DeleteWifiBillEffect(bills: seq<WifiBill>, extra: seq<WifiBill>, month: Month, m: Month)
    ensures BillFor(DeleteWifiBill(bills, month), month).None?
    ensures m != month ==> BillFor(DeleteWifiBill(bills, month), m) == BillFor(bills, m)
    ensures DeleteWifiBill(bills + extra, month) == DeleteWifiBill(bills, month) + DeleteWifiBill(extra, month)
  {
    var r := DeleteWifiBill(bills, month);
    if BillFor(r, month).Some? {
      FilterMember(bills, NotForMonth(month), BillFor(r, month).value);
    }
    if m != month {
      FindFilter(bills, NotForMonth(month), BillIsFor(m), BillIsFor(m));
    }
    FilterConcat(bills, extra, NotForMonth(month));
  }

  function UsageMonth(u: WifiUsage): Month {
    u.month
  }

  function NoUsageSummary(u: WifiUsage): () {
    ()
  }

  function KeepUsageSummary(a: (), u: WifiUsage): () {
    ()
  }

  function MonthDescending(g: Group<Month, WifiUsage, ()>): int {
    -Index(g.key)
  }

  /** The "Isi WiFi" tab: the declarations grouped by month (`byMonth`), newest month first
      (`Object.keys(byMonth).sort().reverse()`). */
  function UsageByMonth(usage: seq<WifiUsage>): (r: seq<Group<Month, WifiUsage, ()>>)
    ensures multiset(r) == multiset(GroupFold(usage, UsageMonth, NoUsageSummary, KeepUsageSummary))
  {
    SortBy(GroupFold(usage, UsageMonth, NoUsageSummary, KeepUsageSummary), MonthDescending)
  }

  /** Months are listed newest first, each once. */
  lemma UsageMonthsDescending(usage: seq<WifiUsage>)
    ensures var r := UsageByMonth(usage);
      forall i, j :: 0 <= i < j < |r| ==> Index(r[i].key) > Index(r[j].key)
  {
    var gs := GroupFold(usage, UsageMonth, NoUsageSummary, KeepUsageSummary);
    forall i, j | 0 <= i < j < |gs|
      ensures MonthDescending(gs[i]) != MonthDescending(gs[j])
    {
      IndexInjective(gs[i].key, gs[j].key);
    }
    SortByStrict(gs, MonthDescending);
  }

  /** Each listed month shows exactly its declarations, in stored order. */
  lemma UsageMonthItems(usage: seq<WifiUsage>, j: nat)
    requires j < |UsageByMonth(usage)|
    ensures var g := UsageByMonth(usage)[j];
      |g.items| > 0 && g.items == Matching(usage, UsageMonth, g.key)
  {
    var gs := GroupFold(usage, UsageMonth, NoUsageSummary, KeepUsageSummary);
    assert UsageByMonth(usage)[j] in multiset(gs);
  }

  /** A month is listed exactly when it has a declaration. */
  lemma UsageMonthListed(usage: seq<WifiUsage>, m: Month)
    ensures (exists j :: 0 <= j < |UsageByMonth(usage)| && UsageByMonth(usage)[j].key == m)
      <==> exists i :: 0 <= i < |usage| && usage[i].month == m
  {
    var gs := GroupFold(usage, UsageMonth, NoUsageSummary, KeepUsageSummary);
    var r := UsageByMonth(usage);
    if exists j :: 0 <= j < |r| && r[j].key == m {
      var j :| 0 <= j < |r| && r[j].key == m;
      UsageMonthItems(usage, j);
      FilterMember(usage, HasKey(UsageMonth, m), r[j].items[0]);
    }
    if exists i :: 0 <= i < |usage| && usage[i].month == m {
      var i :| 0 <= i < |usage| && usage[i].month == m;
      assert UsageMonth(usage[i]) in Keys(gs);
      var j :| 0 <= j < |gs| && Keys(gs)[j] == m;
      assert gs[j] in multiset(r);
    }
  }

  /** The history key: member, the locale's calendar day of the posting time, and type. */
  function TxDayKey(dayOf: int -> int): Transaction -> DayKey {
    (t: Transaction) => DayKey(t.memberId, dayOf(t.date), t.kind)
  }

  /** A history group's header: the name and posting time of its first (newest)
      transaction and the running total of raw amounts. */
  datatype HistoryHeader = HistoryHeader(memberName: string, date: int, total: int)

  function OpenHistory(t: Transaction): HistoryHeader {
    HistoryHeader(t.memberName, t.date, t.amount)
  }

  function AddToHistory(h: HistoryHeader, t: Transaction): HistoryHeader {
    h.(total := h.total + t.amount)
  }

  function HistoryTotal(h: HistoryHeader): int {
    h.total
  }

  function NegatedDate(t: Transaction): int {
    -t.date
  }

  /** The transactions, newest posting first. */
  function NewestFirst(txs: seq<Transaction>): (r: seq<Transaction>)
    ensures multiset(r) == multiset(txs)
    ensures forall i, j :: 0 <= i < j < |r| ==> r[i].date >= r[j].date
  {
    var r := SortBy(txs, NegatedDate);
    assert forall i, j :: 0 <= i < j < |r| ==> NegatedDate(r[i]) <= NegatedDate(r[j]);
    r
  }

  /** The "Riwayat" tab: the newest-first transactions grouped by (member, day, type).
      A transaction joins ANY earlier group with its key, not only the one just above. */
  function History(txs: seq<Transaction>, dayOf: int -> int): (r: seq<Group<DayKey, Transaction, HistoryHeader>>)
    ensures forall j :: 0 <= j < |r| ==> |r[j].items| > 0
    ensures forall j, k :: 0 <= j < k < |r| ==> r[j].key != r[k].key
  {
    GroupFold(NewestFirst(txs), TxDayKey(dayOf), OpenHistory, AddToHistory)
  }

  /** The header built from a group's items shows its first item's name and time. */
  lemma {:induction false} HistoryHeaderOfItems(items: seq<Transaction>)
    requires |items| > 0
    ensures Accumulate(items, OpenHistory, AddToHistory).memberName == items[0].memberName
    ensures Accumulate(items, OpenHistory, AddToHistory).date == items[0].date
    decreases |items|
  {
    if |items| > 1 {
      HistoryHeaderOfItems(items[..|items| - 1]);
    }
  }

  /** Each history group holds exactly the transactions with its key, at least one; its
      header shows the first one's name and time and the sum of the raw amounts; and no
      two groups share a key. */
  lemma HistoryGroup(txs: seq<Transaction>, dayOf: int -> int, j: nat)
    requires j < |History(txs, dayOf)|
    ensures var gs := History(txs, dayOf);
      && |gs[j].items| > 0
      && gs[j].acc.memberName == gs[j].items[0].memberName
      && gs[j].acc.date == gs[j].items[0].date
      && gs[j].acc.total == SumBy(gs[j].items, TxAmount)
      && (forall t :: t in gs[j].items <==> t in txs && TxDayKey(dayOf)(t) == gs[j].key)
      && (forall k :: 0 <= k < |gs| && k != j ==> gs[k].key != gs[j].key)
  {
    var sorted := NewestFirst(txs);
    var g := History(txs, dayOf)[j];
    HistoryHeaderOfItems(g.items);
    AccumulateSum(g.items, OpenHistory, AddToHistory, HistoryTotal, TxAmount);
    forall t
      ensures t in g.items <==> t in txs && TxDayKey(dayOf)(t) == g.key
    {
      FilterMember(sorted, HasKey(TxDayKey(dayOf), g.key), t);
      assert t in sorted <==> t in multiset(txs);
    }
  }

  /** Every transaction appears in the history in exactly the group of its key. */
  lemma HistoryCovers(txs: seq<Transaction>, dayOf: int -> int, t: Transaction)
    requires t in txs
    ensures var gs := History(txs, dayOf);
      && (exists j :: 0 <= j < |gs| && t in gs[j].items)
      && (forall j :: 0 <= j < |gs| && t in gs[j].items ==> gs[j].key == TxDayKey(dayOf)(t))
  {
    var sorted := NewestFirst(txs);
    var gs := History(txs, dayOf);
    assert t in multiset(sorted);
    var i :| 0 <= i < |sorted| && sorted[i] == t;
    InExactlyOneGroup(gs, sorted, TxDayKey(dayOf), OpenHistory, AddToHistory, i);
  }
}

=== FILE: arrears.dfy ===
/** The dashboard's arrears list ("tunggakan"): for each member, the months without a kas
    payment since their first kas payment up to the current month, priced at the member's
    current status, plus the member's recorded WiFi debts; then one record per name for the
    WiFi debts of people who are no longer members; the list sorted by total owed,
    highest first. */
module Arrears {
  import opened Options
  import opened Seqs
  import opened Sorting
  import opened Grouping
  import opened Months
  import opened Records
  import opened Calculations

  /** A month owed and its amount. */
  datatype Due = Due(month: Month, amount: int)

  /** Whom a record is about: a current member, or a former resident known only by the name
      on their WiFi debts, shown with status "none" and no kas arrears. */
  datatype Debtor = Resident(member: Member) | Former(name: string)

  datatype Arrears = Arrears(debtor: Debtor, unpaidKas: seq<Due>, unpaidWifi: seq<Due>, totalKas: int, totalWifi: int)

  function DueAmount(d: Due): int {
    d.amount
  }

  function Owed(a: Arrears): int {
    a.totalKas + a.totalWifi
  }

  function KasBy(memberId: int): Transaction -> bool {
    (t: Transaction) => t.memberId == memberId && t.kind == KAS
  }

  /** The earliest of some months (`months.sort()[0]` on "YYYY-MM" strings). */
  function Earliest(ms: seq<Month>): (r: Month)
    requires |ms| > 0
    ensures r in ms
    ensures forall i :: 0 <= i < |ms| ==> Index(r) <= Index(ms[i])
    decreases |ms|
  {
    if |ms| == 1 then ms[0]
    else
      var rest := Earliest(ms[1..]);
      assert forall i :: 1 <= i < |ms| ==> ms[i] == ms[1..][i - 1];
      if Index(ms[0]) <= Index(rest) then ms[0] else rest
  }

  /** The months that have a kas payment (`new Set(kasTx.map(t => t.month))`). */
  function PaidMonths(kas: seq<Transaction>): set<Month> {
    set i | 0 <= i < |kas| :: kas[i].month
  }

  function NotPaidIn(paid: set<Month>): Month -> bool {
    (mo: Month) => mo !in paid
  }

  /** A month owed, priced by the kas tariff at `status`. */
  function PricedAt(status: string): Month -> Due {
    (mo: Month) => Due(mo, CalculateKas(mo, status))
  }

  /** The months the member owes kas for. A member who never paid kas owes none; otherwise
      every month from the first paid month through `current` without a kas payment. */
  function KasMonthsOwed(txs: seq<Transaction>, memberId: int, current: Month): (r: seq<Month>)
    ensures (forall i :: 0 <= i < |txs| ==> !KasBy(memberId)(txs[i])) ==> r == []
  {
    NoKasNoneSelected(txs, memberId);
    var kas := Filter(txs, KasBy(memberId));
    if |kas| == 0 then []
    else Filter(MonthsBetween(Earliest(Map(kas, TxMonth)), current), NotPaidIn(PaidMonths(kas)))
  }

  /** The member's unpaid kas months, each priced at the rate of the member's CURRENT
      status; nothing for a member without kas payments. */
  function UnpaidKas(txs: seq<Transaction>, m: Member, current: Month): (r: seq<Due>)
    ensures (forall i :: 0 <= i < |txs| ==> !KasBy(m.id)(txs[i])) ==> r == []
  {
    NoKasNoneSelected(txs, m.id);
    Map(KasMonthsOwed(txs, m.id, current), PricedAt(m.status))
  }

  lemma NoKasNoneSelected(txs: seq<Transaction>, memberId: int)
    ensures (forall i :: 0 <= i < |txs| ==> !KasBy(memberId)(txs[i])) ==> Filter(txs, KasBy(memberId)) == []
  {
    if forall i :: 0 <= i < |txs| ==> !KasBy(memberId)(txs[i]) {
      if |Filter(txs, KasBy(memberId))| > 0 {
        var t := Filter(txs, KasBy(memberId))[0];
        FilterMember(txs, KasBy(memberId), t);
      }
    }
  }

  /** A month is owed exactly when it is no later than `current`, not earlier than some kas
      payment of the member, and without any kas payment of the member; its price is the
      tariff of the member's current status. Duplicate payments for a month still count
      as paid. */
  lemma UnpaidKasMembers(txs: seq<Transaction>, m: Member, current: Month, mo: Month, amount: int)
    ensures Due(mo, amount) in UnpaidKas(txs, m, current) <==>
      && (exists i :: 0 <= i < |txs| && KasBy(m.id)(txs[i]) && Index(txs[i].month) <= Index(mo))
      && Index(mo) <= Index(current)
      && (forall i :: 0 <= i < |txs| ==> !PaidFor(m.id, KAS, mo)(txs[i]))
      && amount == CalculateKas(mo, m.status)
  {
    PricedMember(KasMonthsOwed(txs, m.id, current), m.status, mo, amount);
    KasMonthsOwedMember(txs, m.id, current, mo);
  }

  /** A due is in the priced list exactly when its month is listed and its amount is the
      tariff for that month. */
  lemma PricedMember(ms: seq<Month>, status: string, mo: Month, amount: int)
    ensures Due(mo, amount) in Map(ms, PricedAt(status)) <==> mo in ms && amount == CalculateKas(mo, status)
  {
    var ds := Map(ms, PricedAt(status));
    if Due(mo, amount) in ds {
      var k :| 0 <= k < |ds| && ds[k] == Due(mo, amount);
      assert ms[k] == mo;
    }
    if mo in ms && amount == CalculateKas(mo, status) {
      var k :| 0 <= k < |ms| && ms[k] == mo;
      assert ds[k] == Due(mo, amount);
    }
  }

  /** The owed months are exactly the months up to `current`, not before some kas payment,
      and without a kas payment. */
  lemma KasMonthsOwedMember(txs: seq<Transaction>, memberId: int, current: Month, mo: Month)
    ensures mo in KasMonthsOwed(txs, memberId, current) <==>
      && (exists i :: 0 <= i < |txs| && KasBy(memberId)(txs[i]) && Index(txs[i].month) <= Index(mo))
      && Index(mo) <= Index(current)
      && (forall i :: 0 <= i < |txs| ==> !PaidFor(memberId, KAS, mo)(txs[i]))
  {
    var kas := Filter(txs, KasBy(memberId));
    PaidMonthsMeaning(txs, memberId, mo);
    if |kas| == 0 {
      if exists i :: 0 <= i < |txs| && KasBy(memberId)(txs[i]) && Index(txs[i].month) <= Index(mo) {
        var i :| 0 <= i < |txs| && KasBy(memberId)(txs[i]) && Index(txs[i].month) <= Index(mo);
        FilterMember(txs, KasBy(memberId), txs[i]);
      }
    } else {
      var first := Earliest(Map(kas, TxMonth));
      FilterMember(MonthsBetween(first, current), NotPaidIn(PaidMonths(kas)), mo);
      MonthsBetweenMember(first, current, mo);
      EarliestMeaning(txs, memberId, mo);
    }
  }

  /** The paid-months set of the member's kas payments holds `mo` exactly when some kas
      payment of the member is for `mo`. */
  lemma PaidMonthsMeaning(txs: seq<Transaction>, memberId: int, mo: Month)
    ensures mo in PaidMonths(Filter(txs, KasBy(memberId)))
      <==> exists i :: 0 <= i < |txs| && PaidFor(memberId, KAS, mo)(txs[i])
  {
    var kas := Filter(txs, KasBy(memberId));
    if mo in PaidMonths(kas) {
      var k :| 0 <= k < |kas| && kas[k].month == mo;
      FilterMember(txs, KasBy(memberId), kas[k]);
      var i :| 0 <= i < |txs| && txs[i] == kas[k];
      assert PaidFor(memberId, KAS, mo)(txs[i]);
    }
    if exists i :: 0 <= i < |txs| && PaidFor(memberId, KAS, mo)(txs[i]) {
      var i :| 0 <= i < |txs| && PaidFor(memberId, KAS, mo)(txs[i]);
      FilterMember(txs, KasBy(memberId), txs[i]);
      var k :| 0 <= k < |kas| && kas[k] == txs[i];
      assert kas[k].month == mo;
    }
  }

  /** The earliest kas month is no later than `mo` exactly when some kas payment of the
      member is for a month no later than `mo`. */
  lemma EarliestMeaning(txs: seq<Transaction>, memberId: int, mo: Month)
    requires |Filter(txs, KasBy(memberId))| > 0
    ensures Index(Earliest(Map(Filter(txs, KasBy(memberId)), TxMonth))) <= Index(mo)
      <==> exists i :: 0 <= i < |txs| && KasBy(memberId)(txs[i]) && Index(txs[i].month) <= Index(mo)
  {
    var kas := Filter(txs, KasBy(memberId));
    var months := Map(kas, TxMonth);
    var first := Earliest(months);
    if Index(first) <= Index(mo) {
      var k :| 0 <= k < |months| && months[k] == first;
      FilterMember(txs, KasBy(memberId), kas[k]);
      var i :| 0 <= i < |txs| && txs[i] == kas[k];
      assert KasBy(memberId)(txs[i]) && Index(txs[i].month) <= Index(mo);
    }
    if exists i :: 0 <= i < |txs| && KasBy(memberId)(txs[i]) && Index(txs[i].month) <= Index(mo) {
      var i :| 0 <= i < |txs| && KasBy(memberId)(txs[i]) && Index(txs[i].month) <= Index(mo);
      FilterMember(txs, KasBy(memberId), txs[i]);
      var k :| 0 <= k < |kas| && kas[k] == txs[i];
      assert months[k] == txs[i].month;
    }
  }

  /** Filtering a strictly increasing list of months keeps it strictly increasing. */
  lemma {:induction false} FilterIncreasing(ms: seq<Month>, p: Month -> bool)
    requires forall i, j :: 0 <= i < j < |ms| ==> Index(ms[i]) < Index(ms[j])
    ensures forall i, j :: 0 <= i < j < |Filter(ms, p)| ==> Index(Filter(ms, p)[i]) < Index(Filter(ms, p)[j])
    decreases |ms|
  {
    if |ms| > 0 {
      var init := ms[..|ms| - 1];
      var last := ms[|ms| - 1];
      assert ms == init + [last];
      FilterIncreasing(init, p);
      var fi := Filter(init, p);
      forall k | 0 <= k < |fi|
        ensures Index(fi[k]) < Index(last)
      {
        FilterMember(init, p, fi[k]);
      }
    }
  }

  /** The unpaid kas months are listed oldest first, each at most once. */
  lemma UnpaidKasAscending(txs: seq<Transaction>, m: Member, current: Month)
    ensures var r := UnpaidKas(txs, m, current);
      forall i, j :: 0 <= i < j < |r| ==> Index(r[i].month) < Index(r[j].month)
  {
    var kas := Filter(txs, KasBy(m.id));
    if |kas| > 0 {
      var first := Earliest(Map(kas, TxMonth));
      MonthsBetweenIncreasing(first, current);
      FilterIncreasing(MonthsBetween(first, current), NotPaidIn(PaidMonths(kas)));
    }
    var ms := KasMonthsOwed(txs, m.id, current);
    assert forall k :: 0 <= k < |ms| ==> UnpaidKas(txs, m, current)[k].month == ms[k];
  }

  function DebtOf(memberId: int): WifiDebt -> bool {
    (d: WifiDebt) => d.memberId == memberId
  }

  function DebtDue(d: WifiDebt): Due {
    Due(d.month, d.amount)
  }

  function DebtAmount(d: WifiDebt): int {
    d.amount
  }

  /** The amount of a debt of member `memberId`, and 0 for anyone else's. */
  function DebtAmountOf(memberId: int): WifiDebt -> int {
    (d: WifiDebt) => if d.memberId == memberId then d.amount else 0
  }

  /** Listing debts as dues keeps their total. */
  lemma {:induction false} DueTotal(ds: seq<WifiDebt>)
    ensures SumBy(Map(ds, DebtDue), DueAmount) == SumBy(ds, DebtAmount)
    decreases |ds|
  {
    if |ds| > 0 {
      var init := ds[..|ds| - 1];
      assert Map(ds, DebtDue)[..|ds| - 1] == Map(init, DebtDue);
      DueTotal(init);
    }
  }

  /** The record of a current member, emitted only when they owe kas months or WiFi. */
  function ResidentArrears(txs: seq<Transaction>, debts: seq<WifiDebt>, m: Member, current: Month): (r: Option<Arrears>)
    ensures r.None? <==> UnpaidKas(txs, m, current) == [] && forall i :: 0 <= i < |debts| ==> debts[i].memberId != m.id
    ensures r.Some? ==> r.value.debtor == Resident(m) && (|r.value.unpaidKas| > 0 || |r.value.unpaidWifi| > 0)
    ensures r.Some? ==> r.value.unpaidKas == UnpaidKas(txs, m, current)
    ensures r.Some? ==> r.value.totalKas == SumBy(r.value.unpaidKas, DueAmount)
    ensures r.Some? ==> r.value.unpaidWifi == Map(Filter(debts, DebtOf(m.id)), DebtDue)
    ensures r.Some? ==> r.value.totalWifi == SumBy(debts, DebtAmountOf(m.id))
  {
    var kas := UnpaidKas(txs, m, current);
    var mine := Filter(debts, DebtOf(m.id));
    var wifi := Map(mine, DebtDue);
    ResidentDebts(debts, m.id);
    if |kas| > 0 || |wifi| > 0 then
      Some(Arrears(Resident(m), kas, wifi, SumBy(kas, DueAmount), SumBy(wifi, DueAmount)))
    else None
  }

  /** The member's debts are those carrying the member's id, and they add up to the
      member-only sum over all debts. */
  lemma ResidentDebts(debts: seq<WifiDebt>, memberId: int)
    ensures |Filter(debts, DebtOf(memberId))| == 0 <==> forall i :: 0 <= i < |debts| ==> debts[i].memberId != memberId
    ensures SumBy(Map(Filter(debts, DebtOf(memberId)), DebtDue), DueAmount) == SumBy(debts, DebtAmountOf(memberId))
  {
    var mine := Filter(debts, DebtOf(memberId));
    if |mine| > 0 {
      FilterMember(debts, DebtOf(memberId), mine[0]);
    }
    forall i | 0 <= i < |debts| && debts[i].memberId == memberId
      ensures |mine| > 0
    {
      FilterMember(debts, DebtOf(memberId), debts[i]);
    }
    DueTotal(mine);
    SumByFilter(debts, DebtOf(memberId), DebtAmount, DebtAmountOf(memberId));
  }

  /** The members who owe something: a kas month or a WiFi debt. */
  function Owes(txs: seq<Transaction>, debts: seq<WifiDebt>, current: Month): Member -> bool {
    (m: Member) => ResidentArrears(txs, debts, m, current).Some?
  }

  /** The records of the current members who owe something: exactly one per owing member,
      in member order. */
  function ResidentRecords(txs: seq<Transaction>, debts: seq<WifiDebt>, members: seq<Member>, current: Month)
    : (r: seq<Arrears>)
    ensures |r| == |Filter(members, Owes(txs, debts, current))|
    ensures forall k :: 0 <= k < |r| ==>
      Some(r[k]) == ResidentArrears(txs, debts, Filter(members, Owes(txs, debts, current))[k], current)
    ensures forall k :: 0 <= k < |r| ==>
      (r[k].debtor.Resident? && r[k].debtor.member in members
       && Some(r[k]) == ResidentArrears(txs, debts, r[k].debtor.member, current))
    decreases |members|
  {
    if |members| == 0 then []
    else
      var init := members[..|members| - 1];
      var m := members[|members| - 1];
      var rest := ResidentRecords(txs, debts, init, current);
      assert forall i :: 0 <= i < |init| ==> members[i] == init[i];
      rest + match ResidentArrears(txs, debts, m, current) {
        case Some(a) => [a]
        case None => []
      }
  }

  /** Every current member who owes something has their record in the list. */
  lemma ResidentRecordsComplete(txs: seq<Transaction>, debts: seq<WifiDebt>, members: seq<Member>, current: Month, i: nat)
    requires i < |members| && ResidentArrears(txs, debts, members[i], current).Some?
    ensures ResidentArrears(txs, debts, members[i], current).value in ResidentRecords(txs, debts, members, current)
  {
    var owing := Filter(members, Owes(txs, debts, current));
    var r := ResidentRecords(txs, debts, members, current);
    FilterMember(members, Owes(txs, debts, current), members[i]);
    var k :| 0 <= k < |owing| && owing[k] == members[i];
    assert Some(r[k]) == ResidentArrears(txs, debts, members[i], current);
  }

  /** A debt of someone who is not a current member: member id 0, or an id no member
      carries. */
  function Orphan(members: seq<Member>): WifiDebt -> bool {
    (d: WifiDebt) => d.memberId == 0 || !Any(members, MemberIs(d.memberId))
  }

  function DebtName(d: WifiDebt): string {
    d.memberName
  }

  function AddDebt(total: int, d: WifiDebt): int {
    total + d.amount
  }

  /** The orphan debts grouped by the name they carry, names in order of first appearance. */
  function FormerGroups(members: seq<Member>, debts: seq<WifiDebt>): (r: seq<Group<string, WifiDebt, int>>)
    ensures forall j :: 0 <= j < |r| ==> |r[j].items| > 0
    ensures forall j, k :: 0 <= j < k < |r| ==> r[j].key != r[k].key
  {
    GroupFold(Filter(debts, Orphan(members)), DebtName, DebtAmount, AddDebt)
  }

  /** The record of a former resident: no kas, the named debts, their total. */
  function FormerArrears(g: Group<string, WifiDebt, int>): Arrears {
    Arrears(Former(g.key), [], Map(g.items, DebtDue), 0, g.acc)
  }

  /** One record per name among the orphan debts; every orphan debt is listed, as its
      month and amount, in the record under its own name. */
  function FormerRecords(members: seq<Member>, debts: seq<WifiDebt>): (r: seq<Arrears>)
    ensures |r| == |FormerGroups(members, debts)|
    ensures forall j :: 0 <= j < |r| ==>
      r[j].debtor == Former(FormerGroups(members, debts)[j].key)
      && r[j].unpaidWifi == Map(FormerGroups(members, debts)[j].items, DebtDue)
    ensures forall d :: d in debts && Orphan(members)(d) ==>
      exists j :: 0 <= j < |r| && r[j].debtor == Former(d.memberName) && DebtDue(d) in r[j].unpaidWifi
  {
    var gs := FormerGroups(members, debts);
    var r := Map(gs, FormerArrears);
    forall d | d in debts && Orphan(members)(d)
      ensures exists j :: 0 <= j < |r| && r[j].debtor == Former(d.memberName) && DebtDue(d) in r[j].unpaidWifi
    {
      var j := FormerDebtCovered(members, debts, d);
      var k :| 0 <= k < |gs[j].items| && gs[j].items[k] == d;
      assert Map(gs[j].items, DebtDue)[k] == DebtDue(d);
      assert r[j].debtor == Former(d.memberName);
    }
    r
  }

  /** An orphan debt lies in the group of its name, and in no other group. */
  lemma FormerDebtCovered(members: seq<Member>, debts: seq<WifiDebt>, d: WifiDebt) returns (j: nat)
    requires d in debts && Orphan(members)(d)
    ensures j < |FormerGroups(members, debts)|
    ensures FormerGroups(members, debts)[j].key == d.memberName && d in FormerGroups(members, debts)[j].items
    ensures forall k :: 0 <= k < |FormerGroups(members, debts)| && d in FormerGroups(members, debts)[k].items ==> k == j
  {
    var orphans := Filter(debts, Orphan(members));
    var gs := FormerGroups(members, debts);
    FilterMember(debts, Orphan(members), d);
    var i :| 0 <= i < |orphans| && orphans[i] == d;
    InExactlyOneGroup(gs, orphans, DebtName, DebtAmount, AddDebt, i);
    j :| 0 <= j < |gs| && d in gs[j].items && gs[j].key == d.memberName;
  }

  /** Each former resident's record lists exactly the orphan debts under their name, at
      least one, with the total of their amounts; and no two records share a name. */
  lemma FormerRecordsSound(members: seq<Member>, debts: seq<WifiDebt>, j: nat)
    requires j < |FormerRecords(members, debts)|
    ensures var a := FormerRecords(members, debts)[j];
      && a.debtor.Former? && a.unpaidKas == [] && a.totalKas == 0
      && |a.unpaidWifi| > 0
      && a.unpaidWifi == Map(FormerGroups(members, debts)[j].items, DebtDue)
      && a.totalWifi == SumBy(a.unpaidWifi, DueAmount)
      && (forall d :: d in FormerGroups(members, debts)[j].items <==>
            d in debts && (d.memberId == 0 || !Any(members, MemberIs(d.memberId))) && d.memberName == a.debtor.name)
    ensures forall k :: 0 <= k < |FormerRecords(members, debts)| && k != j ==>
      FormerRecords(members, debts)[k].debtor != FormerRecords(members, debts)[j].debtor
  {
    var orphans := Filter(debts, Orphan(members));
    var gs := FormerGroups(members, debts);
    var g := gs[j];
    AccumulateSum(g.items, DebtAmount, AddDebt, IdentityTotal, DebtAmount);
    DueTotal(g.items);
    forall d
      ensures d in g.items <==> d in debts && (d.memberId == 0 || !Any(members, MemberIs(d.memberId))) && d.memberName == g.key
    {
      FilterMember(orphans, HasKey(DebtName, g.key), d);
      FilterMember(debts, Orphan(members), d);
    }
  }

  function IdentityTotal(total: int): int {
    total
  }

  /** The arrears list: the current members' records, then the former residents', sorted
      by total owed, highest first (a stable sort in the application). */
  function ComputeArrears(members: seq<Member>, txs: seq<Transaction>, debts: seq<WifiDebt>, current: Month)
    : (r: seq<Arrears>)
    ensures multiset(r) == multiset(ResidentRecords(txs, debts, members, current) + FormerRecords(members, debts))
    ensures forall i, j :: 0 <= i < j < |r| ==> Owed(r[i]) >= Owed(r[j])
  {
    SortBy(ResidentRecords(txs, debts, members, current) + FormerRecords(members, debts), NegatedOwed)
  }

  function NegatedOwed(a: Arrears): int {
    -Owed(a)
  }

  /** Every listed record owes something: a kas month or a WiFi debt. */
  lemma ArrearsNonEmpty(members: seq<Member>, txs: seq<Transaction>, debts: seq<WifiDebt>, current: Month, a: Arrears)
    requires a in ComputeArrears(members, txs, debts, current)
    ensures |a.unpaidKas| > 0 || |a.unpaidWifi| > 0
  {
    var rs := ResidentRecords(txs, debts, members, current);
    var fs := FormerRecords(members, debts);
    assert a in multiset(rs + fs);
    if a in rs {
    } else {
      assert a in fs;
      var j :| 0 <= j < |fs| && fs[j] == a;
      FormerRecordsSound(members, debts, j);
    }
  }

  /** The months from January through April 2025. */
  lemma ExampleRange()
    ensures MonthsBetween(YearMonth(2025, 1), YearMonth(2025, 4))
      == [YearMonth(2025, 1), YearMonth(2025, 2), YearMonth(2025, 3), YearMonth(2025, 4)]
  {
    var all := MonthsBetween(YearMonth(2025, 1), YearMonth(2025, 4));
    IndexInjective(all[0], YearMonth(2025, 1));
    IndexInjective(all[1], YearMonth(2025, 2));
    IndexInjective(all[2], YearMonth(2025, 3));
    IndexInjective(all[3], YearMonth(2025, 4));
  }

  /** Filtering January to April 2025 by "not paid in January" keeps February to April. */
  lemma ExampleUnpaidFilter()
    ensures Filter(MonthsBetween(YearMonth(2025, 1), YearMonth(2025, 4)), NotPaidIn({YearMonth(2025, 1)}))
      == [YearMonth(2025, 2), YearMonth(2025, 3), YearMonth(2025, 4)]
  {
    ExampleRange();
    var keep := NotPaidIn({YearMonth(2025, 1)});
    var a: Month, b: Month, c: Month, d: Month := YearMonth(2025, 1), YearMonth(2025, 2), YearMonth(2025, 3), YearMonth(2025, 4);
    FilterSnoc([], a, keep);
    assert [] + [a] == [a];
    FilterSnoc([a], b, keep);
    assert [a] + [b] == [a, b];
    FilterSnoc([a, b], c, keep);
    assert [a, b] + [c] == [a, b, c];
    FilterSnoc([a, b, c], d, keep);
    assert [a, b, c] + [d] == [a, b, c, d];
  }

  /** The one January 2025 payment is the member's whole kas history. */
  lemma ExampleKasHistory(t: Transaction)
    requires t == Transaction(10, 1, "Andi", KAS, YearMonth(2025, 1), 25000, FULL, 0, "")
    ensures Filter([t], KasBy(1)) == [t]
    ensures Earliest(Map([t], TxMonth)) == YearMonth(2025, 1)
    ensures PaidMonths([t]) == {YearMonth(2025, 1)}
  {
    assert [t][..0] == [];
    assert Map([t], TxMonth) == [YearMonth(2025, 1)];
  }

  /** A member who paid kas for January 2025 only owes February, March and April when the
      current month is April 2025. */
  lemma ExampleOwedMonths()
    ensures KasMonthsOwed([Transaction(10, 1, "Andi", KAS, YearMonth(2025, 1), 25000, FULL, 0, "")], 1, YearMonth(2025, 4))
      == [YearMonth(2025, 2), YearMonth(2025, 3), YearMonth(2025, 4)]
  {
    var t := Transaction(10, 1, "Andi", KAS, YearMonth(2025, 1), 25000, FULL, 0, "");
    ExampleKasHistory(t);
    ExampleUnpaidFilter();
  }

  /** The worked example: a "full" member who paid kas for January 2025 only owes February,
      March and April when the current month is April 2025, 25000 each, 75000 in all. */
  lemma ArrearsExample()
    ensures var m := Member(1, "Andi", FULL);
      var txs := [Transaction(10, 1, "Andi", KAS, YearMonth(2025, 1), 25000, FULL, 0, "")];
      && UnpaidKas(txs, m, YearMonth(2025, 4))
         == [Due(YearMonth(2025, 2), 25000), Due(YearMonth(2025, 3), 25000), Due(YearMonth(2025, 4), 25000)]
      && SumBy(UnpaidKas(txs, m, YearMonth(2025, 4)), DueAmount) == 75000
  {
    var m := Member(1, "Andi", FULL);
    var txs := [Transaction(10, 1, "Andi", KAS, YearMonth(2025, 1), 25000, FULL, 0, "")];
    ExampleOwedMonths();
    var r := UnpaidKas(txs, m, YearMonth(2025, 4));
    assert r == [Due(YearMonth(2025, 2), 25000), Due(YearMonth(2025, 3), 25000), Due(YearMonth(2025, 4), 25000)];
    SumBySnoc([], r[0], DueAmount);
    assert [] + [r[0]] == [r[0]];
    SumBySnoc([r[0]], r[1], DueAmount);
    assert [r[0]] + [r[1]] == [r[0], r[1]];
    SumBySnoc([r[0], r[1]], r[2], DueAmount);
    assert [r[0], r[1]] + [r[2]] == r;
  }
}

=== FILE: bills_route.dfy ===
/** `/api/wifi-bills`: `POST` sets the bill of a month, updating the first bill of that
    month or appending one, then sorts the bills by month; `PUT` replaces the whole list. */
module BillsRoute {
  import opened Options
  import opened Seqs
  import opened Sorting
  import opened Months
  import opened Records
  import opened WifiAllocation

  datatype BillBody = BillBody(month: Month, amount: int)

  function BillIndex(b: WifiBill): int {
    Index(b.month)
  }

  /** The list before sorting: the first bill of the month takes the new amount, or a new
      bill is appended. */
  function Upsert(bills: seq<WifiBill>, body: BillBody): (r: seq<WifiBill>)
    ensures forall i :: IsFirst(bills, BillIsFor(body.month), i) ==>
      r == bills[i := WifiBill(body.month, body.amount)]
    ensures (forall i :: 0 <= i < |bills| ==> bills[i].month != body.month) ==>
      r == bills + [WifiBill(body.month, body.amount)]
  {
    match FindIndex(bills, BillIsFor(body.month))
    case Some(i) => bills[i := WifiBill(bills[i].month, body.amount)]
    case None => bills + [WifiBill(body.month, body.amount)]
  }

  /** `POST`: the upserted list in calendar order of the months. */
  function PostBill(bills: seq<WifiBill>, body: BillBody): (r: seq<WifiBill>)
    ensures SortedBy(r, BillIndex)
    ensures multiset(r) == multiset(Upsert(bills, body))
  {
    SortBy(Upsert(bills, body), BillIndex)
  }

  /** `PUT`: the body becomes the stored list as it is; what was stored before is discarded,
      with no upsert, no sort and no check of the body. */
  function PutBills(bills: seq<WifiBill>, body: seq<WifiBill>): (r: seq<WifiBill>)
    ensures r == body
  {
    body
  }

  /** What a `POST` does to the list's contents: the posted month now has a bill with the
      posted amount, every bill of another month is kept, and nothing else appears. */
  lemma PostBillContents(bills: seq<WifiBill>, body: BillBody, b: WifiBill)
    ensures WifiBill(body.month, body.amount) in PostBill(bills, body)
    ensures b in bills && b.month != body.month ==> b in PostBill(bills, body)
    ensures b in PostBill(bills, body) ==> b in bills || b == WifiBill(body.month, body.amount)
  {
    var u := Upsert(bills, body);
    var r := PostBill(bills, body);
    SortByMembers(u, BillIndex, b);
    SortByMembers(u, BillIndex, WifiBill(body.month, body.amount));
    match FindIndex(bills, BillIsFor(body.month))
    case Some(i) =>
      assert IsFirst(bills, BillIsFor(body.month), i);
      assert u[i] == WifiBill(body.month, body.amount);
      if b in bills && b.month != body.month {
        var k :| 0 <= k < |bills| && bills[k] == b;
        assert u[k] == b;
      }
      if b in u {
        var k :| 0 <= k < |u| && u[k] == b;
        if k != i {
          assert bills[k] == b;
        }
      }
    case None =>
      assert u == bills + [WifiBill(body.month, body.amount)];
  }

  /** With at most one bill per month before a `POST`, there is still one bill per month
      after it, in strictly increasing month order; the posted month's bill carries the
      posted amount and every other month's bill is unchanged. */
  lemma PostBillUnique(bills: seq<WifiBill>, body: BillBody, m: Month)
    requires DistinctBy(bills, BillIndex)
    ensures StrictlySortedBy(PostBill(bills, body), BillIndex)
    ensures BillFor(PostBill(bills, body), body.month) == Some(WifiBill(body.month, body.amount))
    ensures m != body.month ==> BillFor(PostBill(bills, body), m) == BillFor(bills, m)
  {
    var u := Upsert(bills, body);
    var r := PostBill(bills, body);
    UpsertDistinct(bills, body);
    SortByStrict(u, BillIndex);
    PostBillContents(bills, body, WifiBill(body.month, body.amount));
    OnlyBillOfMonth(r, WifiBill(body.month, body.amount));
    if m != body.month {
      var mine := BillFor(bills, m);
      if mine.Some? {
        PostBillContents(bills, body, mine.value);
        OnlyBillOfMonth(r, mine.value);
      } else {
        if BillFor(r, m).Some? {
          PostBillContents(bills, body, BillFor(r, m).value);
        }
      }
    }
  }

  /** In a list with distinct months, a listed bill is the one found for its month. */
  lemma OnlyBillOfMonth(r: seq<WifiBill>, b: WifiBill)
    requires StrictlySortedBy(r, BillIndex) && b in r
    ensures BillFor(r, b.month) == Some(b)
  {
    var k :| 0 <= k < |r| && r[k] == b;
    var found := BillFor(r, b.month);
    var i :| IsFirst(r, BillIsFor(b.month), i) && r[i] == found.value;
  }

  /** Upserting keeps the months distinct. */
  lemma UpsertDistinct(bills: seq<WifiBill>, body: BillBody)
    requires DistinctBy(bills, BillIndex)
    ensures DistinctBy(Upsert(bills, body), BillIndex)
  {
    var u := Upsert(bills, body);
    match FindIndex(bills, BillIsFor(body.month))
    case Some(i) =>
      assert IsFirst(bills, BillIsFor(body.month), i);
      assert forall k :: 0 <= k < |u| ==> BillIndex(u[k]) == BillIndex(bills[k]);
    case None =>
      forall k | 0 <= k < |bills|
        ensures BillIndex(bills[k]) != BillIndex(WifiBill(body.month, body.amount))
      {
        assert !BillIsFor(body.month)(bills[k]);
        IndexInjective(bills[k].month, body.month);
      }
  }
}

=== FILE: calculations.dfy ===
/** The two pricing rules: the kas (communal due) tariff and the WiFi bill split.
    The same kas function is copied verbatim into the admin, payment and dashboard pages;
    this module is the single model of all four copies. */
module Calculations {
  import opened Months
  import opened Records

  /** The first month priced at the new rates: July 2025. */
  const Cutover: Month := YearMonth(2025, 7)

  datatype Regime = OldRates | NewRates

  datatype Tier = FullTier | HalfTier | NoneTier

  /** July 2025 and every later month use the new rates. */
  function RegimeOf(m: Month): Regime {
    if Before(m, Cutover) then OldRates else NewRates
  }

  /** How the tariff reads a status: "none" and "full" are recognised and every other
      string, including an unknown one, is charged as the half tier. */
  function TierOf(status: string): Tier {
    if status == NONE then NoneTier
    else if status == FULL then FullTier
    else HalfTier
  }

  /** The published rates: 25000 / 12500 / 10000 before July 2025, and
      30000 / 15000 / 10000 from July 2025 on. */
  function Tariff(regime: Regime, tier: Tier): int {
    match (regime, tier)
    case (_, NoneTier) => 10000
    case (OldRates, FullTier) => 25000
    case (OldRates, HalfTier) => 12500
    case (NewRates, FullTier) => 30000
    case (NewRates, HalfTier) => 15000
  }

  /** The kas due for `month` at residency `status` (`calculateKas`). */
  function CalculateKas(month: Month, status: string): (r: int)
    ensures r == Tariff(RegimeOf(month), TierOf(status))
  {
    if status == NONE then 10000
    else if Index(month) >= Index(Cutover) then (if status == FULL then 30000 else 15000)
    else (if status == FULL then 25000 else 12500)
  }

  /** The kas due takes one of five values, and "none" is the same in every month. */
  lemma KasValues(month: Month, status: string)
    ensures CalculateKas(month, status) in {10000, 12500, 15000, 25000, 30000}
    ensures status == NONE <==> CalculateKas(month, status) == 10000
  {
  }

  /** The half rate is exactly half the full rate, in each regime. */
  lemma KasHalfIsHalfOfFull(month: Month)
    ensures 2 * CalculateKas(month, HALF) == CalculateKas(month, FULL)
  {
  }

  /** An unrecognised status is silently charged the half rate: no error is raised. */
  lemma KasUnknownStatusIsHalf(month: Month, status: string)
    requires status != FULL && status != HALF && status != NONE
    ensures CalculateKas(month, status) == CalculateKas(month, HALF)
  {
  }

  /** The cutover: June 2025 is charged the old rates and July 2025 the new ones; the
      due never decreases from one month to a later one. */
  lemma KasCutover(a: Month, b: Month, status: string)
    ensures CalculateKas(YearMonth(2025, 6), FULL) == 25000
    ensures CalculateKas(YearMonth(2025, 7), FULL) == 30000
    ensures Index(a) <= Index(b) ==> CalculateKas(a, status) <= CalculateKas(b, status)
  {
  }

  /** `r` is `Math.round(p / q)`: the integer nearest to p / q, with halves rounded up. */
  predicate RoundsTo(r: int, p: int, q: int)
    requires q > 0
  {
    2 * q * r <= 2 * p + q < 2 * q * r + 2 * q
  }

  /** Exactly one integer is the rounding of a fraction. */
  lemma RoundsToUnique(r1: int, r2: int, p: int, q: int)
    requires q > 0 && RoundsTo(r1, p, q) && RoundsTo(r2, p, q)
    ensures r1 == r2
  {
    if r1 < r2 {
      MulMonotone(2 * q, r1 + 1, r2);
    } else if r2 < r1 {
      MulMonotone(2 * q, r2 + 1, r1);
    }
  }

  lemma MulMonotone(c: int, a: int, b: int)
    requires c > 0 && a <= b
    ensures c * a <= c * b
  {
    assert c * b - c * a == c * (b - a);
  }

  /** If c * a < c * b with c positive, then a < b. */
  lemma MulCancelLess(c: int, a: int, b: int)
    requires c > 0 && c * a < c * b
    ensures a < b
  {
    if a >= b {
      MulMonotone(c, b, a);
    }
  }

  /** Integer round-half-up division, the exact counterpart of `Math.round(p / q)`. */
  function RoundDiv(p: int, q: int): (r: int)
    requires q > 0
    ensures RoundsTo(r, p, q)
  {
    var n := 2 * p + q;
    var d := 2 * q;
    assert n == d * (n / d) + n % d;
    n / d
  }

  datatype WifiShares = WifiShares(fullShare: int, halfShare: int)

  /** The WiFi weights, scaled by four: a full user counts 4 and a half user 3, so the
      number of units `fullUsers + 0.75 * halfUsers` is `Units(...) / 4`. */
  function Units(fullUsers: nat, halfUsers: nat): nat {
    4 * fullUsers + 3 * halfUsers
  }

  /** The WiFi split (`calculateWifi`): nothing when the bill is 0 or nobody uses WiFi;
      otherwise a full user pays the bill divided by the number of units, and a half user
      three quarters of that, each rounded on its own. */
  function CalculateWifi(totalBill: int, fullUsers: nat, halfUsers: nat): (r: WifiShares)
    ensures totalBill == 0 || fullUsers + halfUsers == 0 ==> r == WifiShares(0, 0)
    ensures totalBill != 0 && fullUsers + halfUsers > 0 ==>
      && RoundsTo(r.fullShare, 4 * totalBill, Units(fullUsers, halfUsers))
      && RoundsTo(r.halfShare, 3 * totalBill, Units(fullUsers, halfUsers))
  {
    if totalBill == 0 || (fullUsers == 0 && halfUsers == 0) then WifiShares(0, 0)
    else
      var units := Units(fullUsers, halfUsers);
      WifiShares(RoundDiv(4 * totalBill, units), RoundDiv(3 * totalBill, units))
  }

  /** The two worked examples of the split. */
  lemma WifiExamples()
    ensures CalculateWifi(100000, 4, 0) == WifiShares(25000, 18750)
    ensures CalculateWifi(305250, 1, 2) == WifiShares(122100, 91575)
  {
    RoundsToUnique(CalculateWifi(100000, 4, 0).fullShare, 25000, 400000, 16);
    RoundsToUnique(CalculateWifi(100000, 4, 0).halfShare, 18750, 300000, 16);
    RoundsToUnique(CalculateWifi(305250, 1, 2).fullShare, 122100, 1221000, 10);
    RoundsToUnique(CalculateWifi(305250, 1, 2).halfShare, 91575, 915750, 10);
  }

  /** The rounding of 3p/q lies between 0 and the rounding of 4p/q when p >= 0. */
  lemma RoundedThreeQuartersBounds(p: int, q: int, full: int, half: int)
    requires p >= 0 && q > 0
    requires RoundsTo(full, 4 * p, q) && RoundsTo(half, 3 * p, q)
    ensures 0 <= half <= full
  {
    assert 2 * q * half <= 2 * q * (full + 1) - 1 by {
      assert 2 * q * (full + 1) == 2 * q * full + 2 * q;
    }
    MulCancelLess(2 * q, half, full + 1);
    assert 2 * q * 0 < 2 * q * (half + 1) by {
      assert 2 * q * (half + 1) == 2 * q * half + 2 * q;
    }
    MulCancelLess(2 * q, 0, half + 1);
  }

  /** For a non-negative bill a half user never pays more than a full user, and nobody
      pays a negative share. */
  lemma HalfShareAtMostFullShare(totalBill: int, fullUsers: nat, halfUsers: nat)
    requires totalBill >= 0
    ensures 0 <= CalculateWifi(totalBill, fullUsers, halfUsers).halfShare
    ensures CalculateWifi(totalBill, fullUsers, halfUsers).halfShare <= CalculateWifi(totalBill, fullUsers, halfUsers).fullShare
  {
    var r := CalculateWifi(totalBill, fullUsers, halfUsers);
    if totalBill != 0 && fullUsers + halfUsers > 0 {
      RoundedThreeQuartersBounds(totalBill, Units(fullUsers, halfUsers), r.fullShare, r.halfShare);
    }
  }

  /** Multiplying a two-sided bound by a non-negative count. */
  lemma ScaleBounds(n: int, lo: int, x: int, hi: int)
    requires n >= 0 && lo <= x <= hi
    ensures n * lo <= n * x <= n * hi
  {
    if n > 0 {
      MulMonotone(n, lo, x);
      MulMonotone(n, x, hi);
    }
  }

  /** Scaling the total paid by the number of units regroups it into the scaled roundings. */
  lemma DriftIdentity(b: int, f: int, h: int, full: int, half: int, q: int)
    ensures q * (2 * (f * full + h * half - b)) == f * (2 * q * full) + h * (2 * q * half) - 2 * b * q
  {
    assert q * (f * full) == f * (q * full);
    assert q * (h * half) == h * (q * half);
  }

  /** The scaled bounds add up to the scaled bill plus or minus `q` per user. */
  lemma DriftBoundsSum(b: int, f: int, h: int, q: int, s: int)
    requires q == 4 * f + 3 * h && (s == 1 || s == -1)
    ensures f * (8 * b + s * q) + h * (6 * b + s * q) == 2 * b * q + s * q * (f + h)
  {
    assert f * (8 * b + s * q) == 8 * b * f + s * q * f;
    assert h * (6 * b + s * q) == 6 * b * h + s * q * h;
    assert 2 * b * q == 8 * b * f + 6 * b * h;
  }

  /** Dividing a two-sided bound `-q n <= q e <= q n` by a positive `q`. */
  lemma MulCancelBetween(q: int, e: int, n: int)
    requires q > 0 && q * -n <= q * e <= q * n
    ensures -n <= e <= n
  {
    assert q * (n + 1) == q * n + q;
    MulCancelLess(q, e, n + 1);
    assert q * (e + 1) == q * e + q;
    MulCancelLess(q, -n, e + 1);
  }

  lemma MulNegate(a: int, b: int)
    ensures a * -b == -1 * a * b
  {
  }

  /** The arithmetic core of the drift bound, over plain integers. */
  lemma DriftBound(b: int, f: nat, h: nat, full: int, half: int)
    requires Units(f, h) > 0
    requires RoundsTo(full, 4 * b, Units(f, h)) && RoundsTo(half, 3 * b, Units(f, h))
    ensures -(f + h) <= 2 * (f * full + h * half - b) <= f + h
  {
    var q := Units(f, h);
    var x, y := 2 * q * full, 2 * q * half;
    assert 8 * b - q <= x <= 8 * b + q;
    assert 6 * b - q <= y <= 6 * b + q;
    ScaleBounds(f, 8 * b - q, x, 8 * b + q);
    ScaleBounds(h, 6 * b - q, y, 6 * b + q);
    var e := 2 * (f * full + h * half - b);
    DriftIdentity(b, f, h, full, half, q);
    DriftBoundsSum(b, f, h, q, 1);
    DriftBoundsSum(b, f, h, q, -1);
    var fx, hy := f * x, h * y;
    assert q * e == fx + hy - 2 * b * q;
    assert fx + hy <= 2 * b * q + 1 * q * (f + h);
    assert fx + hy >= 2 * b * q + -1 * q * (f + h);
    assert q * e <= q * (f + h);
    assert q * e >= -1 * q * (f + h);
    MulNegate(q, f + h);
    MulCancelBetween(q, e, f + h);
  }

  /** The shares are rounded independently and the remainder is not redistributed, so what
      all users pay together misses the bill by at most half a currency unit per user. */
  lemma WifiDrift(totalBill: int, fullUsers: nat, halfUsers: nat)
    requires fullUsers + halfUsers > 0
    ensures var r := CalculateWifi(totalBill, fullUsers, halfUsers);
      var collected := fullUsers * r.fullShare + halfUsers * r.halfShare;
      -(fullUsers + halfUsers) <= 2 * (collected - totalBill) <= fullUsers + halfUsers
  {
    var r := CalculateWifi(totalBill, fullUsers, halfUsers);
    if totalBill != 0 && fullUsers + halfUsers > 0 {
      DriftBound(totalBill, fullUsers, halfUsers, r.fullShare, r.halfShare);
    }
  }
}

=== FILE: collections.dfy ===
/** Deletion by id, as every `DELETE` handler does it: `items.filter(x => x.id !== id)`. */
module Collections {
  import opened Seqs

  function IdIsNot<T>(idOf: T -> int, id: int): T -> bool {
    (x: T) => idOf(x) != id
  }

  /** The items whose id differs from `id`, in their original order. */
  function DeleteById<T>(s: seq<T>, idOf: T -> int, id: int): (r: seq<T>)
    ensures |r| <= |s|
    ensures forall i :: 0 <= i < |r| ==> r[i] in s && idOf(r[i]) != id
    ensures forall i :: 0 <= i < |s| && idOf(s[i]) != id ==> s[i] in r
  {
    var r := Filter(s, IdIsNot(idOf, id));
    DeleteByIdMembers(s, idOf, id, r);
    r
  }

  lemma DeleteByIdMembers<T>(s: seq<T>, idOf: T -> int, id: int, r: seq<T>)
    requires r == Filter(s, IdIsNot(idOf, id))
    ensures forall i :: 0 <= i < |r| ==> r[i] in s && idOf(r[i]) != id
    ensures forall i :: 0 <= i < |s| && idOf(s[i]) != id ==> s[i] in r
  {
    forall i | 0 <= i < |r|
      ensures r[i] in s && idOf(r[i]) != id
    {
      FilterMember(s, IdIsNot(idOf, id), r[i]);
    }
    forall i | 0 <= i < |s| && idOf(s[i]) != id
      ensures s[i] in r
    {
      FilterMember(s, IdIsNot(idOf, id), s[i]);
    }
  }

  /** Deleting keeps the order of what remains: it works item by item, from left to right,
      dropping exactly the items carrying the id. */
  lemma DeleteByIdPieces<T>(a: seq<T>, b: seq<T>, x: T, idOf: T -> int, id: int)
    ensures DeleteById(a + b, idOf, id) == DeleteById(a, idOf, id) + DeleteById(b, idOf, id)
    ensures DeleteById([x], idOf, id) == if idOf(x) == id then [] else [x]
  {
    FilterConcat(a, b, IdIsNot(idOf, id));
    FilterSnoc([], x, IdIsNot(idOf, id));
    assert [] + [x] == [x];
  }

  /** Each item is kept exactly as often as it occurs, unless it carries the id. */
  lemma DeleteByIdCount<T>(s: seq<T>, idOf: T -> int, id: int, x: T)
    ensures multiset(DeleteById(s, idOf, id))[x] == if idOf(x) == id then 0 else multiset(s)[x]
  {
    FilterCount(s, IdIsNot(idOf, id), x);
  }

  /** Deleting the same id twice is deleting it once. */
  lemma DeleteByIdIdempotent<T>(s: seq<T>, idOf: T -> int, id: int)
    ensures DeleteById(DeleteById(s, idOf, id), idOf, id) == DeleteById(s, idOf, id)
  {
    FilterIdempotent(s, IdIsNot(idOf, id));
  }

  /** Deleting an id nobody carries changes nothing. */
  lemma DeleteAbsentId<T>(s: seq<T>, idOf: T -> int, id: int)
    requires forall i :: 0 <= i < |s| ==> idOf(s[i]) != id
    ensures DeleteById(s, idOf, id) == s
  {
    FilterAll(s, IdIsNot(idOf, id));
  }

  /** Deleting a just-appended item by its fresh id restores the collection. */
  lemma DeleteUndoesAppend<T>(s: seq<T>, x: T, idOf: T -> int)
    requires forall i :: 0 <= i < |s| ==> idOf(s[i]) != idOf(x)
    ensures DeleteById(s + [x], idOf, idOf(x)) == s
  {
    FilterSnoc(s, x, IdIsNot(idOf, idOf(x)));
    DeleteAbsentId(s, idOf, idOf(x));
  }
}

=== FILE: debts_route.dfy ===
/** `/api/wifi-debts`: `POST` appends `{ id: Date.now(), ...body }` and `DELETE` removes the
    debts carrying the id given in the request body. The fresh id is a parameter. */
module DebtsRoute {
  import opened Options
  import opened Months
  import opened Records
  import opened Collections

  /** The posted fields; the body may carry its own `id`. */
  datatype DebtBody = DebtBody(id: Option<int>, memberId: int, memberName: string, month: Month, amount: int)

  /** `POST`: one debt at the end. The body is spread after the generated id, so an id in
      the body wins over the fresh one. */
  function PostDebt(debts: seq<WifiDebt>, body: DebtBody, freshId: int): (r: seq<WifiDebt>)
    ensures |r| == |debts| + 1 && r[..|debts|] == debts
    ensures body.id.Some? ==> r[|debts|].id == body.id.value
    ensures body.id.None? ==> r[|debts|].id == freshId
    ensures r[|debts|].memberId == body.memberId && r[|debts|].memberName == body.memberName
    ensures r[|debts|].month == body.month && r[|debts|].amount == body.amount
  {
    debts + [WifiDebt(body.id.GetOr(freshId), body.memberId, body.memberName, body.month, body.amount)]
  }

  function DebtId(d: WifiDebt): int {
    d.id
  }

  /** `DELETE { id }`: the debts with that id go, the rest stay in order. */
  function DeleteDebt(debts: seq<WifiDebt>, id: int): (r: seq<WifiDebt>)
    ensures forall i :: 0 <= i < |r| ==> r[i] in debts && r[i].id != id
    ensures forall i :: 0 <= i < |debts| && debts[i].id != id ==> debts[i] in r
  {
    DeleteById(debts, DebtId, id)
  }

  lemma DeleteDebtIdempotent(debts: seq<WifiDebt>, id: int)
    ensures DeleteDebt(DeleteDebt(debts, id), id) == DeleteDebt(debts, id)
  {
    DeleteByIdIdempotent(debts, DebtId, id);
  }

  /** A body that reuses an existing debt's id creates a second debt with that id, and
      deleting that id then removes both: the earlier debt cannot be deleted on its own. */
  lemma ReusedIdDeletesBoth(debts: seq<WifiDebt>, body: DebtBody, freshId: int, j: nat)
    requires j < |debts| && body.id == Some(debts[j].id)
    ensures var r := PostDebt(debts, body, freshId);
      r[j].id == r[|debts|].id && r[j] !in DeleteDebt(r, debts[j].id) && r[|debts|] !in DeleteDebt(r, debts[j].id)
  {
    var r := PostDebt(debts, body, freshId);
    assert r[j] == debts[j];
  }
}

=== FILE: grouping.dfy ===
/** Grouping by key in first-appearance order, as the application does it with
    `groups.find(g => <same key>)` followed by either updating the found group or
    `groups.push(<new group>)`, and with `obj[key] ||= []; obj[key].push(x)`.
    Each group carries its items and an accumulator updated as items are added. */
module Grouping {
  import opened Options
  import opened Seqs

  datatype Group<K, T, A> = Group(key: K, items: seq<T>, acc: A)

  function HasKey<K(==), T>(key: T -> K, k: K): T -> bool {
    x => key(x) == k
  }

  /** The elements of `s` whose key is `k`, in their original order. */
  function Matching<K(==), T>(s: seq<T>, key: T -> K, k: K): seq<T> {
    Filter(s, HasKey(key, k))
  }

  /** The accumulator a group reaches after receiving `items` one by one: `start` creates it
      from the first item and `step` folds in each later one. */
  function Accumulate<T, A>(items: seq<T>, start: T -> A, step: (A, T) -> A): A
    requires |items| > 0
    decreases |items|
  {
    if |items| == 1 then start(items[0])
    else step(Accumulate(items[..|items| - 1], start, step), items[|items| - 1])
  }

  function KeyIs<K(==), T, A>(k: K): Group<K, T, A> -> bool {
    (g: Group<K, T, A>) => g.key == k
  }

  /** Adds `x` to the first group with its key, or appends a new group for it. */
  function Add<K(==), T, A>(gs: seq<Group<K, T, A>>, x: T, key: T -> K, start: T -> A, step: (A, T) -> A)
    : seq<Group<K, T, A>>
  {
    match FindIndex(gs, KeyIs(key(x)))
    case Some(j) => gs[j := Group(gs[j].key, gs[j].items + [x], step(gs[j].acc, x))]
    case None => gs + [Group(key(x), [x], start(x))]
  }

  ghost predicate DistinctKeys<K, T, A>(gs: seq<Group<K, T, A>>) {
    forall i, j :: 0 <= i < j < |gs| ==> gs[i].key != gs[j].key
  }

  /** `gs` is the grouping of `s` by `key`: keys are pairwise distinct, every group holds
      exactly the elements of `s` with its key (in order) with the matching accumulator,
      and every element's key has a group. */
  ghost predicate Partitions<K, T, A>(gs: seq<Group<K, T, A>>, s: seq<T>, key: T -> K, start: T -> A, step: (A, T) -> A) {
    && DistinctKeys(gs)
    && (forall j :: 0 <= j < |gs| ==>
          && |gs[j].items| > 0
          && gs[j].items == Matching(s, key, gs[j].key)
          && gs[j].acc == Accumulate(gs[j].items, start, step))
    && (forall i :: 0 <= i < |s| ==> key(s[i]) in Keys(gs))
  }

  /** The keys of the groups, in group order. */
  function Keys<K, T, A>(gs: seq<Group<K, T, A>>): (r: seq<K>)
    ensures |r| == |gs|
    ensures forall j :: 0 <= j < |gs| ==> r[j] == gs[j].key
  {
    seq(|gs|, j requires 0 <= j < |gs| => gs[j].key)
  }

  lemma MatchingSnoc<K, T>(s: seq<T>, x: T, key: T -> K, k: K)
    ensures Matching(s + [x], key, k) == Matching(s, key, k) + (if key(x) == k then [x] else [])
  {
    FilterSnoc(s, x, HasKey(key, k));
  }

  /** No element has key `k`, so none matches it. */
  lemma {:induction false} MatchingNone<K, T>(s: seq<T>, key: T -> K, k: K)
    requires forall i :: 0 <= i < |s| ==> key(s[i]) != k
    ensures Matching(s, key, k) == []
    decreases |s|
  {
    if |s| > 0 {
      MatchingNone(s[..|s| - 1], key, k);
    }
  }

  lemma AccumulateSnoc<T, A>(items: seq<T>, x: T, start: T -> A, step: (A, T) -> A)
    requires |items| > 0
    ensures Accumulate(items + [x], start, step) == step(Accumulate(items, start, step), x)
  {
    assert (items + [x])[..|items|] == items;
  }

  /** Adding `x` to the group `j` that already carries its key. */
  lemma AddToExisting<K, T, A>(gs: seq<Group<K, T, A>>, s: seq<T>, x: T, key: T -> K, start: T -> A, step: (A, T) -> A, j: nat)
    requires Partitions(gs, s, key, start, step)
    requires j < |gs| && gs[j].key == key(x)
    ensures Partitions(gs[j := Group(gs[j].key, gs[j].items + [x], step(gs[j].acc, x))], s + [x], key, start, step)
  {
    var s' := s + [x];
    var gs' := gs[j := Group(gs[j].key, gs[j].items + [x], step(gs[j].acc, x))];
    forall i | 0 <= i < |gs'|
      ensures |gs'[i].items| > 0
      ensures gs'[i].items == Matching(s', key, gs'[i].key)
      ensures gs'[i].acc == Accumulate(gs'[i].items, start, step)
    {
      MatchingSnoc(s, x, key, gs[i].key);
      if i == j {
        AccumulateSnoc(gs[j].items, x, start, step);
      } else {
        assert gs[i].key != key(x);
      }
    }
    assert Keys(gs') == Keys(gs);
    forall i | 0 <= i < |s'|
      ensures key(s'[i]) in Keys(gs')
    {
      if i < |s| {
        assert s'[i] == s[i];
      } else {
        assert s'[i] == x && Keys(gs')[j] == key(x);
      }
    }
  }

  /** Appending a new group for `x`, whose key no group carries yet. */
  lemma AddAsNew<K, T, A>(gs: seq<Group<K, T, A>>, s: seq<T>, x: T, key: T -> K, start: T -> A, step: (A, T) -> A)
    requires Partitions(gs, s, key, start, step)
    requires forall i :: 0 <= i < |gs| ==> gs[i].key != key(x)
    ensures Partitions(gs + [Group(key(x), [x], start(x))], s + [x], key, start, step)
  {
    var s' := s + [x];
    var gs' := gs + [Group(key(x), [x], start(x))];
    assert key(x) !in Keys(gs);
    forall i | 0 <= i < |s|
      ensures key(s[i]) != key(x)
    {
      assert key(s[i]) in Keys(gs);
    }
    MatchingNone(s, key, key(x));
    forall i | 0 <= i < |gs'|
      ensures |gs'[i].items| > 0
      ensures gs'[i].items == Matching(s', key, gs'[i].key)
      ensures gs'[i].acc == Accumulate(gs'[i].items, start, step)
    {
      MatchingSnoc(s, x, key, gs'[i].key);
    }
    assert Keys(gs') == Keys(gs) + [key(x)];
    forall i | 0 <= i < |s'|
      ensures key(s'[i]) in Keys(gs')
    {
      if i < |s| {
        assert s'[i] == s[i];
      } else {
        assert s'[i] == x;
      }
    }
  }

  lemma AddPreserves<K, T, A>(gs: seq<Group<K, T, A>>, s: seq<T>, x: T, key: T -> K, start: T -> A, step: (A, T) -> A)
    requires Partitions(gs, s, key, start, step)
    ensures Partitions(Add(gs, x, key, start, step), s + [x], key, start, step)
  {
    match FindIndex(gs, KeyIs(key(x)))
    case Some(j) =>
      assert KeyIs(key(x))(gs[j]);
      AddToExisting(gs, s, x, key, start, step, j);
    case None =>
      assert forall i :: 0 <= i < |gs| ==> !KeyIs(key(x))(gs[i]);
      AddAsNew(gs, s, x, key, start, step);
  }

  /** Groups `s` by `key`, folding the items of each group with `start` and `step`. */
  function GroupFold<K(==), T, A>(s: seq<T>, key: T -> K, start: T -> A, step: (A, T) -> A): (gs: seq<Group<K, T, A>>)
    ensures Partitions(gs, s, key, start, step)
    decreases |s|
  {
    if |s| == 0 then []
    else
      var init := s[..|s| - 1];
      assert s == init + [s[|s| - 1]];
      var gs := GroupFold(init, key, start, step);
      AddPreserves(gs, init, s[|s| - 1], key, start, step);
      Add(gs, s[|s| - 1], key, start, step)
  }

  /** Every element of `s` lies in exactly one group: the one carrying its key. */
  lemma InExactlyOneGroup<K, T, A>(gs: seq<Group<K, T, A>>, s: seq<T>, key: T -> K, start: T -> A, step: (A, T) -> A, i: nat)
    requires Partitions(gs, s, key, start, step)
    requires i < |s|
    ensures exists j :: 0 <= j < |gs| && s[i] in gs[j].items && gs[j].key == key(s[i])
    ensures forall j :: 0 <= j < |gs| && s[i] in gs[j].items ==> gs[j].key == key(s[i])
  {
    assert key(s[i]) in Keys(gs);
    var j :| 0 <= j < |gs| && Keys(gs)[j] == key(s[i]);
    FilterMember(s, HasKey(key, gs[j].key), s[i]);
    assert s[i] in gs[j].items;
    forall j' | 0 <= j' < |gs| && s[i] in gs[j'].items
      ensures gs[j'].key == key(s[i])
    {
      FilterMember(s, HasKey(key, gs[j'].key), s[i]);
    }
  }

  /** The accumulators of the groups, in group order. */
  function Accs<K, T, A>(gs: seq<Group<K, T, A>>): (r: seq<A>)
    ensures |r| == |gs|
    ensures forall j :: 0 <= j < |gs| ==> r[j] == gs[j].acc
  {
    seq(|gs|, j requires 0 <= j < |gs| => gs[j].acc)
  }

  lemma SumByUpdate<T>(s: seq<T>, j: nat, v: T, f: T -> int)
    requires j < |s|
    ensures SumBy(s[j := v], f) == SumBy(s, f) - f(s[j]) + f(v)
  {
    assert s == s[..j] + [s[j]] + s[j + 1..];
    assert s[j := v] == s[..j] + [v] + s[j + 1..];
    SumByConcat(s[..j] + [s[j]], s[j + 1..], f);
    SumByConcat(s[..j] + [v], s[j + 1..], f);
    SumBySnoc(s[..j], s[j], f);
    SumBySnoc(s[..j], v, f);
  }

  /** When the accumulator adds up `f` (as measured by `proj`), it equals the sum of `f`
      over the group's items. */
  lemma {:induction false} AccumulateSum<T, A>(items: seq<T>, start: T -> A, step: (A, T) -> A, proj: A -> int, f: T -> int)
    requires |items| > 0
    requires forall x :: proj(start(x)) == f(x)
    requires forall a, x :: proj(step(a, x)) == proj(a) + f(x)
    ensures proj(Accumulate(items, start, step)) == SumBy(items, f)
    decreases |items|
  {
    if |items| == 1 {
      assert items[..0] == [];
    } else {
      AccumulateSum(items[..|items| - 1], start, step, proj, f);
    }
  }

  /** Adding one item raises the total of the accumulators by that item's share. */
  lemma AddTotal<K, T, A>(gs: seq<Group<K, T, A>>, x: T, key: T -> K, start: T -> A, step: (A, T) -> A, proj: A -> int, f: T -> int)
    requires forall x :: proj(start(x)) == f(x)
    requires forall a, x :: proj(step(a, x)) == proj(a) + f(x)
    ensures SumBy(Accs(Add(gs, x, key, start, step)), proj) == SumBy(Accs(gs), proj) + f(x)
  {
    match FindIndex(gs, KeyIs(key(x)))
    case Some(j) =>
      assert Accs(Add(gs, x, key, start, step)) == Accs(gs)[j := step(gs[j].acc, x)];
      SumByUpdate(Accs(gs), j, step(gs[j].acc, x), proj);
    case None =>
      assert Accs(Add(gs, x, key, start, step)) == Accs(gs) + [start(x)];
      SumBySnoc(Accs(gs), start(x), proj);
  }

  /** When the accumulator adds up `f`, the accumulators of all groups together add up
      `f` over the whole input: grouping loses and duplicates nothing. */
  lemma {:induction false} GroupFoldTotal<K, T, A>(s: seq<T>, key: T -> K, start: T -> A, step: (A, T) -> A, proj: A -> int, f: T -> int)
    requires forall x :: proj(start(x)) == f(x)
    requires forall a, x :: proj(step(a, x)) == proj(a) + f(x)
    ensures SumBy(Accs(GroupFold(s, key, start, step)), proj) == SumBy(s, f)
    decreases |s|
  {
    if |s| > 0 {
      var init := s[..|s| - 1];
      var x := s[|s| - 1];
      GroupFoldTotal(init, key, start, step, proj, f);
      AddTotal(GroupFold(init, key, start, step), x, key, start, step, proj, f);
    }
  }
}

=== FILE: ledger.dfy ===
/** The dashboard's cash ledger: transactions in posting order with a running balance,
    the same entries grouped by the month paid for, and the year's timeline grouped by
    (member, posting day, type). */
module Ledger {
  import opened Seqs
  import opened Sorting
  import opened Grouping
  import opened Months
  import opened Records

  predicate IsExpense(t: Transaction) {
    t.kind == EXPENSE
  }

  function Abs(x: int): (r: int)
    ensures r >= 0 && (r == x || r == -x)
  {
    if x < 0 then -x else x
  }

  /** Money in: the amount of every transaction that is not an expense. */
  function Debit(t: Transaction): int {
    if IsExpense(t) then 0 else t.amount
  }

  /** Money out: the magnitude of an expense (expenses are stored as negative amounts). */
  function Kredit(t: Transaction): int {
    if IsExpense(t) then Abs(t.amount) else 0
  }

  function Delta(t: Transaction): int {
    Debit(t) - Kredit(t)
  }

  function PostedAt(t: Transaction): int {
    t.date
  }

  /** A timeline row: the transaction with its debit, kredit and the balance after it. */
  datatype Entry = Entry(tx: Transaction, debit: int, kredit: int, saldo: int)

  /** The running balance over `sorted`: each row's saldo is the previous row's saldo plus
      its debit minus its kredit, starting from 0; that is, the sum of the deltas of the
      rows up to and including it. */
  function RunningBalance(sorted: seq<Transaction>): (r: seq<Entry>)
    ensures |r| == |sorted|
    ensures forall i :: 0 <= i < |r| ==>
      r[i].tx == sorted[i] && r[i].debit == Debit(sorted[i]) && r[i].kredit == Kredit(sorted[i])
    ensures forall i :: 0 <= i < |r| ==> r[i].saldo == SumBy(sorted[..i + 1], Delta)
    decreases |sorted|
  {
    if |sorted| == 0 then []
    else
      var init := sorted[..|sorted| - 1];
      var t := sorted[|sorted| - 1];
      var prev := RunningBalance(init);
      var before := if |prev| == 0 then 0 else prev[|prev| - 1].saldo;
      PrefixSums(init, t, Delta);
      assert sorted == init + [t];
      prev + [Entry(t, Debit(t), Kredit(t), before + Debit(t) - Kredit(t))]
  }

  /** The sums over the prefixes of `init` do not change when an element is appended. */
  lemma PrefixSums<T>(init: seq<T>, t: T, f: T -> int)
    ensures forall k :: 1 <= k <= |init| ==> SumBy((init + [t])[..k], f) == SumBy(init[..k], f)
    ensures SumBy((init + [t])[..|init| + 1], f) == (if |init| == 0 then 0 else SumBy(init[..|init|], f)) + f(t)
  {
    forall k | 1 <= k <= |init|
      ensures SumBy((init + [t])[..k], f) == SumBy(init[..k], f)
    {
      assert (init + [t])[..k] == init[..k];
    }
    assert (init + [t])[..|init| + 1] == init + [t];
    assert init[..|init|] == init;
    SumBySnoc(init, t, f);
  }

  /** The timeline: transactions sorted by posting date, then the running balance. */
  function Timeline(txs: seq<Transaction>): (r: seq<Entry>)
    ensures |r| == |txs|
    ensures multiset(Txs(r)) == multiset(txs)
    ensures forall i, j :: 0 <= i < j < |r| ==> r[i].tx.date <= r[j].tx.date
    ensures forall i :: 0 <= i < |r| ==> r[i].debit == Debit(r[i].tx) && r[i].kredit == Kredit(r[i].tx)
    ensures forall i :: 0 <= i < |r| ==> r[i].saldo == SumBy(Txs(r)[..i + 1], Delta)
  {
    var sorted := SortBy(txs, PostedAt);
    var r := RunningBalance(sorted);
    assert Txs(r) == sorted;
    r
  }

  /** The transactions of timeline rows. */
  function Txs(entries: seq<Entry>): (r: seq<Transaction>)
    ensures |r| == |entries|
    ensures forall i :: 0 <= i < |entries| ==> r[i] == entries[i].tx
  {
    seq(|entries|, i requires 0 <= i < |entries| => entries[i].tx)
  }

  /** The balance after the last row is all money in minus all money out, whatever order
      the transactions were stored in. */
  lemma FinalSaldo(txs: seq<Transaction>)
    requires |txs| > 0
    ensures Timeline(txs)[|txs| - 1].saldo == SumBy(txs, Debit) - SumBy(txs, Kredit)
  {
    var sorted := SortBy(txs, PostedAt);
    LastSaldo(sorted);
    SumByPermutation(sorted, txs, Delta);
    DeltaSum(txs);
  }

  /** The last saldo of a running balance is the sum of all deltas. */
  lemma LastSaldo(sorted: seq<Transaction>)
    requires |sorted| > 0
    ensures RunningBalance(sorted)[|sorted| - 1].saldo == SumBy(sorted, Delta)
  {
    assert sorted[..|sorted|] == sorted;
  }

  /** The sum of the deltas is money in minus money out. */
  lemma DeltaSum(txs: seq<Transaction>)
    ensures SumBy(txs, Delta) == SumBy(txs, Debit) - SumBy(txs, Kredit)
  {
    assert forall x :: Delta(x) == Debit(x) - Kredit(x);
    SumByDifference(txs, Debit, Kredit, Delta);
  }

  /** Two stores holding the same transactions in different orders end on the same balance. */
  lemma FinalSaldoOrderIndependent(a: seq<Transaction>, b: seq<Transaction>)
    requires |a| > 0 && multiset(a) == multiset(b)
    ensures |b| == |a|
    ensures Timeline(a)[|a| - 1].saldo == Timeline(b)[|b| - 1].saldo
  {
    assert |multiset(a)| == |a| && |multiset(b)| == |b|;
    FinalSaldo(a);
    FinalSaldo(b);
    SumByPermutation(a, b, Debit);
    SumByPermutation(a, b, Kredit);
  }

  function EntryMonth(e: Entry): Month {
    e.tx.month
  }

  function NoSummary(e: Entry): () {
    ()
  }

  function KeepSummary(a: (), e: Entry): () {
    ()
  }

  /** `timelineByMonth`: the timeline rows grouped by the month paid for, months in order of
      first appearance, rows in timeline order. */
  function TimelineByMonth(timeline: seq<Entry>): (r: seq<Group<Month, Entry, ()>>)
    ensures forall j :: 0 <= j < |r| ==> |r[j].items| > 0
    ensures forall j, k :: 0 <= j < k < |r| ==> r[j].key != r[k].key
  {
    GroupFold(timeline, EntryMonth, NoSummary, KeepSummary)
  }

  /** Every timeline row is listed under its own month and under no other, the months are
      distinct, and each month lists exactly its rows in timeline order. */
  lemma TimelineByMonthGroups(timeline: seq<Entry>, i: nat)
    requires i < |timeline|
    ensures var gs := TimelineByMonth(timeline);
      && (exists j :: 0 <= j < |gs| && timeline[i] in gs[j].items && gs[j].key == timeline[i].tx.month)
      && (forall j :: 0 <= j < |gs| && timeline[i] in gs[j].items ==> gs[j].key == timeline[i].tx.month)
      && (forall j, k :: 0 <= j < k < |gs| ==> gs[j].key != gs[k].key)
      && (forall j :: 0 <= j < |gs| ==> gs[j].items == Matching(timeline, EntryMonth, gs[j].key))
  {
    InExactlyOneGroup(TimelineByMonth(timeline), timeline, EntryMonth, NoSummary, KeepSummary, i);
  }

  /** The timeline grouping key: member, posting day and transaction type. */
  datatype DayKey = DayKey(memberId: int, day: int, kind: string)

  /** A timeline group's header and totals. */
  datatype DayTotals = DayTotals(memberName: string, date: int, totalDebit: int, totalKredit: int, lastSaldo: int)

  /** The name shown for a group: the snapshot name, or a dash when it is empty. */
  function DisplayName(name: string): string {
    if name == "" then "—" else name
  }

  /** The grouping key of a row; `dayOf` is the locale's calendar day of a timestamp. */
  function DayKeyOf(dayOf: int -> int): Entry -> DayKey {
    (e: Entry) => DayKey(e.tx.memberId, dayOf(e.tx.date), e.tx.kind)
  }

  function OpenDay(e: Entry): DayTotals {
    DayTotals(DisplayName(e.tx.memberName), e.tx.date, e.debit, e.kredit, e.saldo)
  }

  function AddToDay(a: DayTotals, e: Entry): DayTotals {
    a.(totalDebit := a.totalDebit + e.debit, totalKredit := a.totalKredit + e.kredit, lastSaldo := e.saldo)
  }

  /** The rows posted in `year`; `yearOf` is the locale's year of a timestamp. */
  function InYear(yearOf: int -> int, year: int): Entry -> bool {
    (e: Entry) => yearOf(e.tx.date) == year
  }

  /** The dashboard's timeline for `year`: the year's rows grouped by (member, day, type).
      A row joins ANY earlier group with its key, not only the one just before it. */
  function DayGroups(timeline: seq<Entry>, yearOf: int -> int, year: int, dayOf: int -> int)
    : (r: seq<Group<DayKey, Entry, DayTotals>>)
    ensures forall j :: 0 <= j < |r| ==> |r[j].items| > 0
    ensures forall j, k :: 0 <= j < k < |r| ==> r[j].key != r[k].key
  {
    GroupFold(Filter(timeline, InYear(yearOf, year)), DayKeyOf(dayOf), OpenDay, AddToDay)
  }

  function EntryDebit(e: Entry): int {
    e.debit
  }

  function EntryKredit(e: Entry): int {
    e.kredit
  }

  /** What a group's header shows: the name and date of its first row, the sums of its
      debits and kredits, and the saldo of its last row. */
  lemma {:induction false} DayTotalsOfItems(items: seq<Entry>)
    requires |items| > 0
    ensures var a := Accumulate(items, OpenDay, AddToDay);
      && a.memberName == DisplayName(items[0].tx.memberName)
      && a.date == items[0].tx.date
      && a.totalDebit == SumBy(items, EntryDebit)
      && a.totalKredit == SumBy(items, EntryKredit)
      && a.lastSaldo == items[|items| - 1].saldo
    decreases |items|
  {
    if |items| == 1 {
      assert items[..0] == [];
    } else {
      var init := items[..|items| - 1];
      DayTotalsOfItems(init);
      assert init[0] == items[0];
    }
  }

  /** Each group's header agrees with its rows, every row of the year is in exactly the
      group of its key, and the keys are distinct. */
  lemma DayGroupsSound(timeline: seq<Entry>, yearOf: int -> int, year: int, dayOf: int -> int, j: nat)
    requires j < |DayGroups(timeline, yearOf, year, dayOf)|
    ensures var g := DayGroups(timeline, yearOf, year, dayOf)[j];
      && |g.items| > 0
      && g.acc.memberName == DisplayName(g.items[0].tx.memberName)
      && g.acc.totalDebit == SumBy(g.items, EntryDebit)
      && g.acc.totalKredit == SumBy(g.items, EntryKredit)
      && g.acc.lastSaldo == g.items[|g.items| - 1].saldo
      && (forall e :: e in g.items <==> e in timeline && InYear(yearOf, year)(e) && DayKeyOf(dayOf)(e) == g.key)
    ensures var gs := DayGroups(timeline, yearOf, year, dayOf);
      forall k :: 0 <= k < |gs| && k != j ==> gs[k].key != gs[j].key
  {
    var ys := Filter(timeline, InYear(yearOf, year));
    var g := DayGroups(timeline, yearOf, year, dayOf)[j];
    DayTotalsOfItems(g.items);
    forall e
      ensures e in g.items <==> e in timeline && InYear(yearOf, year)(e) && DayKeyOf(dayOf)(e) == g.key
    {
      FilterMember(ys, HasKey(DayKeyOf(dayOf), g.key), e);
      FilterMember(timeline, InYear(yearOf, year), e);
    }
  }

  /** Every row of the year appears in the timeline, in exactly the group of its key. */
  lemma DayGroupsCover(timeline: seq<Entry>, yearOf: int -> int, year: int, dayOf: int -> int, e: Entry)
    requires e in timeline && yearOf(e.tx.date) == year
    ensures var gs := DayGroups(timeline, yearOf, year, dayOf);
      && (exists j :: 0 <= j < |gs| && e in gs[j].items)
      && (forall j :: 0 <= j < |gs| && e in gs[j].items ==> gs[j].key == DayKeyOf(dayOf)(e))
  {
    var ys := Filter(timeline, InYear(yearOf, year));
    FilterMember(timeline, InYear(yearOf, year), e);
    var i :| 0 <= i < |ys| && ys[i] == e;
    InExactlyOneGroup(DayGroups(timeline, yearOf, year, dayOf), ys, DayKeyOf(dayOf), OpenDay, AddToDay, i);
  }

  function TotalDebitOf(a: DayTotals): int {
    a.totalDebit
  }

  /** Grouping loses no money: the groups' debit totals add up to the year's debits. */
  lemma DayGroupsDebitTotal(timeline: seq<Entry>, yearOf: int -> int, year: int, dayOf: int -> int)
    ensures SumBy(Accs(DayGroups(timeline, yearOf, year, dayOf)), TotalDebitOf)
      == SumBy(Filter(timeline, InYear(yearOf, year)), EntryDebit)
  {
    GroupFoldTotal(Filter(timeline, InYear(yearOf, year)), DayKeyOf(dayOf), OpenDay, AddToDay, TotalDebitOf, EntryDebit);
  }

  function TotalKreditOf(a: DayTotals): int {
    a.totalKredit
  }

  /** Grouping loses no money out either: the groups' kredit totals add up to the year's
      kredits. */
  lemma DayGroupsKreditTotal(timeline: seq<Entry>, yearOf: int -> int, year: int, dayOf: int -> int)
    ensures SumBy(Accs(DayGroups(timeline, yearOf, year, dayOf)), TotalKreditOf)
      == SumBy(Filter(timeline, InYear(yearOf, year)), EntryKredit)
  {
    GroupFoldTotal(Filter(timeline, InYear(yearOf, year)), DayKeyOf(dayOf), OpenDay, AddToDay, TotalKreditOf, EntryKredit);
  }
}

=== FILE: members_route.dfy ===
/** `/api/members`: `POST` appends a member under a fresh id with status "full" unless one
    is given, `PUT` merges the body into the member with the body's id, and `DELETE`
    removes by id. The fresh id (`Date.now()`) is a parameter. */
module MembersRoute {
  import opened Options
  import opened Records
  import opened Collections

  datatype MemberBody = MemberBody(name: string, status: Option<string>)

  /** `POST`: the new member goes at the end; an absent or empty status becomes "full". */
  function PostMember(members: seq<Member>, body: MemberBody, freshId: int): (r: seq<Member>)
    ensures |r| == |members| + 1 && r[..|members|] == members
    ensures r[|members|].id == freshId && r[|members|].name == body.name
    ensures body.status.None? || body.status.value == "" ==> r[|members|].status == FULL
    ensures body.status.Some? && body.status.value != "" ==> r[|members|].status == body.status.value
  {
    members + [Member(freshId, body.name, OrElse(body.status, FULL))]
  }

  /** A `PUT` body: the id of the member to change and the fields it carries. */
  datatype MemberPatch = MemberPatch(id: int, name: Option<string>, status: Option<string>)

  /** `{ ...m, ...body }`: every field present in the body replaces the member's, even an
      empty one; the id is the body's, which equals the member's. */
  function Merge(m: Member, patch: MemberPatch): Member {
    Member(m.id, patch.name.GetOr(m.name), patch.status.GetOr(m.status))
  }

  function MergeIfId(patch: MemberPatch): Member -> Member {
    (m: Member) => if m.id == patch.id then Merge(m, patch) else m
  }

  /** `PUT`: the members with the body's id take the body's fields; nobody else changes,
      and neither do the length, the order or any id. */
  function PutMember(members: seq<Member>, patch: MemberPatch): (r: seq<Member>)
    ensures |r| == |members|
    ensures forall i :: 0 <= i < |members| ==> r[i].id == members[i].id
    ensures forall i :: 0 <= i < |members| && members[i].id != patch.id ==> r[i] == members[i]
    ensures forall i :: 0 <= i < |members| && members[i].id == patch.id ==>
      && (patch.name.Some? ==> r[i].name == patch.name.value)
      && (patch.name.None? ==> r[i].name == members[i].name)
      && (patch.status.Some? ==> r[i].status == patch.status.value)
      && (patch.status.None? ==> r[i].status == members[i].status)
  {
    Seqs.Map(members, MergeIfId(patch))
  }

  /** Sending the same `PUT` twice has the effect of sending it once. */
  lemma PutMemberIdempotent(members: seq<Member>, patch: MemberPatch)
    ensures PutMember(PutMember(members, patch), patch) == PutMember(members, patch)
  {
    var once := PutMember(members, patch);
    var twice := PutMember(once, patch);
    forall i | 0 <= i < |members|
      ensures twice[i] == once[i]
    {
    }
  }

  function MemberId(m: Member): int {
    m.id
  }

  /** `DELETE ?id=`: the members with that id go, the rest stay in order. */
  function DeleteMember(members: seq<Member>, id: int): (r: seq<Member>)
    ensures forall i :: 0 <= i < |r| ==> r[i] in members && r[i].id != id
    ensures forall i :: 0 <= i < |members| && members[i].id != id ==> members[i] in r
  {
    DeleteById(members, MemberId, id)
  }

  lemma DeleteMemberIdempotent(members: seq<Member>, id: int)
    ensures DeleteMember(DeleteMember(members, id), id) == DeleteMember(members, id)
  {
    DeleteByIdIdempotent(members, MemberId, id);
  }
}

=== FILE: months.dfy ===
/** Calendar months. The application keys everything by canonical "YYYY-MM" strings, whose
    lexicographic order is the calendar order; here a month is a (year, month) pair and the
    order is that of its month index 12 * year + (month - 1). */
module Months {

  datatype YearMonth = YearMonth(year: int, month: int)

  /** A canonical month: the month number is between 1 and 12. */
  type Month = ym: YearMonth | 1 <= ym.month <= 12 witness YearMonth(2025, 1)

  /** The number of months since January of year 0. */
  function Index(m: Month): int {
    m.year * 12 + m.month - 1
  }

  /** The calendar order, which the application obtains by comparing "YYYY-MM" strings
      (`a.localeCompare(b)`, `sort()`, `>=` on the dates of the first of each month). */
  predicate Before(a: Month, b: Month) {
    Index(a) < Index(b)
  }

  /** Two months are equal exactly when their indexes are. */
  lemma IndexInjective(a: Month, b: Month)
    ensures Index(a) == Index(b) <==> a == b
  {
  }

  /** The month after `m`, rolling December over into January of the next year. */
  function Next(m: Month): (r: Month)
    ensures Index(r) == Index(m) + 1
  {
    if m.month == 12 then YearMonth(m.year + 1, 1) else YearMonth(m.year, m.month + 1)
  }

  /** The months from `start` to `end`, both included, one calendar month apart;
      empty when `start` comes after `end`. */
  function MonthsBetween(start: Month, end: Month): (r: seq<Month>)
    ensures |r| == if Index(start) <= Index(end) then Index(end) - Index(start) + 1 else 0
    ensures forall i :: 0 <= i < |r| ==> Index(r[i]) == Index(start) + i
    decreases Index(end) - Index(start)
  {
    if Index(start) > Index(end) then []
    else [start] + MonthsBetween(Next(start), end)
  }

  /** A month lies in `MonthsBetween(start, end)` exactly when it lies between the two. */
  lemma MonthsBetweenMember(start: Month, end: Month, m: Month)
    ensures m in MonthsBetween(start, end) <==> Index(start) <= Index(m) <= Index(end)
  {
    var r := MonthsBetween(start, end);
    if Index(start) <= Index(m) <= Index(end) {
      var i := Index(m) - Index(start);
      IndexInjective(r[i], m);
    }
  }

  /** `MonthsBetween` lists its months in strictly increasing order. */
  lemma MonthsBetweenIncreasing(start: Month, end: Month)
    ensures forall i, j :: 0 <= i < j < |MonthsBetween(start, end)| ==>
      Index(MonthsBetween(start, end)[i]) < Index(MonthsBetween(start, end)[j])
  {
  }

  /** The month enumeration written as the application's loop (`genMonths` in the
      dashboard): step a (year, month) pair forward until it passes `end`. */
  method GenMonths(start: Month, end: Month) returns (months: seq<Month>)
    ensures months == MonthsBetween(start, end)
  {
    months := [];
    var y, m := start.year, start.month;
    while y < end.year || (y == end.year && m <= end.month)
      invariant 1 <= m <= 12
      invariant months + MonthsBetween(YearMonth(y, m), end) == MonthsBetween(start, end)
      decreases Index(end) - Index(YearMonth(y, m))
    {
      var cur: Month := YearMonth(y, m);
      assert Index(cur) <= Index(end);
      months := months + [cur];
      m := m + 1;
      if m > 12 {
        m := 1;
        y := y + 1;
      }
      assert YearMonth(y, m) == Next(cur);
    }
    assert Index(YearMonth(y, m)) > Index(end);
  }

  /** The example of the year boundary: November 2025 to February 2026 is four months. */
  lemma YearRolloverExample()
    ensures MonthsBetween(YearMonth(2025, 11), YearMonth(2026, 2))
      == [YearMonth(2025, 11), YearMonth(2025, 12), YearMonth(2026, 1), YearMonth(2026, 2)]
  {
    var r := MonthsBetween(YearMonth(2025, 11), YearMonth(2026, 2));
    assert |r| == 4;
    IndexInjective(r[0], YearMonth(2025, 11));
    IndexInjective(r[1], YearMonth(2025, 12));
    IndexInjective(r[2], YearMonth(2026, 1));
    IndexInjective(r[3], YearMonth(2026, 2));
  }
}

=== FILE: options.dfy ===
/** An optional value: JavaScript's `undefined` result of `find`, `findIndex() < 0`,
    an absent request field, or an empty form field. */
module Options {

  datatype Option<+T> = None | Some(value: T) {

    /** The value, or `default` when there is none (JavaScript's `x ?? default`). */
    function GetOr(default: T): T {
      match this
      case Some(v) => v
      case None => default
    }
  }
}

=== FILE: payment.dfy ===
/** The payment page: a resident picks their name, any number of kas months (each with a
    residency status) and WiFi months, and a payment method; the page prices every entry,
    totals them, and before composing the WhatsApp message runs its checks in a fixed
    order. Month inputs start empty, modelled as `None`; the member select holds the
    chosen member's id, or nothing. */
module Payment {
  import opened Options
  import opened Seqs
  import opened Months
  import opened Records
  import opened Calculations
  import opened WifiAllocation

  datatype KasEntry = KasEntry(month: Option<Month>, status: string)

  datatype WifiEntry = WifiEntry(month: Option<Month>)

  /** The form: selected member, payment method id ("" until chosen) and the two entry lists. */
  datatype Form = Form(member: Option<int>, payWith: string, kas: seq<KasEntry>, wifi: seq<WifiEntry>)

  /** The data the page loads from the API. */
  datatype Store = Store(members: seq<Member>, bills: seq<WifiBill>, usage: seq<WifiUsage>, txs: seq<Transaction>)

  /** A new kas row: no month yet, status "full". */
  const BlankKas := KasEntry(None, FULL)

  /** A new WiFi row: no month yet. */
  const BlankWifi := WifiEntry(None)

  /** The form as the page first shows it. */
  const InitialForm := Form(None, "", [BlankKas], [BlankWifi])

  /** `getKasAmount`: the tariff of the entry's month and status, 0 while either is empty. */
  function GetKasAmount(e: KasEntry): (r: int)
    ensures r >= 0
    ensures r > 0 <==> e.month.Some? && e.status != ""
    ensures r > 0 ==> r == CalculateKas(e.month.value, e.status)
  {
    if e.month.None? || e.status == "" then 0
    else
      KasValues(e.month.value, e.status);
      CalculateKas(e.month.value, e.status)
  }

  /** `getWifiAmount`: the selected member's share of the entry's month, 0 while the member
      or the month is missing. */
  function GetWifiAmount(st: Store, member: Option<int>, e: WifiEntry): (r: int)
    ensures member.None? || e.month.None? ==> r == 0
    ensures member.Some? && e.month.Some? ==> r == MemberWifiShare(st.bills, st.usage, member.value, e.month.value)
  {
    if e.month.None? || member.None? then 0
    else MemberWifiShare(st.bills, st.usage, member.value, e.month.value)
  }

  /** `getWifiStatus`: the member's first declaration for the entry's month, searched over
      all declarations at once. */
  function GetWifiStatus(st: Store, member: Option<int>, e: WifiEntry): (r: Option<WifiUsage>)
    ensures r.Some? <==> member.Some? && e.month.Some?
                         && exists i :: 0 <= i < |st.usage| && SameSlot(member.value, e.month.value)(st.usage[i])
    ensures r.Some? ==> r.value in st.usage && r.value.memberId == member.value && r.value.month == e.month.value
  {
    if e.month.None? || member.None? then None
    else Find(st.usage, SameSlot(member.value, e.month.value))
  }

  /** The declaration the status line shows is the one the share is priced by: searching all
      declarations for member and month finds what searching the month's declarations for
      the member finds. */
  lemma WifiStatusIsFirstDeclaration(st: Store, memberId: int, month: Month)
    ensures GetWifiStatus(st, Some(memberId), WifiEntry(Some(month))) == FirstDeclaration(st.usage, memberId, month)
  {
    FindFilter(st.usage, UsageIsFor(month), DeclaredBy(memberId), SameSlot(memberId, month));
  }

  function KasAmountOf(e: KasEntry): int {
    GetKasAmount(e)
  }

  function WifiAmountOf(st: Store, member: Option<int>): WifiEntry -> int {
    (e: WifiEntry) => GetWifiAmount(st, member, e)
  }

  /** `totalKas`, over every kas row. */
  function TotalKas(f: Form): (r: int)
    ensures r >= 0
  {
    SumByNonNegative(f.kas, KasAmountOf);
    SumBy(f.kas, KasAmountOf)
  }

  /** `totalWifi`, over every WiFi row. */
  function TotalWifi(st: Store, f: Form): (r: int)
    ensures f.member.None? ==> r == 0
  {
    assert f.member.None? ==> SumBy(f.wifi, WifiAmountOf(st, f.member)) == 0 by {
      if f.member.None? {
        SumByZero(f.wifi, WifiAmountOf(st, f.member));
      }
    }
    SumBy(f.wifi, WifiAmountOf(st, f.member))
  }

  /** `totalPayment`. */
  function TotalPayment(st: Store, f: Form): (r: int)
    ensures r >= TotalWifi(st, f)
  {
    TotalKas(f) + TotalWifi(st, f)
  }

  /** Adding a row appends a blank one and leaves every other row as it was. */
  function AddEntry<T>(s: seq<T>, blank: T): (r: seq<T>)
    ensures |r| == |s| + 1 && r[..|s|] == s && r[|s|] == blank
  {
    s + [blank]
  }

  /** Removing row `i` (`entries.filter((_, idx) => idx !== i)`). */
  function RemoveEntry<T>(s: seq<T>, i: int): (r: seq<T>)
    ensures 0 <= i < |s| ==> |r| == |s| - 1
    ensures 0 <= i < |s| ==> forall j :: 0 <= j < i ==> r[j] == s[j]
    ensures 0 <= i < |s| ==> forall j :: i <= j < |r| ==> r[j] == s[j + 1]
    ensures !(0 <= i < |s|) ==> r == s
  {
    RemoveAt(s, i)
  }

  /** Removing a row drops exactly one occurrence of that row. */
  lemma RemoveEntryCount<T>(s: seq<T>, i: int)
    requires 0 <= i < |s|
    ensures multiset(RemoveEntry(s, i)) + multiset{s[i]} == multiset(s)
  {
    assert s == s[..i] + [s[i]] + s[i + 1..];
  }

  /** Removing the row just added restores the list. */
  lemma RemoveUndoesAdd<T>(s: seq<T>, blank: T)
    ensures RemoveEntry(AddEntry(s, blank), |s|) == s
  {
  }

  /** Changing one field of row `i` (`entries[i] = {...entries[i], [field]: val}`); the page
      only calls it with the index of a displayed row. */
  function UpdateEntry<T>(s: seq<T>, i: int, change: T -> T): (r: seq<T>)
    requires 0 <= i < |s|
    ensures |r| == |s| && r[i] == change(s[i])
    ensures forall j :: 0 <= j < |s| && j != i ==> r[j] == s[j]
  {
    s[i := change(s[i])]
  }

  function SetKasMonth(month: Option<Month>): KasEntry -> KasEntry {
    (e: KasEntry) => e.(month := month)
  }

  function SetKasStatus(status: string): KasEntry -> KasEntry {
    (e: KasEntry) => e.(status := status)
  }

  /** Setting a kas row's status keeps its month, and setting its month keeps its status. */
  lemma UpdateKasField(s: seq<KasEntry>, i: int, month: Option<Month>, status: string)
    requires 0 <= i < |s|
    ensures UpdateEntry(s, i, SetKasStatus(status))[i] == KasEntry(s[i].month, status)
    ensures UpdateEntry(s, i, SetKasMonth(month))[i] == KasEntry(month, s[i].status)
  {
  }

  /** `checkPaid(type, month)`: the selected member has a transaction of that type for
      that month. */
  function CheckPaid(txs: seq<Transaction>, member: Option<int>, kind: string, month: Month): (r: bool)
    ensures r <==> member.Some? && exists i :: 0 <= i < |txs| && PaidFor(member.value, kind, month)(txs[i])
  {
    member.Some? && Any(txs, PaidFor(member.value, kind, month))
  }

  /** The check agrees with the lookup the admin status view and the recap grid use. */
  lemma CheckPaidIsFirstPayment(txs: seq<Transaction>, memberId: int, kind: string, month: Month)
    ensures CheckPaid(txs, Some(memberId), kind, month) <==> FirstPayment(txs, memberId, kind, month).Some?
  {
  }

  /** The months of the rows that have one, in row order. */
  function Chosen(s: seq<Option<Month>>): (r: seq<Month>)
    ensures |r| <= |s|
    ensures forall x :: x in r <==> Some(x) in s
  {
    if |s| == 0 then []
    else
      var init := s[..|s| - 1];
      assert s == init + [s[|s| - 1]];
      match s[|s| - 1]
      case Some(x) => Chosen(init) + [x]
      case None => Chosen(init)
  }

  /** When every row has a month, none is dropped. */
  lemma {:induction false} ChosenAll(s: seq<Option<Month>>)
    requires forall i :: 0 <= i < |s| ==> s[i].Some?
    ensures |Chosen(s)| == |s|
    ensures forall i :: 0 <= i < |s| ==> Chosen(s)[i] == s[i].value
  {
    if |s| > 0 {
      ChosenAll(s[..|s| - 1]);
    }
  }

  function KasMonthOf(e: KasEntry): Option<Month> {
    e.month
  }

  function WifiMonthOf(e: WifiEntry): Option<Month> {
    e.month
  }

  /** `activeKas`: rows with a month and a positive amount. */
  function KasActive(e: KasEntry): bool {
    e.month.Some? && GetKasAmount(e) > 0
  }

  /** `activeWifi`: rows with a month and a positive WiFi share. */
  function WifiActive(st: Store, member: Option<int>): WifiEntry -> bool {
    (e: WifiEntry) => e.month.Some? && GetWifiAmount(st, member, e) > 0
  }

  function ActiveKas(f: Form): seq<KasEntry> {
    Filter(f.kas, KasActive)
  }

  function ActiveWifi(st: Store, f: Form): seq<WifiEntry> {
    Filter(f.wifi, WifiActive(st, f.member))
  }

  /** The months of the active kas rows, in row order. */
  function KasMonths(f: Form): seq<Month> {
    Chosen(Map(ActiveKas(f), KasMonthOf))
  }

  /** The months of the active WiFi rows, in row order. */
  function WifiMonths(st: Store, f: Form): seq<Month> {
    Chosen(Map(ActiveWifi(st, f), WifiMonthOf))
  }

  /** The message lists one month per active kas row, in row order. */
  lemma KasMonthsFollowRows(f: Form)
    ensures |KasMonths(f)| == |ActiveKas(f)|
    ensures forall i :: 0 <= i < |ActiveKas(f)| ==> Some(KasMonths(f)[i]) == ActiveKas(f)[i].month
  {
    var active := ActiveKas(f);
    forall i | 0 <= i < |active|
      ensures active[i].month.Some?
    {
      FilterMember(f.kas, KasActive, active[i]);
    }
    ChosenAll(Map(active, KasMonthOf));
  }

  /** An entry reported as already paid: "Kas <month>" or "WiFi <month>". */
  datatype PaidItem = PaidItem(kind: string, month: Month)

  function IsPaid(txs: seq<Transaction>, member: Option<int>, kind: string): Month -> bool {
    (m: Month) => CheckPaid(txs, member, kind, m)
  }

  function Tagged(kind: string): Month -> PaidItem {
    (m: Month) => PaidItem(kind, m)
  }

  /** The `issues` list: every active kas month already paid, then every active WiFi month
      already paid, each in row order. */
  function Issues(st: Store, f: Form): (r: seq<PaidItem>)
    ensures forall i :: 0 <= i < |r| ==> (r[i].kind == KAS || r[i].kind == WIFI) && CheckPaid(st.txs, f.member, r[i].kind, r[i].month)
    ensures forall i, j :: 0 <= i < j < |r| && r[j].kind == KAS ==> r[i].kind == KAS
  {
    var kas := Filter(KasMonths(f), IsPaid(st.txs, f.member, KAS));
    var wifi := Filter(WifiMonths(st, f), IsPaid(st.txs, f.member, WIFI));
    forall i | 0 <= i < |kas|
      ensures CheckPaid(st.txs, f.member, KAS, kas[i])
    {
      FilterMember(KasMonths(f), IsPaid(st.txs, f.member, KAS), kas[i]);
    }
    forall i | 0 <= i < |wifi|
      ensures CheckPaid(st.txs, f.member, WIFI, wifi[i])
    {
      FilterMember(WifiMonths(st, f), IsPaid(st.txs, f.member, WIFI), wifi[i]);
    }
    Map(Filter(KasMonths(f), IsPaid(st.txs, f.member, KAS)), Tagged(KAS))
      + Map(Filter(WifiMonths(st, f), IsPaid(st.txs, f.member, WIFI)), Tagged(WIFI))
  }

  function Undeclared(st: Store, member: Option<int>): Month -> bool {
    (m: Month) => GetWifiStatus(st, member, WifiEntry(Some(m))).None?
  }

  /** The payment methods the page offers, as (id, label). */
  const PaymentMethods: seq<(string, string)> :=
    [("bni", "BNI"), ("shopeepay", "ShopeePay"), ("gopay", "GoPay"), ("dana", "DANA")]

  function MethodIs(id: string): ((string, string)) -> bool {
    (m: (string, string)) => m.0 == id
  }

  /** `getMemberName`: the selected member's name, "" when no member carries the id. */
  function MemberName(members: seq<Member>, id: int): (r: string)
    ensures (forall i :: 0 <= i < |members| ==> members[i].id != id) ==> r == ""
    ensures forall i :: IsFirst(members, MemberIs(id), i) ==> r == members[i].name
  {
    match Find(members, MemberIs(id))
    case Some(m) => m.name
    case None => ""
  }

  /** What the message is composed from: name, method label, the months of each kind and
      the three totals. The wording and the WhatsApp link are not modelled. */
  datatype Request = Request(name: string, methodLabel: string, kasMonths: seq<Month>, totalKas: int,
                             wifiMonths: seq<Month>, totalWifi: int, total: int)

  /** The outcome of pressing the WhatsApp button: one of the warning pop-ups, the message,
      or `BadMethod` when the stored method id is none of the offered ones (the page then
      fails reading the label of a missing method). */
  datatype Outcome =
    | NoMember
    | NoMethod
    | NothingSelected
    | AlreadyPaid(items: seq<PaidItem>)
    | WifiNotDeclared(month: Month)
    | BadMethod
    | Send(request: Request)

  /** `handleWhatsApp`, its checks in the page's order. */
  function HandleWhatsApp(st: Store, f: Form): (r: Outcome)
    ensures r == NoMember <==> f.member.None?
    ensures r == NoMethod <==> f.member.Some? && f.payWith == ""
    ensures r == NothingSelected <==> f.member.Some? && f.payWith != "" && |ActiveKas(f)| == 0 && |ActiveWifi(st, f)| == 0
    ensures r.AlreadyPaid? <==>
      f.member.Some? && f.payWith != "" && (|ActiveKas(f)| > 0 || |ActiveWifi(st, f)| > 0) && |Issues(st, f)| > 0
    ensures r.AlreadyPaid? ==> |r.items| > 0 && r.items == Issues(st, f)
    ensures r.Send? || r.WifiNotDeclared? || r.BadMethod? ==> |Issues(st, f)| == 0
    ensures r.Send? ==> f.member.Some? && f.payWith != "" && (|ActiveKas(f)| > 0 || |ActiveWifi(st, f)| > 0)
    ensures r.Send? ==>
      && r.request.name == MemberName(st.members, f.member.value)
      && (exists k :: 0 <= k < |PaymentMethods| && PaymentMethods[k].0 == f.payWith && PaymentMethods[k].1 == r.request.methodLabel)
      && r.request.kasMonths == KasMonths(f) && r.request.totalKas == TotalKas(f)
      && r.request.wifiMonths == WifiMonths(st, f) && r.request.totalWifi == TotalWifi(st, f)
    ensures r.Send? ==> r.request.total == r.request.totalKas + r.request.totalWifi
  {
    if f.member.None? then NoMember
    else if f.payWith == "" then NoMethod
    else if |ActiveKas(f)| == 0 && |ActiveWifi(st, f)| == 0 then NothingSelected
    else if |Issues(st, f)| > 0 then AlreadyPaid(Issues(st, f))
    else
      match Find(WifiMonths(st, f), Undeclared(st, f.member))
      case Some(m) => WifiNotDeclared(m)
      case None =>
        match Find(PaymentMethods, MethodIs(f.payWith))
        case None => BadMethod
        case Some(offered) =>
          Send(Request(MemberName(st.members, f.member.value), offered.1, KasMonths(f), TotalKas(f),
                       WifiMonths(st, f), TotalWifi(st, f), TotalPayment(st, f)))
  }

  /** A month is reported as already paid exactly when some active row of that kind is for
      that month and the member has a transaction of that kind for it. */
  lemma IssuesListEveryPaidEntry(st: Store, f: Form, item: PaidItem)
    ensures item in Issues(st, f) <==>
      || (item.kind == KAS && (exists i :: 0 <= i < |f.kas| && KasActive(f.kas[i]) && f.kas[i].month == Some(item.month))
          && CheckPaid(st.txs, f.member, KAS, item.month))
      || (item.kind == WIFI && (exists i :: 0 <= i < |f.wifi| && WifiActive(st, f.member)(f.wifi[i]) && f.wifi[i].month == Some(item.month))
          && CheckPaid(st.txs, f.member, WIFI, item.month))
  {
    KasMonthIn(f, item.month);
    WifiMonthIn(st, f, item.month);
    TaggedIn(Filter(KasMonths(f), IsPaid(st.txs, f.member, KAS)), KAS, item);
    TaggedIn(Filter(WifiMonths(st, f), IsPaid(st.txs, f.member, WIFI)), WIFI, item);
    FilterMember(KasMonths(f), IsPaid(st.txs, f.member, KAS), item.month);
    FilterMember(WifiMonths(st, f), IsPaid(st.txs, f.member, WIFI), item.month);
  }

  lemma TaggedIn(ms: seq<Month>, kind: string, item: PaidItem)
    ensures item in Map(ms, Tagged(kind)) <==> item.kind == kind && item.month in ms
  {
    if item.kind == kind && item.month in ms {
      var i :| 0 <= i < |ms| && ms[i] == item.month;
      assert Map(ms, Tagged(kind))[i] == item;
    }
  }

  /** A month is listed for kas exactly when an active kas row is for it. */
  lemma KasMonthIn(f: Form, m: Month)
    ensures m in KasMonths(f) <==> exists i :: 0 <= i < |f.kas| && KasActive(f.kas[i]) && f.kas[i].month == Some(m)
  {
    var active := ActiveKas(f);
    var months := Map(active, KasMonthOf);
    if Some(m) in months {
      var k :| 0 <= k < |months| && months[k] == Some(m);
      FilterMember(f.kas, KasActive, active[k]);
    }
    forall i | 0 <= i < |f.kas| && KasActive(f.kas[i]) && f.kas[i].month == Some(m)
      ensures Some(m) in months
    {
      FilterMember(f.kas, KasActive, f.kas[i]);
      var k :| 0 <= k < |active| && active[k] == f.kas[i];
      assert months[k] == Some(m);
    }
  }

  /** A month is listed for WiFi exactly when an active WiFi row is for it. */
  lemma WifiMonthIn(st: Store, f: Form, m: Month)
    ensures m in WifiMonths(st, f) <==>
      exists i :: 0 <= i < |f.wifi| && WifiActive(st, f.member)(f.wifi[i]) && f.wifi[i].month == Some(m)
  {
    var p := WifiActive(st, f.member);
    var active := ActiveWifi(st, f);
    var months := Map(active, WifiMonthOf);
    if Some(m) in months {
      var k :| 0 <= k < |months| && months[k] == Some(m);
      FilterMember(f.wifi, p, active[k]);
    }
    forall i | 0 <= i < |f.wifi| && p(f.wifi[i]) && f.wifi[i].month == Some(m)
      ensures Some(m) in months
    {
      FilterMember(f.wifi, p, f.wifi[i]);
      var k :| 0 <= k < |active| && active[k] == f.wifi[i];
      assert months[k] == Some(m);
    }
  }

  /** A WiFi row with a positive share always has a declaration behind it, so the page's
      "fill in your WiFi usage first" check can never fire. */
  lemma ActiveWifiIsDeclared(st: Store, member: Option<int>, m: Month)
    requires GetWifiAmount(st, member, WifiEntry(Some(m))) > 0
    ensures GetWifiStatus(st, member, WifiEntry(Some(m))).Some?
  {
    WifiStatusIsFirstDeclaration(st, member.value, m);
  }

  lemma WifiNotDeclaredUnreachable(st: Store, f: Form)
    ensures !HandleWhatsApp(st, f).WifiNotDeclared?
  {
    var months := WifiMonths(st, f);
    var undeclared := Undeclared(st, f.member);
    forall k | 0 <= k < |months|
      ensures !undeclared(months[k])
    {
      WifiMonthIn(st, f, months[k]);
      var i :| 0 <= i < |f.wifi| && WifiActive(st, f.member)(f.wifi[i]) && f.wifi[i].month == Some(months[k]);
      ActiveWifiIsDeclared(st, f.member, months[k]);
    }
  }

  /** A message is composed only when nothing listed has been paid already and the WiFi
      months have declarations. */
  lemma SendOnlyUnpaid(st: Store, f: Form)
    requires HandleWhatsApp(st, f).Send?
    ensures forall m :: m in KasMonths(f) ==> !CheckPaid(st.txs, f.member, KAS, m)
    ensures forall m :: m in WifiMonths(st, f) ==> !CheckPaid(st.txs, f.member, WIFI, m)
    ensures forall m :: m in WifiMonths(st, f) ==> GetWifiStatus(st, f.member, WifiEntry(Some(m))).Some?
  {
    forall m | m in KasMonths(f)
      ensures !CheckPaid(st.txs, f.member, KAS, m)
    {
      IssuesListEveryPaidEntry(st, f, PaidItem(KAS, m));
      KasMonthIn(f, m);
    }
    forall m | m in WifiMonths(st, f)
      ensures !CheckPaid(st.txs, f.member, WIFI, m)
      ensures GetWifiStatus(st, f.member, WifiEntry(Some(m))).Some?
    {
      IssuesListEveryPaidEntry(st, f, PaidItem(WIFI, m));
      WifiMonthIn(st, f, m);
      ActiveWifiIsDeclared(st, f.member, m);
    }
  }

  /** The kas total in the message is the total of the kas months it lists: rows left out
      of the list contribute nothing. */
  lemma TotalKasOfActive(f: Form)
    ensures TotalKas(f) == SumBy(ActiveKas(f), KasAmountOf)
  {
    SumByFilter(f.kas, KasActive, KasAmountOf, KasAmountOf);
  }

  /** With non-negative bills the same holds for WiFi: inactive rows have a share of 0. */
  lemma TotalWifiOfActive(st: Store, f: Form)
    requires forall i :: 0 <= i < |st.bills| ==> st.bills[i].amount >= 0
    ensures TotalWifi(st, f) == SumBy(ActiveWifi(st, f), WifiAmountOf(st, f.member))
  {
    var g := WifiAmountOf(st, f.member);
    forall e: WifiEntry
      ensures g(e) == (if WifiActive(st, f.member)(e) then g(e) else 0)
    {
      WifiShareNonNegative(st, f.member, e);
    }
    SumByFilter(f.wifi, WifiActive(st, f.member), g, g);
  }

  lemma WifiShareNonNegative(st: Store, member: Option<int>, e: WifiEntry)
    requires forall i :: 0 <= i < |st.bills| ==> st.bills[i].amount >= 0
    ensures GetWifiAmount(st, member, e) >= 0
  {
    if member.Some? && e.month.Some? {
      var month := e.month.value;
      var bill := BillFor(st.bills, month);
      var hc := HeadcountOf(st.usage, month);
      if bill.Some? {
        HalfShareAtMostFullShare(bill.value.amount, hc.fullUsers, hc.halfUsers);
      }
    }
  }
}

=== FILE: records.dfy ===
/** The five record collections the application stores (members, transactions, WiFi bills,
    WiFi usage declarations and WiFi debts) and the string tags it compares against. */
module Records {
  import opened Options
  import opened Seqs
  import opened Months

  /** Transaction types. */
  const KAS := "kas"
  const WIFI := "wifi"
  const EXPENSE := "pengeluaran"

  /** Residency statuses and WiFi usage levels. */
  const FULL := "full"
  const HALF := "half"
  const NONE := "none"

  /** A resident. `status` is a free string: the forms offer "full", "half" and "none",
      but nothing on the write path checks it. */
  datatype Member = Member(id: int, name: string, status: string)

  /** A payment or expense. `kind` is the stored `type` field; `memberName` is a snapshot
      taken when the transaction was recorded (empty when absent); `date` is the posting
      time as a timestamp, distinct from the `month` paid for; expenses carry negative
      amounts and member id 0. */
  datatype Transaction = Transaction(
    id: int,
    memberId: int,
    memberName: string,
    kind: string,
    month: Month,
    amount: int,
    status: string,
    date: int,
    notes: string)

  /** The total WiFi bill of one month. */
  datatype WifiBill = WifiBill(month: Month, amount: int)

  /** A member's declaration of WiFi use for a month; `level` is "full" or "half". */
  datatype WifiUsage = WifiUsage(id: int, memberId: int, memberName: string, month: Month, level: string, date: int)

  /** A manually entered WiFi debt, possibly of someone who is no longer a member
      (member id 0 or an id no member carries). */
  datatype WifiDebt = WifiDebt(id: int, memberId: int, memberName: string, month: Month, amount: int)

  /** The member carrying `id` (`members.find(m => m.id === id)`). */
  function MemberIs(id: int): Member -> bool {
    (m: Member) => m.id == id
  }

  function TxAmount(t: Transaction): int {
    t.amount
  }

  /** The month a transaction pays for. */
  function TxMonth(t: Transaction): Month {
    t.month
  }

  /** JavaScript's `value || fallback` on an optional string field: an absent or empty
      string falls back. */
  function OrElse(value: Option<string>, fallback: string): (r: string)
    ensures value.Some? && value.value != "" ==> r == value.value
    ensures value.None? || value.value == "" ==> r == fallback
  {
    match value
    case Some(v) => if v != "" then v else fallback
    case None => fallback
  }

  /** A transaction of `kind` by member `memberId` for `month`: the predicate of every
      "has this member paid this month" lookup. */
  function PaidFor(memberId: int, kind: string, month: Month): Transaction -> bool {
    (t: Transaction) => t.memberId == memberId && t.kind == kind && t.month == month
  }

  /** The first transaction recording that payment (`transactions.find(...)`). */
  function FirstPayment(txs: seq<Transaction>, memberId: int, kind: string, month: Month): (r: Option<Transaction>)
    ensures r.Some? <==> exists i :: 0 <= i < |txs| && PaidFor(memberId, kind, month)(txs[i])
    ensures r.Some? ==> exists i :: IsFirst(txs, PaidFor(memberId, kind, month), i) && txs[i] == r.value
  {
    Find(txs, PaidFor(memberId, kind, month))
  }
}

=== FILE: rekap.dfy ===
/** The dashboard's yearly recap grid (`getRekapData`): one row per member, one cell per
    month of the chosen year, holding the amount of that member's first payment of the
    chosen type for the month, or nothing. */
module Rekap {
  import opened Options
  import opened Seqs
  import opened Months
  import opened Records

  datatype RekapRow = RekapRow(member: Member, cells: seq<Option<int>>)

  /** Month `k + 1` of `year`, for k in 0..11. */
  function MonthOfYear(year: int, k: nat): (r: Month)
    requires k < 12
    ensures r.year == year && Index(r) == 12 * year + k
  {
    YearMonth(year, k + 1)
  }

  /** One cell: the amount of the first matching payment, or nothing. */
  function Cell(txs: seq<Transaction>, memberId: int, kind: string, month: Month): Option<int> {
    match FirstPayment(txs, memberId, kind, month)
    case Some(t) => Some(t.amount)
    case None => None
  }

  function Row(txs: seq<Transaction>, kind: string, year: int, m: Member): (r: RekapRow)
    ensures r.member == m && |r.cells| == 12
  {
    RekapRow(m, seq(12, k requires 0 <= k < 12 => Cell(txs, m.id, kind, MonthOfYear(year, k))))
  }

  /** The grid for transactions of `kind` in `year`, rows in member order. */
  function RekapData(members: seq<Member>, txs: seq<Transaction>, kind: string, year: int): (r: seq<RekapRow>)
    ensures |r| == |members|
    ensures forall i :: 0 <= i < |members| ==> r[i].member == members[i] && |r[i].cells| == 12
  {
    seq(|members|, i requires 0 <= i < |members| => Row(txs, kind, year, members[i]))
  }

  /** A cell is filled exactly when the member has a payment of that type for that month of
      the year, and it then shows the amount of the first such payment. */
  lemma RekapCell(members: seq<Member>, txs: seq<Transaction>, kind: string, year: int, i: nat, k: nat)
    requires i < |members| && k < 12
    ensures var cell := RekapData(members, txs, kind, year)[i].cells[k];
      && (cell.Some? <==> exists j :: 0 <= j < |txs| && txs[j].memberId == members[i].id
                                      && txs[j].kind == kind && txs[j].month == YearMonth(year, k + 1))
      && (cell.Some? ==> exists j :: IsFirst(txs, PaidFor(members[i].id, kind, MonthOfYear(year, k)), j)
                                     && cell.value == txs[j].amount)
  {
    var month := MonthOfYear(year, k);
    var cell := RekapData(members, txs, kind, year)[i].cells[k];
    assert cell == Cell(txs, members[i].id, kind, month);
    if cell.Some? {
      var j :| IsFirst(txs, PaidFor(members[i].id, kind, month), j) && txs[j] == FirstPayment(txs, members[i].id, kind, month).value;
    } else {
      assert forall j :: 0 <= j < |txs| ==> !PaidFor(members[i].id, kind, month)(txs[j]);
    }
  }
}

=== FILE: seqs.dfy ===
/** Sequence operations the application uses on its record collections:
    `filter`, `find`, `findIndex`, `map` and `reduce` with a sum. */
module Seqs {
  import opened Options

  /** The elements of `s` satisfying `p`, in their original order (`Array.prototype.filter`). */
  function Filter<T>(s: seq<T>, p: T -> bool): (r: seq<T>)
    ensures |r| <= |s|
    decreases |s|
  {
    if |s| == 0 then []
    else Filter(s[..|s| - 1], p) + (if p(s[|s| - 1]) then [s[|s| - 1]] else [])
  }

  /** An element survives filtering exactly when it occurs in the input and satisfies `p`. */
  lemma {:induction false} FilterMember<T>(s: seq<T>, p: T -> bool, x: T)
    ensures x in Filter(s, p) <==> x in s && p(x)
    decreases |s|
  {
    if |s| > 0 {
      var init := s[..|s| - 1];
      assert s == init + [s[|s| - 1]];
      FilterMember(init, p, x);
    }
  }

  lemma FilterSnoc<T>(s: seq<T>, x: T, p: T -> bool)
    ensures Filter(s + [x], p) == Filter(s, p) + (if p(x) then [x] else [])
  {
    assert (s + [x])[..|s|] == s;
  }

  lemma {:induction false} FilterConcat<T>(a: seq<T>, b: seq<T>, p: T -> bool)
    ensures Filter(a + b, p) == Filter(a, p) + Filter(b, p)
    decreases |b|
  {
    if |b| == 0 {
      assert a + b == a;
    } else {
      var init := b[..|b| - 1];
      var x := b[|b| - 1];
      assert b == init + [x];
      assert a + b == (a + init) + [x];
      FilterSnoc(a + init, x, p);
      FilterSnoc(init, x, p);
      FilterConcat(a, init, p);
    }
  }

  /** Filtering keeps every element satisfying `p` as often as it occurs and drops every other. */
  lemma {:induction false} FilterCount<T>(s: seq<T>, p: T -> bool, x: T)
    ensures multiset(Filter(s, p))[x] == if p(x) then multiset(s)[x] else 0
    decreases |s|
  {
    if |s| > 0 {
      var init := s[..|s| - 1];
      assert s == init + [s[|s| - 1]];
      FilterCount(init, p, x);
    }
  }

  /** Filtering twice by the same predicate is filtering once. */
  lemma {:induction false} FilterIdempotent<T>(s: seq<T>, p: T -> bool)
    ensures Filter(Filter(s, p), p) == Filter(s, p)
    decreases |s|
  {
    if |s| > 0 {
      var init := s[..|s| - 1];
      var x := s[|s| - 1];
      assert s == init + [x];
      FilterIdempotent(init, p);
      FilterSnoc(init, x, p);
      if p(x) {
        assert Filter(s, p) == Filter(init, p) + [x];
        FilterSnoc(Filter(init, p), x, p);
      } else {
        assert Filter(s, p) == Filter(init, p);
      }
    }
  }

  /** Filtering keeps everything when every element satisfies `p`. */
  lemma {:induction false} FilterAll<T>(s: seq<T>, p: T -> bool)
    requires forall i :: 0 <= i < |s| ==> p(s[i])
    ensures Filter(s, p) == s
    decreases |s|
  {
    if |s| > 0 {
      var init := s[..|s| - 1];
      assert s == init + [s[|s| - 1]];
      FilterAll(init, p);
    }
  }

  /** Two predicates no element satisfies together select at most `|s|` elements between them. */
  lemma {:induction false} FilterDisjointLength<T>(s: seq<T>, p: T -> bool, q: T -> bool)
    requires forall i :: 0 <= i < |s| ==> !(p(s[i]) && q(s[i]))
    ensures |Filter(s, p)| + |Filter(s, q)| <= |s|
    decreases |s|
  {
    if |s| > 0 {
      FilterDisjointLength(s[..|s| - 1], p, q);
    }
  }

  /** The sum of `f` over `s` (`s.reduce((sum, x) => sum + f(x), 0)`). */
  function SumBy<T>(s: seq<T>, f: T -> int): int
    decreases |s|
  {
    if |s| == 0 then 0 else SumBy(s[..|s| - 1], f) + f(s[|s| - 1])
  }

  lemma SumBySnoc<T>(s: seq<T>, x: T, f: T -> int)
    ensures SumBy(s + [x], f) == SumBy(s, f) + f(x)
  {
    assert (s + [x])[..|s|] == s;
  }

  lemma {:induction false} SumByConcat<T>(a: seq<T>, b: seq<T>, f: T -> int)
    ensures SumBy(a + b, f) == SumBy(a, f) + SumBy(b, f)
    decreases |b|
  {
    if |b| == 0 {
      assert a + b == a;
    } else {
      var init := b[..|b| - 1];
      var x := b[|b| - 1];
      assert b == init + [x];
      assert a + b == (a + init) + [x];
      SumBySnoc(a + init, x, f);
      SumBySnoc(init, x, f);
      SumByConcat(a, init, f);
    }
  }

  /** A sum does not depend on the order of its terms. */
  lemma {:induction false} SumByPermutation<T>(a: seq<T>, b: seq<T>, f: T -> int)
    requires multiset(a) == multiset(b)
    ensures SumBy(a, f) == SumBy(b, f)
    decreases |b|
  {
    if |b| > 0 {
      var init := b[..|b| - 1];
      var x := b[|b| - 1];
      assert b == init + [x];
      assert x in multiset(a);
      var i :| 0 <= i < |a| && a[i] == x;
      var rest := a[..i] + a[i + 1..];
      assert a == a[..i] + [x] + a[i + 1..];
      assert multiset(rest) == multiset(a[..i]) + multiset(a[i + 1..]);
      assert multiset(a) == multiset(a[..i]) + multiset{x} + multiset(a[i + 1..]);
      assert multiset(a) == multiset(rest) + multiset{x};
      assert multiset(b) == multiset(init) + multiset{x};
      assert multiset(rest) == multiset(a) - multiset{x};
      assert multiset(init) == multiset(b) - multiset{x};
      SumByPermutation(rest, init, f);
      SumByConcat(a[..i] + [x], a[i + 1..], f);
      SumByConcat(a[..i], [x], f);
      SumByConcat(a[..i], a[i + 1..], f);
      assert SumBy([x], f) == f(x) by { assert [x][..0] == []; }
    }
  }

  /** Summing the filtered elements equals summing `g`, which is `f` on them and zero elsewhere. */
  lemma {:induction false} SumByFilter<T>(s: seq<T>, p: T -> bool, f: T -> int, g: T -> int)
    requires forall x :: g(x) == (if p(x) then f(x) else 0)
    ensures SumBy(Filter(s, p), f) == SumBy(s, g)
    decreases |s|
  {
    if |s| > 0 {
      var init := s[..|s| - 1];
      var x := s[|s| - 1];
      assert s == init + [x];
      SumByFilter(init, p, f, g);
      FilterSnoc(init, x, p);
      if p(x) {
        SumBySnoc(Filter(init, p), x, f);
      } else {
        assert Filter(s, p) == Filter(init, p);
        assert g(x) == 0;
      }
    }
  }

  /** The sum of a pointwise difference is the difference of the sums. */
  lemma {:induction false} SumByDifference<T>(s: seq<T>, f: T -> int, g: T -> int, h: T -> int)
    requires forall x :: h(x) == f(x) - g(x)
    ensures SumBy(s, h) == SumBy(s, f) - SumBy(s, g)
    decreases |s|
  {
    if |s| > 0 {
      SumByDifference(s[..|s| - 1], f, g, h);
    }
  }

  /** A sum of non-negative terms is non-negative. */
  lemma {:induction false} SumByNonNegative<T>(s: seq<T>, f: T -> int)
    requires forall i :: 0 <= i < |s| ==> f(s[i]) >= 0
    ensures SumBy(s, f) >= 0
    decreases |s|
  {
    if |s| > 0 {
      SumByNonNegative(s[..|s| - 1], f);
    }
  }

  /** A sum of zero terms is zero. */
  lemma {:induction false} SumByZero<T>(s: seq<T>, f: T -> int)
    requires forall i :: 0 <= i < |s| ==> f(s[i]) == 0
    ensures SumBy(s, f) == 0
    decreases |s|
  {
    if |s| > 0 {
      SumByZero(s[..|s| - 1], f);
    }
  }

  /** `i` is the index of the first element of `s` satisfying `p`. */
  predicate IsFirst<T>(s: seq<T>, p: T -> bool, i: int) {
    0 <= i < |s| && p(s[i]) && forall j :: 0 <= j < i ==> !p(s[j])
  }

  /** The index of the first element satisfying `p` (`findIndex`, with `None` for -1). */
  function FindIndex<T>(s: seq<T>, p: T -> bool): (r: Option<nat>)
    ensures r.Some? ==> r.value < |s| && p(s[r.value])
    ensures r.Some? ==> forall j :: 0 <= j < r.value ==> !p(s[j])
    ensures r.None? ==> forall j :: 0 <= j < |s| ==> !p(s[j])
    decreases |s|
  {
    if |s| == 0 then None
    else if p(s[0]) then Some(0)
    else
      match FindIndex(s[1..], p)
      case Some(i) => Some(i + 1)
      case None => None
  }

  /** The first element satisfying `p` (`find`). */
  function Find<T>(s: seq<T>, p: T -> bool): (r: Option<T>)
    ensures r.Some? <==> exists i :: 0 <= i < |s| && p(s[i])
    ensures r.Some? ==> r.value in s && p(r.value)
    ensures r.Some? ==> exists i :: IsFirst(s, p, i) && s[i] == r.value
  {
    match FindIndex(s, p)
    case Some(i) =>
      assert IsFirst(s, p, i);
      Some(s[i])
    case None => None
  }

  /** Searching a non-empty sequence looks at its head first. */
  lemma FindCons<T>(s: seq<T>, p: T -> bool)
    requires |s| > 0
    ensures Find(s, p) == if p(s[0]) then Some(s[0]) else Find(s[1..], p)
  {
    if !p(s[0]) {
      match FindIndex(s[1..], p)
      case Some(i) =>
        assert s[i + 1] == s[1..][i];
      case None =>
    }
  }

  /** Searching a concatenation searches the first part, then the second. */
  lemma {:induction false} FindConcat<T>(a: seq<T>, b: seq<T>, p: T -> bool)
    ensures Find(a + b, p) == if Find(a, p).Some? then Find(a, p) else Find(b, p)
    decreases |a|
  {
    if |a| == 0 {
      assert a + b == b;
    } else {
      FindCons(a + b, p);
      FindCons(a, p);
      assert (a + b)[1..] == a[1..] + b;
      FindConcat(a[1..], b, p);
    }
  }

  /** Searching the elements that satisfy `q` for one satisfying `p` finds the first
      element satisfying both (`pq`). */
  lemma {:induction false} FindFilter<T>(s: seq<T>, q: T -> bool, p: T -> bool, pq: T -> bool)
    requires forall x :: pq(x) == (q(x) && p(x))
    ensures Find(Filter(s, q), p) == Find(s, pq)
    decreases |s|
  {
    if |s| > 0 {
      var init := s[..|s| - 1];
      var x := s[|s| - 1];
      assert s == init + [x];
      FindFilter(init, q, p, pq);
      FindConcat(Filter(init, q), if q(x) then [x] else [], p);
      FindConcat(init, [x], pq);
      FindCons([x], pq);
      assert [x][1..] == [];
      if q(x) {
        FindCons([x], p);
      }
    }
  }

  /** Whether some element satisfies `p` (`some`). */
  predicate Any<T>(s: seq<T>, p: T -> bool) {
    exists i :: 0 <= i < |s| && p(s[i])
  }

  /** `f` applied to every element (`map`). */
  function Map<T, U>(s: seq<T>, f: T -> U): (r: seq<U>)
    ensures |r| == |s|
    ensures forall i :: 0 <= i < |s| ==> r[i] == f(s[i])
  {
    seq(|s|, i requires 0 <= i < |s| => f(s[i]))
  }

  /** `s` without its element at `i`; unchanged when `i` is no index of `s`
      (`s.filter((_, idx) => idx !== i)`). */
  function RemoveAt<T>(s: seq<T>, i: int): (r: seq<T>)
  {
    if 0 <= i < |s| then s[..i] + s[i + 1..] else s
  }

  function Reverse<T>(s: seq<T>): (r: seq<T>)
    ensures |r| == |s|
    ensures forall i :: 0 <= i < |s| ==> r[i] == s[|s| - 1 - i]
  {
    seq(|s|, i requires 0 <= i < |s| => s[|s| - 1 - i])
  }
}

=== FILE: sorting.dfy ===
/** Stable sorting by an integer key: the model of every `Array.prototype.sort` call
    in the application, whose comparators all subtract (or compare) one integer key.
    A descending sort is a sort by the negated key. */
module Sorting {

  /** `s` is in non-decreasing order of `key`. */
  predicate SortedBy<T>(s: seq<T>, key: T -> int) {
    forall i, j :: 0 <= i < j < |s| ==> key(s[i]) <= key(s[j])
  }

  /** Inserts `x` before the first element whose key is not smaller, so that `x`
      precedes the elements of `s` that share its key. */
  function InsertBy<T>(x: T, s: seq<T>, key: T -> int): (r: seq<T>)
    requires SortedBy(s, key)
    ensures SortedBy(r, key)
    ensures multiset(r) == multiset(s) + multiset{x}
    ensures |r| == |s| + 1
    ensures forall k :: 0 <= k < |r| ==> r[k] == x || r[k] in s
    decreases |s|
  {
    if |s| == 0 then [x]
    else if key(x) <= key(s[0]) then [x] + s
    else
      var rest := InsertBy(x, s[1..], key);
      assert s == [s[0]] + s[1..];
      [s[0]] + rest
  }

  /** Insertion sort: a sorted permutation of `s`. */
  function SortBy<T>(s: seq<T>, key: T -> int): (r: seq<T>)
    ensures SortedBy(r, key)
    ensures multiset(r) == multiset(s)
    ensures |r| == |s|
    decreases |s|
  {
    if |s| == 0 then []
    else
      assert s == [s[0]] + s[1..];
      InsertBy(s[0], SortBy(s[1..], key), key)
  }

  /** Sorting keeps exactly the elements of the input. */
  lemma SortByMembers<T>(s: seq<T>, key: T -> int, x: T)
    ensures x in SortBy(s, key) <==> x in s
  {
    assert x in SortBy(s, key) <==> x in multiset(SortBy(s, key));
    assert x in s <==> x in multiset(s);
  }

  /** `s` is in strictly increasing order of `key`. */
  predicate StrictlySortedBy<T>(s: seq<T>, key: T -> int) {
    forall i, j :: 0 <= i < j < |s| ==> key(s[i]) < key(s[j])
  }

  /** No two elements of `s` share a key. */
  predicate DistinctBy<T>(s: seq<T>, key: T -> int) {
    forall i, j :: 0 <= i < j < |s| ==> key(s[i]) != key(s[j])
  }

  /** Inserting an element with a new key into a strictly sorted sequence keeps it strict. */
  lemma {:induction false} InsertByStrict<T>(x: T, s: seq<T>, key: T -> int)
    requires StrictlySortedBy(s, key)
    requires forall k :: 0 <= k < |s| ==> key(s[k]) != key(x)
    ensures StrictlySortedBy(InsertBy(x, s, key), key)
    decreases |s|
  {
    if |s| > 0 && key(x) > key(s[0]) {
      InsertByStrict(x, s[1..], key);
      var rest := InsertBy(x, s[1..], key);
      assert InsertBy(x, s, key) == [s[0]] + rest;
      forall k | 0 <= k < |rest|
        ensures key(s[0]) < key(rest[k])
      {
        if rest[k] != x {
          var j :| 0 <= j < |s[1..]| && s[1..][j] == rest[k];
          assert s[j + 1] == rest[k];
        }
      }
    }
  }

  /** Sorting elements with pairwise distinct keys yields a strictly increasing order. */
  lemma {:induction false} SortByStrict<T>(s: seq<T>, key: T -> int)
    requires DistinctBy(s, key)
    ensures StrictlySortedBy(SortBy(s, key), key)
    decreases |s|
  {
    if |s| > 0 {
      var tail := s[1..];
      assert DistinctBy(tail, key) by {
        forall i, j | 0 <= i < j < |tail|
          ensures key(tail[i]) != key(tail[j])
        {
          assert tail[i] == s[i + 1] && tail[j] == s[j + 1];
        }
      }
      SortByStrict(tail, key);
      var sorted := SortBy(tail, key);
      forall k | 0 <= k < |sorted|
        ensures key(sorted[k]) != key(s[0])
      {
        SortByMembers(tail, key, sorted[k]);
        var j :| 0 <= j < |tail| && tail[j] == sorted[k];
        assert s[j + 1] == sorted[k];
      }
      assert s == [s[0]] + tail;
      InsertByStrict(s[0], sorted, key);
    }
  }
}

=== FILE: summary.dfy ===
/** The summary endpoint (`GET /api/summary`): the kas totals and balance, the current
    month's WiFi bill, every member's payment status for the current month, and the
    per-month chart of kas, WiFi and expense amounts. The current month is a parameter. */
module Summary {
  import opened Options
  import opened Seqs
  import opened Sorting
  import opened Grouping
  import opened Months
  import opened Records
  import opened Ledger
  import opened WifiAllocation

  function IsKind(kind: string): Transaction -> bool {
    (t: Transaction) => t.kind == kind
  }

  function Magnitude(t: Transaction): int {
    Abs(t.amount)
  }

  /** A transaction's contribution to each chart column: its amount for a kas or WiFi
      payment, the magnitude of an expense, and nothing for the other types. */
  function KasShare(t: Transaction): int {
    if t.kind == KAS then t.amount else 0
  }

  function WifiShare(t: Transaction): int {
    if t.kind == WIFI then t.amount else 0
  }

  function ExpenseShare(t: Transaction): int {
    if t.kind == EXPENSE then Abs(t.amount) else 0
  }

  /** Money in from kas payments only; WiFi payments are not counted. */
  function TotalPemasukan(txs: seq<Transaction>): (r: int)
    ensures r == SumBy(txs, KasShare)
  {
    SumByFilter(txs, IsKind(KAS), TxAmount, KasShare);
    SumBy(Filter(txs, IsKind(KAS)), TxAmount)
  }

  /** Money out: the magnitudes of the expenses. */
  function TotalPengeluaran(txs: seq<Transaction>): (r: int)
    ensures r >= 0
    ensures r == SumBy(txs, ExpenseShare)
  {
    var expenses := Filter(txs, IsKind(EXPENSE));
    SumByNonNegative(expenses, Magnitude);
    SumByFilter(txs, IsKind(EXPENSE), Magnitude, ExpenseShare);
    SumBy(expenses, Magnitude)
  }

  function KasBalance(txs: seq<Transaction>): int {
    TotalPemasukan(txs) - TotalPengeluaran(txs)
  }

  /** Income the summary leaves out of its balance: every amount that is neither a kas
      payment nor an expense (WiFi payments, and any other type). */
  function OtherIncome(t: Transaction): int {
    if t.kind == KAS || t.kind == EXPENSE then 0 else t.amount
  }

  /** The summary's kas balance and the dashboard ledger's final saldo disagree by exactly
      the WiFi (and other non-kas) income, which the ledger counts as debit and the summary
      does not. */
  lemma BalanceVersusLedger(txs: seq<Transaction>)
    ensures SumBy(txs, Debit) - SumBy(txs, Kredit) == KasBalance(txs) + SumBy(txs, OtherIncome)
  {
    assert forall t :: KasShare(t) == Debit(t) - OtherIncome(t);
    SumByDifference(txs, Debit, OtherIncome, KasShare);
    assert forall t :: ExpenseShare(t) == Kredit(t);
    SumByDifference(txs, Kredit, ZeroShare, ExpenseShare);
    assert SumBy(txs, ZeroShare) == 0 by {
      SumByZero(txs, ZeroShare);
    }
  }

  function ZeroShare(t: Transaction): int {
    0
  }

  /** Recording a transaction moves the totals by its own share: a kas payment raises the
      income by its amount, an expense raises the spending by its magnitude, and a WiFi
      payment changes neither, nor the balance. */
  lemma RecordingMovesTotals(txs: seq<Transaction>, t: Transaction)
    ensures TotalPemasukan(txs + [t]) == TotalPemasukan(txs) + (if t.kind == KAS then t.amount else 0)
    ensures TotalPengeluaran(txs + [t]) == TotalPengeluaran(txs) + (if t.kind == EXPENSE then Abs(t.amount) else 0)
    ensures t.kind == WIFI ==> KasBalance(txs + [t]) == KasBalance(txs)
  {
    SumBySnoc(txs, t, KasShare);
    SumBySnoc(txs, t, ExpenseShare);
  }

  /** The bill amount of the current month (`find(...)?.amount || 0`), 0 without a bill. */
  function CurrentWifiBill(bills: seq<WifiBill>, current: Month): (r: int)
    ensures (forall i :: 0 <= i < |bills| ==> bills[i].month != current) ==> r == 0
    ensures (exists i :: 0 <= i < |bills| && bills[i].month == current) ==>
      exists i :: IsFirst(bills, BillIsFor(current), i) && r == bills[i].amount
  {
    match BillFor(bills, current)
    case Some(b) => b.amount
    case None => 0
  }

  /** A member with their payment flags and amounts for the current month. */
  datatype MemberStatus = MemberStatus(member: Member, hasPaidKas: bool, hasPaidWifi: bool, kasAmount: int, wifiAmount: int)

  /** The amount of a payment found, or 0 (`tx?.amount || 0`). */
  function AmountOr0(found: Option<Transaction>): int {
    match found
    case Some(t) => t.amount
    case None => 0
  }

  /** A member's status: paid exactly when some transaction of that type records the
      member's payment for the month, with the amount of the first such transaction. */
  function StatusOf(txs: seq<Transaction>, current: Month, m: Member): (r: MemberStatus)
    ensures r.member == m
    ensures r.hasPaidKas <==> exists i :: 0 <= i < |txs| && PaidFor(m.id, KAS, current)(txs[i])
    ensures r.hasPaidWifi <==> exists i :: 0 <= i < |txs| && PaidFor(m.id, WIFI, current)(txs[i])
    ensures !r.hasPaidKas ==> r.kasAmount == 0
    ensures !r.hasPaidWifi ==> r.wifiAmount == 0
    ensures r.hasPaidKas ==> exists i :: IsFirst(txs, PaidFor(m.id, KAS, current), i) && r.kasAmount == txs[i].amount
    ensures r.hasPaidWifi ==> exists i :: IsFirst(txs, PaidFor(m.id, WIFI, current), i) && r.wifiAmount == txs[i].amount
  {
    var kasTx := FirstPayment(txs, m.id, KAS, current);
    var wifiTx := FirstPayment(txs, m.id, WIFI, current);
    MemberStatus(m, kasTx.Some?, wifiTx.Some?, AmountOr0(kasTx), AmountOr0(wifiTx))
  }

  function MemberStatuses(members: seq<Member>, txs: seq<Transaction>, current: Month): (r: seq<MemberStatus>)
    ensures |r| == |members|
    ensures forall i :: 0 <= i < |members| ==> r[i] == StatusOf(txs, current, members[i])
  {
    seq(|members|, i requires 0 <= i < |members| => StatusOf(txs, current, members[i]))
  }

  /** One chart point: the month and its kas, WiFi and expense totals. */
  datatype Bucket = Bucket(name: Month, kas: int, wifi: int, pengeluaran: int)

  function AddToBucket(b: Bucket, t: Transaction): Bucket {
    Bucket(b.name, b.kas + KasShare(t), b.wifi + WifiShare(t), b.pengeluaran + ExpenseShare(t))
  }

  /** A new month's bucket starts at zero and takes in its first transaction. */
  function OpenBucket(t: Transaction): Bucket {
    AddToBucket(Bucket(t.month, 0, 0, 0), t)
  }

  function BucketName(b: Bucket): int {
    Index(b.name)
  }

  function BucketKas(b: Bucket): int {
    b.kas
  }

  function BucketWifi(b: Bucket): int {
    b.wifi
  }

  function BucketPengeluaran(b: Bucket): int {
    b.pengeluaran
  }

  /** `monthlyData`: one bucket per month, in order of the month's first transaction. */
  function MonthlyGroups(txs: seq<Transaction>): (r: seq<Group<Month, Transaction, Bucket>>)
    ensures forall j :: 0 <= j < |r| ==> |r[j].items| > 0
    ensures forall j, k :: 0 <= j < k < |r| ==> r[j].key != r[k].key
  {
    GroupFold(txs, TxMonth, OpenBucket, AddToBucket)
  }

  /** `chartData`: the buckets in calendar order of their months. */
  function ChartData(txs: seq<Transaction>): (r: seq<Bucket>)
    ensures multiset(r) == multiset(Accs(MonthlyGroups(txs)))
    ensures SortedBy(r, BucketName)
  {
    SortBy(Accs(MonthlyGroups(txs)), BucketName)
  }

  /** A bucket built from transactions of one month carries that month's name. */
  lemma {:induction false} BucketNameOfItems(items: seq<Transaction>, k: Month)
    requires |items| > 0
    requires forall i :: 0 <= i < |items| ==> items[i].month == k
    ensures Accumulate(items, OpenBucket, AddToBucket).name == k
    decreases |items|
  {
    if |items| > 1 {
      BucketNameOfItems(items[..|items| - 1], k);
    }
  }

  /** Each bucket of the monthly grouping is named after its group's month and holds the
      kas, WiFi and expense totals of exactly that month's transactions. */
  lemma MonthlyBucket(txs: seq<Transaction>, j: nat)
    requires j < |MonthlyGroups(txs)|
    ensures var g := MonthlyGroups(txs)[j];
      && g.acc.name == g.key
      && g.acc.kas == SumBy(Matching(txs, TxMonth, g.key), KasShare)
      && g.acc.wifi == SumBy(Matching(txs, TxMonth, g.key), WifiShare)
      && g.acc.pengeluaran == SumBy(Matching(txs, TxMonth, g.key), ExpenseShare)
  {
    var g := MonthlyGroups(txs)[j];
    forall i | 0 <= i < |g.items|
      ensures g.items[i].month == g.key
    {
      FilterMember(txs, HasKey(TxMonth, g.key), g.items[i]);
    }
    BucketNameOfItems(g.items, g.key);
    AccumulateSum(g.items, OpenBucket, AddToBucket, BucketKas, KasShare);
    AccumulateSum(g.items, OpenBucket, AddToBucket, BucketWifi, WifiShare);
    AccumulateSum(g.items, OpenBucket, AddToBucket, BucketPengeluaran, ExpenseShare);
  }

  /** The chart's buckets are in strictly increasing month order: one bucket per month. */
  lemma ChartAscending(txs: seq<Transaction>)
    ensures StrictlySortedBy(ChartData(txs), BucketName)
  {
    var gs := MonthlyGroups(txs);
    var accs := Accs(gs);
    forall i, j | 0 <= i < j < |accs|
      ensures BucketName(accs[i]) != BucketName(accs[j])
    {
      MonthlyBucket(txs, i);
      MonthlyBucket(txs, j);
      IndexInjective(accs[i].name, accs[j].name);
    }
    SortByStrict(accs, BucketName);
  }

  /** The chart has a bucket for a month exactly when some transaction is for that month. */
  lemma ChartMonths(txs: seq<Transaction>, k: Month)
    ensures (exists b :: b in ChartData(txs) && b.name == k) <==> exists i :: 0 <= i < |txs| && txs[i].month == k
  {
    var gs := MonthlyGroups(txs);
    var accs := Accs(gs);
    var chart := ChartData(txs);
    if exists b :: b in chart && b.name == k {
      var b :| b in chart && b.name == k;
      assert b in multiset(accs);
      var j :| 0 <= j < |accs| && accs[j] == b;
      MonthlyBucket(txs, j);
      assert gs[j].items[0] in Matching(txs, TxMonth, k);
      FilterMember(txs, HasKey(TxMonth, k), gs[j].items[0]);
    }
    if exists i :: 0 <= i < |txs| && txs[i].month == k {
      var i :| 0 <= i < |txs| && txs[i].month == k;
      assert TxMonth(txs[i]) in Keys(gs);
      var j :| 0 <= j < |gs| && Keys(gs)[j] == k;
      MonthlyBucket(txs, j);
      assert accs[j] in multiset(chart);
    }
  }

  /** The chart loses no money: its kas, WiFi and expense columns add up to the kas
      income, the WiFi income and the spending over all transactions. */
  lemma ChartTotals(txs: seq<Transaction>)
    ensures SumBy(ChartData(txs), BucketKas) == TotalPemasukan(txs)
    ensures SumBy(ChartData(txs), BucketWifi) == SumBy(txs, WifiShare)
    ensures SumBy(ChartData(txs), BucketPengeluaran) == TotalPengeluaran(txs)
  {
    var accs := Accs(MonthlyGroups(txs));
    SumByPermutation(ChartData(txs), accs, BucketKas);
    SumByPermutation(ChartData(txs), accs, BucketWifi);
    SumByPermutation(ChartData(txs), accs, BucketPengeluaran);
    GroupFoldTotal(txs, TxMonth, OpenBucket, AddToBucket, BucketKas, KasShare);
    GroupFoldTotal(txs, TxMonth, OpenBucket, AddToBucket, BucketWifi, WifiShare);
    GroupFoldTotal(txs, TxMonth, OpenBucket, AddToBucket, BucketPengeluaran, ExpenseShare);
  }

  /** The whole response. */
  datatype SummaryData = SummaryData(
    kasBalance: int,
    totalPemasukan: int,
    totalPengeluaran: int,
    currentWifiBill: int,
    currentMonth: Month,
    memberStatus: seq<MemberStatus>,
    chartData: seq<Bucket>,
    totalMembers: nat,
    totalTransactions: nat)

  function SummaryOf(members: seq<Member>, txs: seq<Transaction>, bills: seq<WifiBill>, current: Month)
    : (r: SummaryData)
    ensures r.kasBalance == r.totalPemasukan - r.totalPengeluaran
    ensures r.totalPemasukan == SumBy(txs, KasShare) && r.totalPengeluaran == SumBy(txs, ExpenseShare)
    ensures r.totalPengeluaran >= 0
    ensures |r.memberStatus| == r.totalMembers == |members| && r.totalTransactions == |txs|
    ensures forall i :: 0 <= i < |members| ==> r.memberStatus[i].member == members[i]
    ensures SortedBy(r.chartData, BucketName)
    ensures r.currentMonth == current
    ensures r.currentWifiBill == CurrentWifiBill(bills, current)
    ensures r.memberStatus == MemberStatuses(members, txs, current) && r.chartData == ChartData(txs)
  {
    SummaryData(KasBalance(txs), TotalPemasukan(txs), TotalPengeluaran(txs), CurrentWifiBill(bills, current),
                current, MemberStatuses(members, txs, current), ChartData(txs), |members|, |txs|)
  }
}

=== FILE: transactions_route.dfy ===
/** `/api/transactions`: `POST` appends one transaction built from the request body with a
    fresh id and the posting time, and `DELETE` removes a transaction by id. The fresh id
    (`Date.now()`) and the posting time are parameters. */
module TransactionsRoute {
  import opened Options
  import opened Months
  import opened Records
  import opened Collections

  /** The posted fields; `status` and `notes` may be absent. */
  datatype TxBody = TxBody(
    memberId: int,
    memberName: string,
    kind: string,
    month: Month,
    amount: int,
    status: Option<string>,
    notes: Option<string>)

  function TxId(t: Transaction): int {
    t.id
  }

  /** The new transaction: the body's fields, with an absent or empty status or notes
      stored as "" (`body.status || ''`). */
  function NewTransaction(body: TxBody, freshId: int, now: int): (t: Transaction)
    ensures t.id == freshId && t.date == now
    ensures t.memberId == body.memberId && t.memberName == body.memberName && t.kind == body.kind
    ensures t.month == body.month && t.amount == body.amount
    ensures body.status.None? ==> t.status == ""
    ensures body.status.Some? ==> t.status == body.status.value
    ensures body.notes.None? ==> t.notes == ""
    ensures body.notes.Some? ==> t.notes == body.notes.value
  {
    Transaction(freshId, body.memberId, body.memberName, body.kind, body.month, body.amount,
                OrElse(body.status, ""), now, OrElse(body.notes, ""))
  }

  /** `POST`: exactly one transaction is added, at the end; the others are untouched. */
  function PostTransaction(txs: seq<Transaction>, body: TxBody, freshId: int, now: int): (r: seq<Transaction>)
    ensures |r| == |txs| + 1
    ensures r[..|txs|] == txs
    ensures r[|txs|] == NewTransaction(body, freshId, now)
  {
    txs + [NewTransaction(body, freshId, now)]
  }

  /** `DELETE ?id=`: every transaction with that id goes, the rest stay in order. */
  function DeleteTransaction(txs: seq<Transaction>, id: int): (r: seq<Transaction>)
    ensures forall i :: 0 <= i < |r| ==> r[i] in txs && r[i].id != id
    ensures forall i :: 0 <= i < |txs| && txs[i].id != id ==> txs[i] in r
  {
    DeleteById(txs, TxId, id)
  }

  /** Deleting a transaction posted under a fresh id restores the list. */
  lemma DeleteUndoesPost(txs: seq<Transaction>, body: TxBody, freshId: int, now: int)
    requires forall i :: 0 <= i < |txs| ==> txs[i].id != freshId
    ensures DeleteTransaction(PostTransaction(txs, body, freshId, now), freshId) == txs
  {
    DeleteUndoesAppend(txs, NewTransaction(body, freshId, now), TxId);
  }

  /** Deleting twice by the same id is deleting once. */
  lemma DeleteTransactionIdempotent(txs: seq<Transaction>, id: int)
    ensures DeleteTransaction(DeleteTransaction(txs, id), id) == DeleteTransaction(txs, id)
  {
    DeleteByIdIdempotent(txs, TxId, id);
  }
}

=== FILE: usage_route.dfy ===
/** `/api/wifi-usage`: `POST` upserts a member's WiFi declaration for a month, keyed by
    (member id, month), and `DELETE` removes by id. The fresh id (`Date.now()`) and the
    posting time are parameters. */
module UsageRoute {
  import opened Seqs
  import opened Months
  import opened Records
  import opened Collections
  import opened WifiAllocation

  /** The posted declaration. */
  datatype UsageBody = UsageBody(memberId: int, memberName: string, month: Month, level: string)

  function Declared(body: UsageBody, id: int, now: int): WifiUsage {
    WifiUsage(id, body.memberId, body.memberName, body.month, body.level, now)
  }

  /** `POST`: the first declaration for the same slot is replaced in place and keeps its
      id; without one, a new declaration with the fresh id is appended. */
  function PostUsage(usage: seq<WifiUsage>, body: UsageBody, freshId: int, now: int): (r: seq<WifiUsage>)
    ensures forall i :: IsFirst(usage, SameSlot(body.memberId, body.month), i) ==>
      && |r| == |usage|
      && r[i] == Declared(body, usage[i].id, now)
      && (forall k :: 0 <= k < |usage| && k != i ==> r[k] == usage[k])
    ensures (forall k :: 0 <= k < |usage| ==> !SameSlot(body.memberId, body.month)(usage[k])) ==>
      r == usage + [Declared(body, freshId, now)]
    ensures exists i ::
      IsFirst(r, SameSlot(body.memberId, body.month), i) && r[i].level == body.level && r[i].memberName == body.memberName
  {
    match FindIndex(usage, SameSlot(body.memberId, body.month))
    case Some(i) =>
      var r := usage[i := Declared(body, usage[i].id, now)];
      assert IsFirst(r, SameSlot(body.memberId, body.month), i);
      r
    case None =>
      var r := usage + [Declared(body, freshId, now)];
      assert IsFirst(r, SameSlot(body.memberId, body.month), |usage|);
      r
  }

  /** At most one declaration per (member, month). */
  predicate OnePerSlot(usage: seq<WifiUsage>) {
    forall i, j :: 0 <= i < j < |usage| ==>
      !(usage[i].memberId == usage[j].memberId && usage[i].month == usage[j].month)
  }

  /** Upserting keeps the collection free of duplicate slots. */
  lemma PostUsageOnePerSlot(usage: seq<WifiUsage>, body: UsageBody, freshId: int, now: int)
    requires OnePerSlot(usage)
    ensures OnePerSlot(PostUsage(usage, body, freshId, now))
  {
    var r := PostUsage(usage, body, freshId, now);
    var p := SameSlot(body.memberId, body.month);
    match FindIndex(usage, p)
    case Some(i) =>
      assert IsFirst(usage, p, i);
      forall a, b | 0 <= a < b < |r|
        ensures !(r[a].memberId == r[b].memberId && r[a].month == r[b].month)
      {
        if a == i {
          assert !p(usage[b]);
        }
      }
    case None =>
      assert forall k :: 0 <= k < |usage| ==> !p(usage[k]);
  }

  /** After a `POST` the member is charged at the level just declared: the declaration the
      share computation finds for the member and month carries the posted level. */
  lemma PostedLevelIsCharged(usage: seq<WifiUsage>, body: UsageBody, freshId: int, now: int)
    requires OnePerSlot(usage)
    ensures FirstDeclaration(PostUsage(usage, body, freshId, now), body.memberId, body.month).Some?
    ensures FirstDeclaration(PostUsage(usage, body, freshId, now), body.memberId, body.month).value.level == body.level
  {
    var r := PostUsage(usage, body, freshId, now);
    PostUsageOnePerSlot(usage, body, freshId, now);
    var i :| IsFirst(r, SameSlot(body.memberId, body.month), i) && r[i].level == body.level;
    var d := FirstDeclaration(r, body.memberId, body.month);
    assert r[i].memberId == body.memberId && r[i].month == body.month;
    var k :| 0 <= k < |r| && r[k] == d.value;
    if k < i {
      assert false;
    } else if i < k {
      assert false;
    }
  }

  function UsageId(u: WifiUsage): int {
    u.id
  }

  /** `DELETE ?id=`: the declarations with that id go, the rest stay in order. */
  function DeleteUsage(usage: seq<WifiUsage>, id: int): (r: seq<WifiUsage>)
    ensures forall i :: 0 <= i < |r| ==> r[i] in usage && r[i].id != id
    ensures forall i :: 0 <= i < |usage| && usage[i].id != id ==> usage[i] in r
  {
    DeleteById(usage, UsageId, id)
  }

  lemma DeleteUsageIdempotent(usage: seq<WifiUsage>, id: int)
    ensures DeleteUsage(DeleteUsage(usage, id), id) == DeleteUsage(usage, id)
  {
    DeleteByIdIdempotent(usage, UsageId, id);
  }
}

=== FILE: wifi_allocation.dfy ===
/** The per-member WiFi share as the pages compute it inline from the stored bills and
    usage declarations: `calcWifiForMember` on the admin page, `getWifiAmount` on the
    payment page and the preview on the WiFi page. Each of them counts the month's full and
    half declarations and applies the `calculateWifi` formula to the month's bill. */
module WifiAllocation {
  import opened Options
  import opened Seqs
  import opened Months
  import opened Records
  import opened Calculations

  function BillIsFor(month: Month): WifiBill -> bool {
    (b: WifiBill) => b.month == month
  }

  /** The first bill recorded for `month` (`wifiBills.find(b => b.month === month)`). */
  function BillFor(bills: seq<WifiBill>, month: Month): (r: Option<WifiBill>)
    ensures r.Some? <==> exists i :: 0 <= i < |bills| && bills[i].month == month
    ensures r.Some? ==> exists i :: IsFirst(bills, BillIsFor(month), i) && bills[i] == r.value
  {
    Find(bills, BillIsFor(month))
  }

  function UsageIsFor(month: Month): WifiUsage -> bool {
    (u: WifiUsage) => u.month == month
  }

  function LevelIs(level: string): WifiUsage -> bool {
    (u: WifiUsage) => u.level == level
  }

  function DeclaredBy(memberId: int): WifiUsage -> bool {
    (u: WifiUsage) => u.memberId == memberId
  }

  /** A declaration by the member for the month: the key under which declarations are
      looked up and upserted. */
  function SameSlot(memberId: int, month: Month): WifiUsage -> bool {
    (u: WifiUsage) => u.memberId == memberId && u.month == month
  }

  /** The declarations for `month`, in stored order. */
  function UsageOfMonth(usage: seq<WifiUsage>, month: Month): seq<WifiUsage> {
    Filter(usage, UsageIsFor(month))
  }

  /** How many of `us` declare `level`. */
  function CountLevel(us: seq<WifiUsage>, level: string): nat {
    |Filter(us, LevelIs(level))|
  }

  /** The month's number of full and of half users. Declarations with any other level
      are counted in neither. */
  datatype Headcount = Headcount(fullUsers: nat, halfUsers: nat)

  function HeadcountOf(usage: seq<WifiUsage>, month: Month): (r: Headcount)
    ensures r.fullUsers + r.halfUsers <= |UsageOfMonth(usage, month)|
  {
    var mu := UsageOfMonth(usage, month);
    FilterDisjointLength(mu, LevelIs(FULL), LevelIs(HALF));
    Headcount(CountLevel(mu, FULL), CountLevel(mu, HALF))
  }

  /** The share `calculateWifi` assigns to a user of `level`: the half share for "half" and
      the full share for every other level. */
  function ShareFor(shares: WifiShares, level: string): int {
    if level == HALF then shares.halfShare else shares.fullShare
  }

  /** The inline formula `Math.round(unitCost * 0.75)` for "half" and `Math.round(unitCost)`
      otherwise, where `unitCost = amount / (fullUsers + 0.75 * halfUsers)`. It is the share
      `calculateWifi` computes, including for a bill of 0, which `calculateWifi` treats
      separately and the inline formula does not. */
  function LevelShare(amount: int, hc: Headcount, level: string): (r: int)
    requires hc.fullUsers + hc.halfUsers > 0
    ensures r == ShareFor(CalculateWifi(amount, hc.fullUsers, hc.halfUsers), level)
  {
    var units := Units(hc.fullUsers, hc.halfUsers);
    RoundDivZero(units);
    if level == HALF then RoundDiv(3 * amount, units) else RoundDiv(4 * amount, units)
  }

  lemma RoundDivZero(q: int)
    requires q > 0
    ensures RoundDiv(0, q) == 0
  {
    RoundsToUnique(RoundDiv(0, q), 0, 0, q);
  }

  /** The member's first declaration for `month` (`monthUsage.find(u => u.memberId === memberId)`). */
  function FirstDeclaration(usage: seq<WifiUsage>, memberId: int, month: Month): (r: Option<WifiUsage>)
    ensures r.Some? <==> exists i :: 0 <= i < |usage| && usage[i].memberId == memberId && usage[i].month == month
    ensures r.Some? ==> r.value in usage && r.value.memberId == memberId && r.value.month == month
    ensures r.Some? ==> exists i :: IsFirst(usage, SameSlot(memberId, month), i) && usage[i] == r.value
  {
    FindInMonth(usage, memberId, month);
    FindFilter(usage, UsageIsFor(month), DeclaredBy(memberId), SameSlot(memberId, month));
    Find(UsageOfMonth(usage, month), DeclaredBy(memberId))
  }

  /** Searching the month's declarations for the member finds a declaration exactly when
      the member declared for that month. */
  lemma FindInMonth(usage: seq<WifiUsage>, memberId: int, month: Month)
    ensures var r := Find(UsageOfMonth(usage, month), DeclaredBy(memberId));
      && (r.Some? <==> exists i :: 0 <= i < |usage| && usage[i].memberId == memberId && usage[i].month == month)
      && (r.Some? ==> r.value in usage && r.value.memberId == memberId && r.value.month == month)
  {
    var mu := UsageOfMonth(usage, month);
    var r := Find(mu, DeclaredBy(memberId));
    if r.Some? {
      FilterMember(usage, UsageIsFor(month), r.value);
    }
    forall i | 0 <= i < |usage| && usage[i].memberId == memberId && usage[i].month == month
      ensures r.Some?
    {
      FilterMember(usage, UsageIsFor(month), usage[i]);
      var k :| 0 <= k < |mu| && mu[k] == usage[i];
      assert DeclaredBy(memberId)(mu[k]);
    }
  }

  /** `calcWifiForMember(memberId, month)` on the admin page, and `getWifiAmount` on the
      payment page once a member and a month are chosen: 0 unless the month has a bill,
      some full or half declaration, and a declaration by the member; otherwise the
      `calculateWifi` share of the member's declared level. */
  function MemberWifiShare(bills: seq<WifiBill>, usage: seq<WifiUsage>, memberId: int, month: Month): (r: int)
    ensures r != 0 ==>
      && BillFor(bills, month).Some?
      && HeadcountOf(usage, month).fullUsers + HeadcountOf(usage, month).halfUsers > 0
      && FirstDeclaration(usage, memberId, month).Some?
    ensures BillFor(bills, month).Some? && FirstDeclaration(usage, memberId, month).Some? ==>
      r == ShareFor(CalculateWifi(BillFor(bills, month).value.amount, HeadcountOf(usage, month).fullUsers,
                                  HeadcountOf(usage, month).halfUsers),
                    FirstDeclaration(usage, memberId, month).value.level)
  {
    var bill := BillFor(bills, month);
    var hc := HeadcountOf(usage, month);
    if bill.None? || hc.fullUsers + hc.halfUsers == 0 then 0
    else
      match FirstDeclaration(usage, memberId, month)
      case None => 0
      case Some(mine) => LevelShare(bill.value.amount, hc, mine.level)
  }

  /** The preview on the WiFi page: the share of the level being SELECTED in the form, not
      of any stored declaration; 0 without a bill or without full and half declarations. */
  function PreviewAmount(bills: seq<WifiBill>, usage: seq<WifiUsage>, month: Month, level: string): (r: int)
    ensures BillFor(bills, month).None? ==> r == 0
    ensures BillFor(bills, month).Some? ==>
      r == ShareFor(CalculateWifi(BillFor(bills, month).value.amount, HeadcountOf(usage, month).fullUsers,
                                  HeadcountOf(usage, month).halfUsers), level)
  {
    var bill := BillFor(bills, month);
    var hc := HeadcountOf(usage, month);
    if bill.Some? && hc.fullUsers + hc.halfUsers > 0 then LevelShare(bill.value.amount, hc, level)
    else 0
  }

  /** A preview for a level the member has in fact declared as their first declaration is
      what the admin and payment pages will charge them. */
  lemma PreviewMatchesCharge(bills: seq<WifiBill>, usage: seq<WifiUsage>, memberId: int, month: Month)
    requires FirstDeclaration(usage, memberId, month).Some?
    ensures PreviewAmount(bills, usage, month, FirstDeclaration(usage, memberId, month).value.level)
      == MemberWifiShare(bills, usage, memberId, month)
  {
  }
}

=== FILE: wifi_page.dfy ===
/** The WiFi declaration page: a resident picks their name, a month and a level and
    submits, which posts the declaration to `/api/wifi-usage`; next to the form the page
    previews the share the chosen level would cost. */
module WifiPage {
  import opened Options
  import opened Seqs
  import opened Months
  import opened Records
  import opened WifiAllocation
  import opened UsageRoute

  /** The form: selected member id, month (empty when cleared) and level. */
  datatype Form = Form(member: Option<int>, month: Option<Month>, level: string)

  /** The result of pressing submit: one of the two warning pop-ups, a failure when the
      selected id belongs to no loaded member (the page then reads the name of a missing
      member), or the posted body together with whether the page announces it as a change
      of an existing declaration rather than a new one. */
  datatype Submitted =
    | NoMemberChosen
    | NoMonthChosen
    | UnknownMember
    | Posted(body: UsageBody, replacing: bool)

  /** `handleSubmit`. Both branches post the same body; only the success message differs. */
  function Submit(members: seq<Member>, usage: seq<WifiUsage>, f: Form): (r: Submitted)
    ensures r == NoMemberChosen <==> f.member.None?
    ensures r == NoMonthChosen <==> f.member.Some? && f.month.None?
    ensures r == UnknownMember <==>
      f.member.Some? && f.month.Some? && forall i :: 0 <= i < |members| ==> members[i].id != f.member.value
    ensures r.Posted? ==>
      && f.member.Some? && f.month.Some?
      && r.body.memberId == f.member.value && r.body.month == f.month.value && r.body.level == f.level
      && exists i :: IsFirst(members, MemberIs(f.member.value), i) && members[i].name == r.body.memberName
    ensures r.Posted? ==>
      (r.replacing <==> exists i :: 0 <= i < |usage| && SameSlot(f.member.value, f.month.value)(usage[i]))
  {
    if f.member.None? then NoMemberChosen
    else if f.month.None? then NoMonthChosen
    else
      match Find(members, MemberIs(f.member.value))
      case None => UnknownMember
      case Some(m) =>
        var existing := Find(usage, SameSlot(f.member.value, f.month.value));
        Posted(UsageBody(f.member.value, m.name, f.month.value, f.level), existing.Some?)
  }

  /** Once the submitted declaration is stored, the member is charged for that month at the
      submitted level, and the preview of that level, computed on the stored declarations,
      is exactly the charge. */
  lemma SubmittedLevelIsCharged(members: seq<Member>, bills: seq<WifiBill>, usage: seq<WifiUsage>, f: Form,
                                freshId: int, now: int)
    requires OnePerSlot(usage)
    requires Submit(members, usage, f).Posted?
    ensures var stored := PostUsage(usage, Submit(members, usage, f).body, freshId, now);
      && FirstDeclaration(stored, f.member.value, f.month.value).Some?
      && FirstDeclaration(stored, f.member.value, f.month.value).value.level == f.level
      && MemberWifiShare(bills, stored, f.member.value, f.month.value) == PreviewAmount(bills, stored, f.month.value, f.level)
  {
    var body := Submit(members, usage, f).body;
    var stored := PostUsage(usage, body, freshId, now);
    PostedLevelIsCharged(usage, body, freshId, now);
    PreviewMatchesCharge(bills, stored, f.member.value, f.month.value);
  }

  /** Submitting again for the same member and month replaces rather than adds: the stored
      collection keeps its length. */
  lemma ResubmitKeepsCount(members: seq<Member>, usage: seq<WifiUsage>, f: Form, freshId: int, now: int)
    requires Submit(members, usage, f).Posted? && Submit(members, usage, f).replacing
    ensures |PostUsage(usage, Submit(members, usage, f).body, freshId, now)| == |usage|
  {
    var body := Submit(members, usage, f).body;
    var p := SameSlot(body.memberId, body.month);
    var i :| 0 <= i < |usage| && p(usage[i]);
    match FindIndex(usage, p)
    case Some(k) =>
      assert IsFirst(usage, p, k);
    case None =>
  }
}
